=== FILE: README.md ===
# Forward error correction codecs of the Alien Arcade BER simulator

This project is a Dafny model of the binary block codecs behind the Alien Arcade bit-error-rate simulator. It covers three implementations and proves properties of each.

- **Codec library** (`lib/protocols.ts`). This is a generic repetition code and a generic binary Hamming code for any length `n = 2^m - 1`. Parity bits sit at the power-of-two positions. The decoder forms a syndrome and flips a single bit. The library also has factories that build `{id, label, rate, encode, decode}` protocol records, and the fixed `PROTOCOLS` table.
- **Web simulator** (`components/alien-arcade-gui.tsx`). It has its own hard-wired codecs:
  - a repetition codec;
  - Hamming (7,4) and (15,11) codecs written as explicit parity sums. These drop a partial final block and never correct.

  It also has the bookkeeping of `simulateBer` and of the plot:
  - the dispatch from the code name to rate, encoder and decoder;
  - the error count over the common prefix;
  - the sweep over whole SNR values, with `ber || 1e-6` as the plot floor.
- **Offline script** (`scripts/alien-arcade-ber.py`). It has numpy matrix codecs:
  - repetition by `reshape` and row sums;
  - Hamming (7,4) by a generator matrix `G` and a parity-check matrix `H`, with syndrome correction;
  - a systematic "(15,11)" code that sends four parity bits in front of the data and never corrects.

Bits are `seq<Bit>`, where `Bit` is the integers 0 and 1. Positions in the Hamming code are 1-indexed, as in the source.

Bitwise operations are modelled as follows:
- `pos & 2^i` becomes the recursive `Binary.BitAnd`, and `syndrome |= p` becomes `Binary.BitOr`. Both are connected to the bits of a number by lemmas.
- `isPowerOfTwo` is the source's test `n > 0 && (n & (n - 1)) === 0`. `Binary.IsPowerOfTwoIff` proves that this test is `exists i :: n == 2^i`.
- `Math.ceil(Math.log2(n + 1))` is the least `m` with `n + 1 <= 2^m`. This is `Binary.CeilLog2`.

Modules follow the source:

| module | contents |
|---|---|
| `Bits`, `Binary` | Bit sequences, block arithmetic, powers of two, `&` and `\|` |
| `Repetition` | The library's repetition code |
| `Hamming`, `HammingTheory` | The library's Hamming code and what it guarantees |
| `HammingSmall` | The (7,4) and (15,11) instances, checks and data positions written out |
| `Protocols` | The protocol factories and the `PROTOCOLS` table |
| `ArcadeCodecs` | The simulator's codecs |
| `ArcadeSimulation` | The simulator's dispatch, error count and sweep |
| `BerScript` | The script's matrix codecs |

The three implementations are proved to agree on whole blocks:
- the simulator's encoders, and the script's (7,4) encoder and decoder, are the library's;
- the simulator's decoders equal the library's on codewords.

Randomness is a parameter. One call of `simulateBer` receives a `Trial`, which holds the transmitted bits and the channel's flip decisions. Every property of an experiment therefore holds for every outcome of the random draws.

## Model

| member | source | states |
|---|---|---|
| Binary.IsPowerOfTwoIff | lib/protocols.ts:10-12 | The bitwise test `n > 0 && (n & (n-1)) == 0` holds exactly for the powers of two. |
| Binary.BitAndPow2 | lib/protocols.ts:77 | `pos & 2^i` is non-zero exactly when bit `i` of `pos` is set. |
| Binary.BitOrFresh | lib/protocols.ts:114-116 | OR-ing a power of two into a smaller syndrome adds it. |
| Binary.CeilLog2 | lib/protocols.ts:39 | The parity-bit count `m` satisfies `n+1 <= 2^m`, and `2^(m-1) < n+1` when `m > 0`. |
| Binary.CeilLog2Unique | lib/protocols.ts:39 | Any `m` with that characterisation is `CeilLog2`. |
| Repetition.Encode | lib/protocols.ts:15-23 | The output has `n` times as many bits as the data. |
| Repetition.EncodeIndex | lib/protocols.ts:15-23 | Bit `i` of the encoding is data bit `i / n`: each bit is repeated `n` times, contiguously, in order. |
| Repetition.Vote | lib/protocols.ts:29-31 | A chunk decodes to 1 exactly when its ones exceed `n / 2` in real division, and to 0 exactly when they do not. |
| Repetition.Decode | lib/protocols.ts:25-34 | One bit per chunk of `n`, a short last chunk included: the length is `ceil(\|r\|/n)`. |
| Repetition.DecodeChunks | lib/protocols.ts:25-34 | Output bit `j` is the vote over chunk `j`, which the end of the input may cut short. The vote is always measured against the full `n`. |
| Repetition.RoundTrip | lib/protocols.ts:15-34 | For every `n >= 1`, decoding the encoding gives the data back. |
| Repetition.TieAndShortChunk | lib/protocols.ts:25-34 | For every `n` and every output bit `j`: chunk `j` starts inside the input. It decodes to 0 when its ones are at most half of `n` (an even split, or a short last chunk with too few ones), and to 1 otherwise. |
| Repetition.TieAndShortChunkExamples | lib/protocols.ts:25-34 | `[1,0,1]` with `n = 2` decodes to `[0,0]`, and `[1,1,1,1]` with `n = 3` decodes to `[1,0]`. |
| Hamming.Encode | lib/protocols.ts:37-89 | Has no contract of its own. `Hamming.EncodeLength` states its length, `HammingTheory.EncodeCodewords` that every block it sends is a codeword, `HammingTheory.RoundTrip` the round trip up to zero padding, and `Protocols.InvalidLengthSendsRaw` that an invalid length sends the data unchanged. |
| Hamming.EncodeLength | lib/protocols.ts:50-56 | For a valid `n`, `ceil(\|d\|/k) * n` bits are sent. |
| Hamming.DecodeLength | lib/protocols.ts:91-133 | Every whole block of `n` gives `n - m` bits, and a trailing partial block gives none. |
| Hamming.Decode | lib/protocols.ts:91-133 | Has no contract of its own. Its length is stated by `Hamming.DecodeLength`, its round trip by `HammingTheory.RoundTrip`, and its correction of one error per block by `HammingTheory.CorrectsOneErrorPerBlock`. |
| Hamming.Correct | lib/protocols.ts:119-122 | The block keeps its length, and the only bit that may change is the one at the syndrome's position. `HammingTheory.CodewordSyndromeZero` and `HammingTheory.SingleErrorSyndrome` state when that bit is changed and what results. |
| Hamming.Extract | lib/protocols.ts:124-129 | A block of `n` bits yields one bit per non-power-of-two position up to `n`. `HammingTheory.ExtractXor` states that extraction commutes with XOR. |
| Hamming.DecodeBlock | lib/protocols.ts:119-129 | A corrected block yields one bit per data position. `HammingTheory.DecodeBlockOneError` states that a block with at most one error decodes to the codeword's data. |
| HammingTheory.EncodeBlockSpec | lib/protocols.ts:58-83 | Every encoded block passes all parity checks. Its non-power-of-two positions hold the block's data bits in ascending order. |
| HammingTheory.SetParityKeepsData | lib/protocols.ts:71-83 | The parity pass does not touch the data positions. |
| HammingTheory.SetParityChecks | lib/protocols.ts:71-83 | After the parity pass every check `2^j` XORs to 0. |
| HammingTheory.CodewordUnique | lib/protocols.ts:58-83 | Two codewords of the same length with the same data bits are equal. |
| HammingTheory.SyndromeAtMostLength | lib/protocols.ts:103-120 | For a valid length the syndrome never exceeds `n`, so the guard `syndrome <= n` always holds. |
| HammingTheory.CodewordSyndromeZero | lib/protocols.ts:103-122 | A codeword has syndrome 0 and is left unchanged. |
| HammingTheory.SingleErrorSyndrome | lib/protocols.ts:103-122 | With the bit at position `q` flipped, the syndrome is `q` and correction restores the codeword. |
| HammingTheory.DecodeBlockOneError | lib/protocols.ts:119-129 | A block with at most one error decodes to the codeword's data. |
| HammingTheory.CorrectsOneErrorPerBlock | lib/protocols.ts:91-133 | With at most one flipped bit in every block of `n`, decoding gives what decoding the clean stream gives. |
| HammingTheory.EncodeCorrectsOneErrorPerBlock | lib/protocols.ts:37-133 | The same, applied to the encoder's output. |
| HammingTheory.EncodeCodewords | lib/protocols.ts:37-89 | Every block the encoder sends is a codeword. |
| HammingTheory.RoundTrip | lib/protocols.ts:37-133 | For a valid `n` and `k = n - m`, decoding the encoding gives the data followed by the zeros that pad the last block. |
| HammingTheory.ExtractXor | lib/protocols.ts:124-129 | Reading the data positions commutes with XOR. |
| HammingSmall.Checks7 | lib/protocols.ts:71-80 | For `n = 7`, the checks at positions 1, 2 and 4 are the familiar sums of four bits, modulo 2. |
| HammingSmall.Checks15 | lib/protocols.ts:71-80 | For `n = 15`, the checks at positions 1, 2, 4 and 8 are sums of eight bits, modulo 2. |
| HammingSmall.Extract7 | lib/protocols.ts:124-129 | The data of a 7-bit block are its bits 2, 4, 5 and 6 (0-indexed). |
| HammingSmall.Extract15 | lib/protocols.ts:124-129 | The data of a 15-bit block are its bits 2, 4, 5, 6 and 8 to 14. |
| Protocols.CreateGenericProtocol | lib/protocols.ts:136-160 | Repetition has id `generic-rep-n` and rate `1/n`. Hamming has id `generic-ham-n-kVal` and rate `kVal/n`, where `kVal` is `k` when it is truthy and `n - m` otherwise. |
| Protocols.DecimalRoundTrip | lib/protocols.ts:143 | The decimal text of `n` in an id reads back as `n`, so distinct sizes give distinct ids. |
| Protocols.HammingProtocol | lib/protocols.ts:162-172 | The rate is `k / n`, and it is positive for a valid `n`. `Protocols.TableRecovers` and `Protocols.InvalidLengthSendsRaw` state what its codec does. |
| Protocols.RepetitionProtocol | lib/protocols.ts:174-180 | The rate is `1 / n` and lies in (0, 1]. `Protocols.RepetitionProtocolRecovers` states that its codec returns its input. |
| Protocols.UncodedProtocol | lib/protocols.ts:185-191 | The rate is 1. `Protocols.UncodedRecovers` states that its codec is the identity. |
| Protocols.ProtocolTable | lib/protocols.ts:193-199 | The table has five entries. `Protocols.TableEntries`, `Protocols.TableIds` and `Protocols.TableRates` state what they are. |
| Protocols.TableEntries | lib/protocols.ts:193-199 | `PROTOCOLS` holds exactly five entries, in order: uncoded, repetition 3 and 5, Hamming (7,4) and (15,11). |
| Protocols.TableRates | lib/protocols.ts:193-199 | The table's rates are 1, 1/3, 1/5, 4/7 and 11/15. |
| Protocols.TableIds | lib/protocols.ts:162-199 | The table's ids are `none`, `rep-1/3`, `rep-1/5`, `hamming-7-4` and `hamming-15-11`. |
| Protocols.RepetitionProtocolRecovers | lib/protocols.ts:141-148 | Both repetition factories give back exactly their input on a noiseless channel. |
| Protocols.GenericHammingRecovers | lib/protocols.ts:149-158 | A missing or zero `k` falls back to `n - m`. The resulting protocol gives back its input up to zero padding. |
| Protocols.InvalidLengthSendsRaw | lib/protocols.ts:41-45 | A Hamming protocol with an invalid length sends its input unencoded. |
| Protocols.UncodedRecovers | lib/protocols.ts:185-191 | The uncoded protocol gives back exactly its input. |
| Protocols.TableRecovers | lib/protocols.ts:193-199 | Every table entry gives back its input, up to padding. The uncoded and repetition entries give it back exactly. |
| Protocols.TableRateIsLengthRatio | lib/protocols.ts:174-199 | On whole data blocks every table entry sends exactly `1 / rate` bits per data bit. |
| ArcadeCodecs.RepetitionEncode | components/alien-arcade-gui.tsx:14-16 | The output has `rateFactor` times as many bits as the input. Its contents are stated by `ArcadeCodecs.RepetitionEncodeIsGeneric`. |
| ArcadeCodecs.RepetitionEncodeIsGeneric | components/alien-arcade-gui.tsx:14-16 | The `flatMap` encoder is the library's repetition encoder. |
| ArcadeCodecs.RepetitionDecode | components/alien-arcade-gui.tsx:18-26 | The loop computes the library's repetition decoding, a short final chunk included. |
| ArcadeCodecs.RepetitionRoundTrip | components/alien-arcade-gui.tsx:14-26 | The simulator's repetition codec returns its input. |
| ArcadeCodecs.Codeword74Spec | components/alien-arcade-gui.tsx:34-37 | Each hand-written (7,4) block passes all Hamming checks and carries the four data bits at positions 3, 5, 6 and 7. |
| ArcadeCodecs.Codeword74IsGeneric | components/alien-arcade-gui.tsx:34-37 | Each hand-written (7,4) block is the library's codeword for `n = 7`. |
| ArcadeCodecs.Hamming74Encode | components/alien-arcade-gui.tsx:29-40 | Has no contract of its own. Its length is stated by `ArcadeCodecs.Hamming74Lengths`, and its output by `ArcadeCodecs.Hamming74EncodeIsGeneric`. |
| ArcadeCodecs.Hamming74Decode | components/alien-arcade-gui.tsx:42-54 | Has no contract of its own. Its length is stated by `ArcadeCodecs.Hamming74Lengths`, its output on codewords by `ArcadeCodecs.Hamming74DecodeCodewords`, and its lack of correction by `ArcadeCodecs.Hamming74DoesNotCorrect`. |
| ArcadeCodecs.Hamming74Lengths | components/alien-arcade-gui.tsx:29-54 | The encoder sends `7 * floor(\|b\|/4)` bits, and the decoder returns `4 * floor(\|r\|/7)` bits. |
| ArcadeCodecs.Hamming74EncodeIsGeneric | components/alien-arcade-gui.tsx:29-40 | The encoder is the library's encoder with `n = 7`, `k = 4`, applied to the whole 4-bit blocks. |
| ArcadeCodecs.Hamming74DecodeCodewords | components/alien-arcade-gui.tsx:42-54 | On codewords the decoder returns what the library's decoder returns. |
| ArcadeCodecs.Hamming74RoundTrip | components/alien-arcade-gui.tsx:29-54 | Decoding the encoding gives the first `4 * floor(\|b\|/4)` bits. |
| ArcadeCodecs.Hamming74DoesNotCorrect | components/alien-arcade-gui.tsx:42-54 | A zero codeword with one flipped data bit decodes wrongly here, while the library repairs it. |
| ArcadeCodecs.Codeword1511Spec | components/alien-arcade-gui.tsx:61-67 | Each hand-written (15,11) block passes all checks at positions 1, 2, 4 and 8, with the data in order at the other positions. |
| ArcadeCodecs.Codeword1511IsGeneric | components/alien-arcade-gui.tsx:61-67 | Each hand-written (15,11) block is the library's codeword for `n = 15`. |
| ArcadeCodecs.Hamming1511Encode | components/alien-arcade-gui.tsx:56-70 | Has no contract of its own. Its length is stated by `ArcadeCodecs.Hamming1511Lengths`, and its output by `ArcadeCodecs.Hamming1511EncodeIsGeneric`. |
| ArcadeCodecs.Hamming1511Decode | components/alien-arcade-gui.tsx:72-80 | Has no contract of its own. Its length is stated by `ArcadeCodecs.Hamming1511Lengths`, and its output on codewords by `ArcadeCodecs.Hamming1511DecodeCodewords`. |
| ArcadeCodecs.Hamming1511Lengths | components/alien-arcade-gui.tsx:56-80 | The encoder sends `15 * floor(\|b\|/11)` bits, and the decoder returns `11 * floor(\|r\|/15)` bits. |
| ArcadeCodecs.Hamming1511EncodeIsGeneric | components/alien-arcade-gui.tsx:56-70 | The encoder is the library's encoder with `n = 15`, `k = 11`, applied to the whole 11-bit blocks. |
| ArcadeCodecs.Hamming1511DecodeCodewords | components/alien-arcade-gui.tsx:72-80 | On codewords the decoder returns what the library's decoder returns. |
| ArcadeCodecs.Hamming1511RoundTrip | components/alien-arcade-gui.tsx:56-80 | Decoding the encoding gives the first `11 * floor(\|b\|/11)` bits. |
| ArcadeSimulation.CodeOf | components/alien-arcade-gui.tsx:95-98 | A code other than uncoded is chosen only by its own name, so every other name gives the uncoded branch. |
| ArcadeSimulation.CodeOfName | components/alien-arcade-gui.tsx:86-98 | Each of the five names selects its own code. |
| ArcadeSimulation.CodeRate | components/alien-arcade-gui.tsx:84-90 | The rate lies in (0, 1], and it is 1 exactly for the uncoded case. |
| ArcadeSimulation.EncodeFor | components/alien-arcade-gui.tsx:94-98 | Has no contract of its own. `ArcadeSimulation.RoundTripFor` and `ArcadeSimulation.RateIsLengthRatio` state what it does. |
| ArcadeSimulation.DecodeFor | components/alien-arcade-gui.tsx:113-117 | Has no contract of its own. `ArcadeSimulation.RoundTripFor` states that it undoes `EncodeFor` on whole data blocks. |
| ArcadeSimulation.Received | components/alien-arcade-gui.tsx:103-111 | The received word has the coded length, and bit `i` differs from the coded bit exactly when the channel flipped position `i`. |
| ArcadeSimulation.RoundTripFor | components/alien-arcade-gui.tsx:94-117 | With no channel noise every dispatched codec returns the whole data blocks of its input. |
| ArcadeSimulation.RateIsLengthRatio | components/alien-arcade-gui.tsx:84-98 | On whole data blocks the dispatched rate is data bits over channel bits. |
| ArcadeSimulation.DifferencesAreFlips | components/alien-arcade-gui.tsx:119-123 | Against a flipped copy, the mismatches are exactly the flips. |
| ArcadeSimulation.CountErrors | components/alien-arcade-gui.tsx:119-123 | `limit = min(\|tx\|, \|decoded\|)`, `0 <= errors <= limit`, and `errors` is 0 exactly when the two agree on that prefix. |
| ArcadeSimulation.ErrorRate | components/alien-arcade-gui.tsx:119-124 | `errors / limit` is `NaN` exactly when `limit = 0`. Otherwise it lies in [0, 1], and it is 0 exactly when the prefixes agree. |
| ArcadeSimulation.SimulateBer | components/alien-arcade-gui.tsx:82-125 | The method computes the experiment of the named code on the given trial, and, when the result is a number, it lies in [0, 1]. |
| ArcadeSimulation.NoiselessExperiment | components/alien-arcade-gui.tsx:92-124 | Without flips every code reports 0 errors, unless fewer bits than one data block were sent: 4 for (7,4), 11 for (15,11) and 1 otherwise. Then the rate is `0/0`, which is `NaN`. |
| ArcadeSimulation.UncodedErrorRate | components/alien-arcade-gui.tsx:103-124 | Uncoded, the error rate is the share of flipped channel bits. |
| ArcadeSimulation.Clamp | components/alien-arcade-gui.tsx:140-141 | `ber \|\| 1e-6` is never 0. It keeps every non-zero rate, and it maps 0 and `NaN` to `1e-6`. |
| ArcadeSimulation.ClampedRateBounds | components/alien-arcade-gui.tsx:136-141 | Every plotted rate lies in (0, 1]. |
| ArcadeSimulation.PlotPoint | components/alien-arcade-gui.tsx:136-142 | One point holds the clamped coded rate and the clamped `"none"` rate at that SNR. |
| ArcadeSimulation.Sweep | components/alien-arcade-gui.tsx:133-145 | The sweep gives one point per whole SNR from `start` to `end` inclusive (none if `start > end`). Point `i` is at `start + i`. |
| ArcadeSimulation.SweepShape | components/alien-arcade-gui.tsx:133-145 | The SNRs strictly increase, and every plotted rate lies in (0, 1]. |
| BerScript.Reshape | scripts/alien-arcade-ber.py:16 | `reshape(-1, k)` succeeds exactly when `k` divides the length. |
| BerScript.ReshapeRoundTrip | scripts/alien-arcade-ber.py:16 | There are `\|bits\|/k` rows, each of `k` bits, and flattening them gives the input back. |
| BerScript.RepetitionEncode | scripts/alien-arcade-ber.py:12-13 | `np.repeat` has length `rf * \|bits\|`, and element `i` is `bits[i / rf]`. |
| BerScript.RepetitionDecode | scripts/alien-arcade-ber.py:15-17 | The decoder fails unless `rf` divides the length. |
| BerScript.RepetitionDecodeIsGeneric | scripts/alien-arcade-ber.py:15-17 | When the reshape succeeds, the row majority `sum > rf/2` is the library's decoder. |
| BerScript.RepetitionRoundTrip | scripts/alien-arcade-ber.py:12-17 | The script's repetition codec returns its input. |
| BerScript.EyeKeeps | scripts/alien-arcade-ber.py:46 | Multiplying by `np.eye` modulo 2 keeps the vector. |
| BerScript.Generator74 | scripts/alien-arcade-ber.py:20-23 | `G d mod 2` is the simulator's codeword `[d0+d1+d3, d0+d2+d3, d0, d1+d2+d3, d1, d2, d3] mod 2`. |
| BerScript.Hamming74Encode | scripts/alien-arcade-ber.py:19-23 | The (7,4) encoder fails unless 4 divides the length. |
| BerScript.Hamming74EncodeIsGeneric | scripts/alien-arcade-ber.py:19-23 | When the reshape succeeds, the (7,4) encoder is the simulator's and the library's. |
| BerScript.ParityChecks74 | scripts/alien-arcade-ber.py:26-32 | Row `i` of `H` is the library's check at position `2^i`. |
| BerScript.SyndromeValueIsGeneric | scripts/alien-arcade-ber.py:32-33 | The reversed syndrome string read in base 2 is the library's syndrome. |
| BerScript.SyndromeLocatesError74 | scripts/alien-arcade-ber.py:26-35 | `s_val` is 0 on a clean codeword and `q` when bit `q` (1-indexed) is flipped. |
| BerScript.DecodeRow74IsGeneric | scripts/alien-arcade-ber.py:31-36 | One row decodes as the library decodes a block of 7. |
| BerScript.Hamming74DecodeIsGeneric | scripts/alien-arcade-ber.py:25-37 | When the reshape succeeds, the (7,4) decoder is the library's. |
| BerScript.Hamming74RoundTrip | scripts/alien-arcade-ber.py:19-37 | The (7,4) codec returns its input on every multiple of 4 bits. |
| BerScript.Hamming74CorrectsSingleErrors | scripts/alien-arcade-ber.py:19-37 | With at most one flipped bit in every block of 7, the (7,4) codec still returns its input. |
| BerScript.Hamming1511Encode | scripts/alien-arcade-ber.py:39-48 | The "(15,11)" encoder fails unless 11 divides the length. |
| BerScript.Codeword1511 | scripts/alien-arcade-ber.py:40-48 | Each codeword is the four parity bits `P d mod 2` followed by the eleven data bits unchanged. |
| BerScript.Hamming1511Decode | scripts/alien-arcade-ber.py:50-63 | The "(15,11)" decoder fails unless 15 divides the length. |
| BerScript.Hamming1511RoundTrip | scripts/alien-arcade-ber.py:39-63 | The "(15,11)" codec returns its input on every multiple of 11 bits. |
| BerScript.RepeatedColumns | scripts/alien-arcade-ber.py:40-45 | Columns 1 and 4 of `P` are equal, so flipping data bits 1 and 4 together leaves the parity unchanged. |
| BerScript.CodewordsTwoApart | scripts/alien-arcade-ber.py:39-48 | Two codewords differ only in bits 5 and 8. One received block is then one error away from both, so the "(15,11)" code cannot correct every single error. |

## Left out

- Channel noise is not modelled: the antipodal mapping, the Gaussian approximations, the Rayleigh gain and the `sigma` computed from `snrDb` and the rate. An experiment receives the hard-decision flips as a `Trial`. The SNR value only labels a point.
- `channelType` and `snrDb` do not reach the model, because they act only through the noise.
- Rates and error rates are exact reals, where the source computes IEEE doubles. `1e-6` is the exact `0.000001`.
- The number of transmitted bits (1000 in the simulator) is the length of `Trial.tx`. It is not fixed.
- The Python `simulate_ber`, the Tkinter application, the React rendering and `console.error` logging are not modelled. They are randomness, floating point and UI.
- `Protocols.Protocol` keeps the source's `label` in a field named `caption`.
- Labels are not given contracts. Only the ids are checked, since the labels are display text built the same way.
- Hamming.Encode: a block size `k` other than `n - m` is covered only for `k > n - m`, where the extra bits are never placed. A smaller `k` reads `undefined` entries in the source, so the model requires `k >= n - m`.
- Hamming.Encode: `k >= 1` is required, because with `k <= 0` and non-empty data the source's block loop never ends.
- Hamming.Encode: `n >= 1` is required. No caller passes a smaller `n`: the table uses 7 and 15. The source does the following for such `n`:
  - `n = 0` passes validation and returns `[]`;
  - `n = -1` passes validation and throws at `new Array(-1)` on non-empty data;
  - `n <= -2` fails validation and returns the data.
- Repetition.Decode: `n >= 1` is required. With `n <= 0` the source's loop (`i += n`) never ends on non-empty input.
- Hamming.Decode: `n >= 1` is required. With `n <= 0` the source's loop (`blockStart += n`) never ends on non-empty input.
- ArcadeCodecs.RepetitionDecode: `rateFactor >= 1` is required. With `rateFactor <= 0` the simulator's loop (`i += rateFactor`) never ends on non-empty input.
- Protocols.CreateGenericProtocol: `n >= 1` is required, because its codecs need it. The source builds the record for any `n`. For `n = 0` the rate is `Infinity` with repetition or with a positive `k`, and `NaN` (`0 / 0`) for Hamming without `k`. Its decoders then never end on non-empty input.
- Binary.BitAnd: the 32-bit width of JavaScript's `&` and `|` is not modelled. Every operand is a position at most `n`, or a syndrome below `2^m <= 2n + 1`.
- Hamming.ParityBits: `Math.ceil(Math.log2(n + 1))` is taken as the exact least `m` with `n + 1 <= 2^m`, not the floating-point result.
- BerScript.DecodeRow74: the script flips the bit through a view of the caller's array, which changes the caller's data. The model is functional and states nothing about the caller's array.
- BerScript.Reshape: a block length of 0 is treated as a reshape error. numpy raises for it as well, with a different exception.
- The script's unused `H` for the "(15,11)" code, and the simulator's unused `s1..s3` in `hamming74Decode`, are not modelled.
- ArcadeSimulation.Clamp: a negative rate would pass through unchanged and never occurs. The contract states positivity only for non-negative input.

Behaviours of the code worth noting:
- A short trailing chunk in the library's and the simulator's repetition decoders still produces a bit. The script raises instead.
- `genericHammingEncode` with an invalid `n` returns the data unencoded. It does not fail.
- The library pads a partial last data block with zeros, while the simulator's Hamming encoders drop it.
- The script's "(15,11)" parity matrix repeats a column, so it is not a Hamming code (`BerScript.CodewordsTwoApart`). Its decoder never corrects, so this does not change the noiseless round trip.

=== FILE: arcade_codecs.dfy ===
/** The codecs hard-wired into the web simulator: a repetition code written
    with `flatMap` and a stepping loop, and Hamming (7,4) and (15,11) codecs
    with explicit parity formulas. The Hamming encoders drop a trailing block
    that is shorter than the data block, and the decoders only read the data
    positions back: they never correct anything. */
module ArcadeCodecs {
  import opened Bits
  import opened Hamming
  import opened HammingTheory
  import opened HammingSmall
  import Repetition

  // ------------------------------------------------------------ repetition

  /** `bits.flatMap(bit => Array(rateFactor).fill(bit))`: the copies of each
      bit appended after those of the bits before it. */
  function RepetitionEncode(bits: seq<Bit>, rateFactor: nat): (r: seq<Bit>)
    ensures |r| == rateFactor * |bits|
  {
    if |bits| == 0 then []
    else
      var last := |bits| - 1;
      assert rateFactor * |bits| == rateFactor * last + rateFactor;
      RepetitionEncode(bits[..last], rateFactor) + Repeat(bits[last], rateFactor)
  }

  /** The `flatMap` encoder produces exactly the library's repetition encoding. */
  lemma {:induction false} RepetitionEncodeIsGeneric(bits: seq<Bit>, rateFactor: nat)
    ensures RepetitionEncode(bits, rateFactor) == Repetition.Encode(bits, rateFactor)
    decreases |bits|
  {
    if |bits| > 0 {
      var last := |bits| - 1;
      RepetitionEncodeIsGeneric(bits[..last], rateFactor);
      assert bits == bits[..last] + [bits[last]];
      Repetition.EncodeAppend(bits[..last], [bits[last]], rateFactor);
      assert Repetition.Encode([bits[last]], rateFactor) == Repeat(bits[last], rateFactor) + Repetition.Encode([], rateFactor);
    }
  }

  /** The simulator's decoder: `i` steps by `rateFactor` while it is below the
      length, each slice (cut short at the end) is summed and voted on. It
      computes the library's repetition decoding, so it emits one majority
      bit per chunk, a short final chunk included. */
  method RepetitionDecode(bits: seq<Bit>, rateFactor: nat) returns (decoded: seq<Bit>)
    requires rateFactor >= 1
    ensures decoded == Repetition.Decode(bits, rateFactor)
  {
    decoded := [];
    var i := 0;
    while i < |bits|
      invariant decoded + Repetition.Decode(bits[Min(i, |bits|)..], rateFactor) == Repetition.Decode(bits, rateFactor)
    {
      var end := Min(i + rateFactor, |bits|);
      var chunk := bits[i..end];
      var sum := Ones(chunk);
      DecodeLoopStep(bits, i, rateFactor, decoded);
      decoded := decoded + [if Repetition.Majority(sum, rateFactor) then 1 else 0];
      i := i + rateFactor;
      assert Min(i, |bits|) == end;
    }
    assert bits[|bits|..] == [];
  }

  /** One turn of the decoding loop keeps its invariant: the bits decoded so
      far followed by the decoding of the rest are the whole decoding. */
  lemma {:induction false} DecodeLoopStep(bits: seq<Bit>, i: nat, rateFactor: nat, decoded: seq<Bit>)
    requires rateFactor >= 1 && i < |bits|
    requires decoded + Repetition.Decode(bits[Min(i, |bits|)..], rateFactor) == Repetition.Decode(bits, rateFactor)
    ensures var end := Min(i + rateFactor, |bits|);
      (decoded + [Repetition.Vote(bits[i..end], rateFactor)]) + Repetition.Decode(bits[Min(i + rateFactor, |bits|)..], rateFactor)
      == Repetition.Decode(bits, rateFactor)
  {
    var end := Min(i + rateFactor, |bits|);
    DecodeFrom(bits, i, rateFactor);
    ConcatAssoc(decoded, [Repetition.Vote(bits[i..end], rateFactor)], Repetition.Decode(bits[end..], rateFactor));
  }

  /** Decoding from index `i` votes on the slice starting there and carries on after it. */
  lemma {:induction false} DecodeFrom(bits: seq<Bit>, i: nat, rateFactor: nat)
    requires rateFactor >= 1 && i < |bits|
    ensures Repetition.Decode(bits[i..], rateFactor) ==
      [Repetition.Vote(bits[i..Min(i + rateFactor, |bits|)], rateFactor)]
      + Repetition.Decode(bits[Min(i + rateFactor, |bits|)..], rateFactor)
  {
    var end := Min(i + rateFactor, |bits|);
    assert bits[i..][..end - i] == bits[i..end];
    assert bits[i..][end - i..] == bits[end..];
  }

  /** The simulator's repetition codec returns what it was given on a noiseless channel. */
  lemma {:induction false} RepetitionRoundTrip(bits: seq<Bit>, rateFactor: nat)
    requires rateFactor >= 1
    ensures Repetition.Decode(RepetitionEncode(bits, rateFactor), rateFactor) == bits
  {
    RepetitionEncodeIsGeneric(bits, rateFactor);
    Repetition.RoundTrip(bits, rateFactor);
  }

  // ------------------------------------------------------------ Hamming (7,4)

  /** `[p1, p2, b0, p3, b1, b2, b3]` with the three parity sums of the simulator. */
  function Codeword74(b: seq<Bit>): (c: seq<Bit>)
    requires |b| == 4
    ensures |c| == 7
  {
    var p1 := (b[0] as int + b[1] + b[3]) % 2;
    var p2 := (b[0] as int + b[2] + b[3]) % 2;
    var p3 := (b[1] as int + b[2] + b[3]) % 2;
    [p1, p2, b[0], p3, b[1], b[2], b[3]]
  }

  /** The simulator's block is a Hamming codeword of length 7 whose data
      positions 3, 5, 6 and 7 carry the four bits in order. */
  lemma {:induction false} Codeword74Spec(b: seq<Bit>)
    requires |b| == 4
    ensures IsCodeword(Codeword74(b)) && Extract(Codeword74(b)) == b
  {
    var c := Codeword74(b);
    Codeword74Checks(c);
    Extract7(c);
  }

  /** Each parity bit of the simulator makes its check even. */
  lemma {:induction false} Codeword74Checks(c: seq<Bit>)
    requires |c| == 7
    requires c[0] == (c[2] as int + c[4] + c[6]) % 2
    requires c[1] == (c[2] as int + c[5] + c[6]) % 2
    requires c[3] == (c[4] as int + c[5] + c[6]) % 2
    ensures IsCodeword(c)
  {
    EvenCheck3(c[0], c[2], c[4], c[6]);
    EvenCheck3(c[1], c[2], c[5], c[6]);
    EvenCheck3(c[3], c[4], c[5], c[6]);
    IsCodeword7(c);
  }

  /** A parity bit over three bits makes the four-bit check even. */
  lemma {:induction false} EvenCheck3(p: int, a1: int, a2: int, a3: int)
    requires p == (a1 + a2 + a3) % 2
    ensures (p + a1 + a2 + a3) % 2 == 0
  {
    EvenSum(a1 + a2 + a3);
  }

  /** A parity bit added to the sum it was computed from makes the sum even. */
  lemma {:induction false} EvenSum(x: int)
    ensures (x % 2 + x) % 2 == 0
  {
  }

  /** The hand-written codeword is the library's Hamming (7,4) codeword. */
  lemma {:induction false} Codeword74IsGeneric(b: seq<Bit>)
    requires |b| == 4
    ensures ValidLength(7) && DataSlots(7) == 4 && Codeword74(b) == EncodeBlock(b, 7)
  {
    Params7();
    Codeword74Spec(b);
    EncodeBlockSpec(b, 7);
    CodewordUnique(Codeword74(b), EncodeBlock(b, 7));
  }

  /** One codeword per whole block of 4 bits; fewer than 4 bits left end the loop. */
  function Hamming74Encode(bits: seq<Bit>): seq<Bit>
    decreases |bits|
  {
    if |bits| < 4 then [] else Codeword74(bits[..4]) + Hamming74Encode(bits[4..])
  }

  /** Bits 2, 4, 5 and 6 of every whole block of 7, with no correction. */
  function Hamming74Decode(bits: seq<Bit>): seq<Bit>
    decreases |bits|
  {
    if |bits| < 7 then [] else [bits[2], bits[4], bits[5], bits[6]] + Hamming74Decode(bits[7..])
  }

  /** Seven bits out for every whole block of four in, four back for every whole block of seven. */
  lemma {:induction false} Hamming74Lengths(bits: seq<Bit>)
    ensures |Hamming74Encode(bits)| == 7 * (|bits| / 4)
    ensures |Hamming74Decode(bits)| == 4 * (|bits| / 7)
    decreases |bits|
  {
    if |bits| < 4 {
      DivModUnique(|bits|, 4, 0, |bits|);
      DivModUnique(|bits|, 7, 0, |bits|);
    } else {
      Hamming74Lengths(bits[4..]);
      BlockCountStep(|bits|, 4, 7);
      if |bits| < 7 {
        DivModUnique(|bits|, 7, 0, |bits|);
      } else {
        Hamming74Lengths(bits[7..]);
        BlockCountStep(|bits|, 7, 4);
      }
    }
  }

  /** The simulator's encoder is the library's encoder with `n = 7`, `k = 4`
      applied to the whole blocks of its input: the last block is dropped
      where the library would pad it. */
  lemma {:induction false} Hamming74EncodeIsGeneric(bits: seq<Bit>)
    ensures ValidLength(7) && ParityBits(7) == 3
    ensures Hamming74Encode(bits) == Hamming.Encode(WholePrefix(bits, 4), 7, 4)
    decreases |bits|
  {
    Params7();
    if |bits| >= 4 {
      Hamming74EncodeIsGeneric(bits[4..]);
      Hamming74EncodeStep(bits);
    }
  }

  lemma {:induction false} Hamming74EncodeStep(bits: seq<Bit>)
    requires |bits| >= 4 && ValidLength(7) && ParityBits(7) == 3
    requires Hamming74Encode(bits[4..]) == Hamming.Encode(WholePrefix(bits[4..], 4), 7, 4)
    ensures Hamming74Encode(bits) == Hamming.Encode(WholePrefix(bits, 4), 7, 4)
  {
    Params7();
    var d := WholePrefix(bits, 4);
    var rest := WholePrefix(bits[4..], 4);
    assert d == bits[..4] + rest;
    assert d[..4] == bits[..4] && d[4..] == rest;
    assert PadTo(bits[..4], 4) == bits[..4];
    Codeword74IsGeneric(bits[..4]);
    assert Hamming.Encode(d, 7, 4) == EncodeBlocks(d, 7, 4);
    assert Hamming.Encode(rest, 7, 4) == EncodeBlocks(rest, 7, 4);
    assert EncodeBlocks(d, 7, 4) == EncodeBlock(bits[..4], 7) + EncodeBlocks(rest, 7, 4);
  }

  /** On whole codewords the simulator's decoder reads the same data as the
      library's decoder, because there is nothing to correct. */
  lemma {:induction false} Hamming74DecodeCodewords(s: seq<Bit>)
    requires Codewords(s, 7)
    ensures Hamming74Decode(s) == Hamming.Decode(s, 7)
    decreases |s|
  {
    if |s| > 0 {
      Extract7(s[..7]);
      CodewordSyndromeZero(s[..7]);
      Hamming74DecodeCodewords(s[7..]);
    }
  }

  /** Noiseless round trip: the whole blocks come back, a partial last block
      is lost; `WholePrefix(bits, 4)` is `bits[..4 * (|bits| / 4)]`. */
  lemma {:induction false} Hamming74RoundTrip(bits: seq<Bit>)
    ensures Hamming74Decode(Hamming74Encode(bits)) == WholePrefix(bits, 4)
    decreases |bits|
  {
    if |bits| >= 4 {
      Hamming74RoundTrip(bits[4..]);
      var c := Codeword74(bits[..4]);
      var rest := Hamming74Encode(bits[4..]);
      assert (c + rest)[..7] == c && (c + rest)[7..] == rest;
      Codeword74Spec(bits[..4]);
      Extract7(c);
    }
  }

  /** The simulator reads the data back without correcting it: the zero
      codeword with its first data bit flipped decodes to `1, 0, 0, 0` here,
      where the library's decoder repairs it to zeros. */
  lemma {:induction false} Hamming74DoesNotCorrect()
    ensures Hamming74Decode([0, 0, 1, 0, 0, 0, 0]) == [1, 0, 0, 0]
    ensures Hamming.Decode([0, 0, 1, 0, 0, 0, 0], 7) == [0, 0, 0, 0]
  {
    Hamming74ReadsFlipped();
    LibraryRepairsFlipped();
  }

  lemma {:induction false} Hamming74ReadsFlipped()
    ensures Hamming74Decode([0, 0, 1, 0, 0, 0, 0]) == [1, 0, 0, 0]
  {
    var s: seq<Bit> := [0, 0, 1, 0, 0, 0, 0];
    assert s[7..] == [];
  }

  lemma {:induction false} LibraryRepairsFlipped()
    ensures Hamming.Decode([0, 0, 1, 0, 0, 0, 0], 7) == [0, 0, 0, 0]
  {
    var s: seq<Bit> := [0, 0, 1, 0, 0, 0, 0];
    DecodeStep(s, 7);
    assert s[..7] == s && s[7..] == [];
    ZeroCodewordRepaired();
  }

  lemma {:induction false} ZeroCodewordRepaired()
    ensures DecodeBlock([0, 0, 1, 0, 0, 0, 0]) == [0, 0, 0, 0]
  {
    var z := Codeword74([0, 0, 0, 0]);
    Codeword74Spec([0, 0, 0, 0]);
    DecodeBlockFlip(z, 2);
    ZeroCodewordFlipped();
  }

  /** The zero data block encodes to the zero codeword; flipping its bit 2 gives the received block above. */
  lemma {:induction false} ZeroCodewordFlipped()
    ensures FlipAt(Codeword74([0, 0, 0, 0]), 2) == [0, 0, 1, 0, 0, 0, 0]
  {
    var z := Codeword74([0, 0, 0, 0]);
    assert z == [0, 0, 0, 0, 0, 0, 0];
    assert FlipAt(z, 2) == z[2 := 1];
  }

  // ---------------------------------------------------------- Hamming (15,11)

  /** `P1, P2, D1, P3, D2..D4, P4, D5..D11` with the four parity sums of the simulator. */
  function Codeword1511(b: seq<Bit>): (c: seq<Bit>)
    requires |b| == 11
    ensures |c| == 15
  {
    var p1 := (b[0] as int + b[1] + b[3] + b[4] + b[6] + b[8] + b[10]) % 2;
    var p2 := (b[0] as int + b[2] + b[3] + b[5] + b[6] + b[9] + b[10]) % 2;
    var p3 := (b[1] as int + b[2] + b[3] + b[7] + b[8] + b[9] + b[10]) % 2;
    var p4 := (b[4] as int + b[5] + b[6] + b[7] + b[8] + b[9] + b[10]) % 2;
    [p1, p2, b[0], p3, b[1], b[2], b[3], p4, b[4], b[5], b[6], b[7], b[8], b[9], b[10]]
  }

  /** The simulator's block is a Hamming codeword of length 15 whose data
      positions carry the eleven bits in order. */
  lemma {:induction false} Codeword1511Spec(b: seq<Bit>)
    requires |b| == 11
    ensures IsCodeword(Codeword1511(b)) && Extract(Codeword1511(b)) == b
  {
    Codeword1511IsCodeword(b);
    Extract15(Codeword1511(b));
  }

  lemma {:induction false} Codeword1511IsCodeword(b: seq<Bit>)
    requires |b| == 11
    ensures IsCodeword(Codeword1511(b))
  {
    var c := Codeword1511(b);
    assert c[2] == b[0] && c[4] == b[1] && c[5] == b[2] && c[6] == b[3];
    assert c[8] == b[4] && c[9] == b[5] && c[10] == b[6];
    assert c[11] == b[7] && c[12] == b[8] && c[13] == b[9] && c[14] == b[10];
    Codeword1511Checks(c);
  }

  /** Each parity bit of the simulator makes its check even. */
  lemma {:induction false} Codeword1511Checks(c: seq<Bit>)
    requires |c| == 15
    requires c[0] == (c[2] as int + c[4] + c[6] + c[8] + c[10] + c[12] + c[14]) % 2
    requires c[1] == (c[2] as int + c[5] + c[6] + c[9] + c[10] + c[13] + c[14]) % 2
    requires c[3] == (c[4] as int + c[5] + c[6] + c[11] + c[12] + c[13] + c[14]) % 2
    requires c[7] == (c[8] as int + c[9] + c[10] + c[11] + c[12] + c[13] + c[14]) % 2
    ensures IsCodeword(c)
  {
    Checks1511Low(c);
    Checks1511High(c);
    IsCodeword15(c);
  }

  lemma {:induction false} Checks1511Low(c: seq<Bit>)
    requires |c| == 15
    requires c[0] == (c[2] as int + c[4] + c[6] + c[8] + c[10] + c[12] + c[14]) % 2
    requires c[1] == (c[2] as int + c[5] + c[6] + c[9] + c[10] + c[13] + c[14]) % 2
    ensures (c[0] as int + c[2] + c[4] + c[6] + c[8] + c[10] + c[12] + c[14]) % 2 == 0
    ensures (c[1] as int + c[2] + c[5] + c[6] + c[9] + c[10] + c[13] + c[14]) % 2 == 0
  {
    EvenCheck7(c[0], c[2], c[4], c[6], c[8], c[10], c[12], c[14]);
    EvenCheck7(c[1], c[2], c[5], c[6], c[9], c[10], c[13], c[14]);
  }

  lemma {:induction false} Checks1511High(c: seq<Bit>)
    requires |c| == 15
    requires c[3] == (c[4] as int + c[5] + c[6] + c[11] + c[12] + c[13] + c[14]) % 2
    requires c[7] == (c[8] as int + c[9] + c[10] + c[11] + c[12] + c[13] + c[14]) % 2
    ensures (c[3] as int + c[4] + c[5] + c[6] + c[11] + c[12] + c[13] + c[14]) % 2 == 0
    ensures (c[7] as int + c[8] + c[9] + c[10] + c[11] + c[12] + c[13] + c[14]) % 2 == 0
  {
    EvenCheck7(c[3], c[4], c[5], c[6], c[11], c[12], c[13], c[14]);
    EvenCheck7(c[7], c[8], c[9], c[10], c[11], c[12], c[13], c[14]);
  }

  /** A parity bit over seven bits makes the eight-bit check even. */
  lemma {:induction false} EvenCheck7(p: int, a1: int, a2: int, a3: int, a4: int, a5: int, a6: int, a7: int)
    requires p == (a1 + a2 + a3 + a4 + a5 + a6 + a7) % 2
    ensures (p + a1 + a2 + a3 + a4 + a5 + a6 + a7) % 2 == 0
  {
    EvenSum(a1 + a2 + a3 + a4 + a5 + a6 + a7);
  }

  /** The hand-written codeword is the library's Hamming (15,11) codeword. */
  lemma {:induction false} Codeword1511IsGeneric(b: seq<Bit>)
    requires |b| == 11
    ensures ValidLength(15) && DataSlots(15) == 11 && Codeword1511(b) == EncodeBlock(b, 15)
  {
    Params15();
    Codeword1511Spec(b);
    EncodeBlockSpec(b, 15);
    CodewordUnique(Codeword1511(b), EncodeBlock(b, 15));
  }

  /** One codeword per whole block of 11 bits; fewer than 11 bits left end the loop. */
  function Hamming1511Encode(bits: seq<Bit>): seq<Bit>
    decreases |bits|
  {
    if |bits| < 11 then [] else Codeword1511(bits[..11]) + Hamming1511Encode(bits[11..])
  }

  /** Bits 2, 4, 5, 6 and 8 to 14 of every whole block of 15, with no correction. */
  function Hamming1511Decode(bits: seq<Bit>): seq<Bit>
    decreases |bits|
  {
    if |bits| < 15 then []
    else
      [bits[2], bits[4], bits[5], bits[6], bits[8], bits[9], bits[10], bits[11], bits[12], bits[13], bits[14]]
        + Hamming1511Decode(bits[15..])
  }

  /** Fifteen bits out for every whole block of eleven in, eleven back for every whole block of fifteen. */
  lemma {:induction false} Hamming1511Lengths(bits: seq<Bit>)
    ensures |Hamming1511Encode(bits)| == 15 * (|bits| / 11)
    ensures |Hamming1511Decode(bits)| == 11 * (|bits| / 15)
    decreases |bits|
  {
    if |bits| < 11 {
      DivModUnique(|bits|, 11, 0, |bits|);
      DivModUnique(|bits|, 15, 0, |bits|);
    } else {
      Hamming1511Lengths(bits[11..]);
      BlockCountStep(|bits|, 11, 15);
      if |bits| < 15 {
        DivModUnique(|bits|, 15, 0, |bits|);
      } else {
        Hamming1511Lengths(bits[15..]);
        BlockCountStep(|bits|, 15, 11);
      }
    }
  }

  /** The simulator's encoder is the library's encoder with `n = 15`, `k = 11`
      applied to the whole blocks of its input. */
  lemma {:induction false} Hamming1511EncodeIsGeneric(bits: seq<Bit>)
    ensures ValidLength(15) && ParityBits(15) == 4
    ensures Hamming1511Encode(bits) == Hamming.Encode(WholePrefix(bits, 11), 15, 11)
    decreases |bits|
  {
    Params15();
    if |bits| >= 11 {
      Hamming1511EncodeIsGeneric(bits[11..]);
      Hamming1511EncodeStep(bits);
    }
  }

  lemma {:induction false} Hamming1511EncodeStep(bits: seq<Bit>)
    requires |bits| >= 11 && ValidLength(15) && ParityBits(15) == 4
    requires Hamming1511Encode(bits[11..]) == Hamming.Encode(WholePrefix(bits[11..], 11), 15, 11)
    ensures Hamming1511Encode(bits) == Hamming.Encode(WholePrefix(bits, 11), 15, 11)
  {
    Params15();
    var d := WholePrefix(bits, 11);
    var rest := WholePrefix(bits[11..], 11);
    assert d == bits[..11] + rest;
    assert d[..11] == bits[..11] && d[11..] == rest;
    assert PadTo(bits[..11], 11) == bits[..11];
    Codeword1511IsGeneric(bits[..11]);
    assert Hamming.Encode(d, 15, 11) == EncodeBlocks(d, 15, 11);
    assert Hamming.Encode(rest, 15, 11) == EncodeBlocks(rest, 15, 11);
    assert EncodeBlocks(d, 15, 11) == EncodeBlock(bits[..11], 15) + EncodeBlocks(rest, 15, 11);
  }

  /** On whole codewords the simulator's decoder reads the same data as the library's decoder. */
  lemma {:induction false} Hamming1511DecodeCodewords(s: seq<Bit>)
    requires Codewords(s, 15)
    ensures Hamming1511Decode(s) == Hamming.Decode(s, 15)
    decreases |s|
  {
    if |s| > 0 {
      Extract15(s[..15]);
      CodewordSyndromeZero(s[..15]);
      Hamming1511DecodeCodewords(s[15..]);
    }
  }

  /** Noiseless round trip: the whole blocks come back, a partial last block is lost. */
  lemma {:induction false} Hamming1511RoundTrip(bits: seq<Bit>)
    ensures Hamming1511Decode(Hamming1511Encode(bits)) == WholePrefix(bits, 11)
    decreases |bits|
  {
    if |bits| >= 11 {
      Hamming1511RoundTrip(bits[11..]);
      var c := Codeword1511(bits[..11]);
      var rest := Hamming1511Encode(bits[11..]);
      assert (c + rest)[..15] == c && (c + rest)[15..] == rest;
      Codeword1511Spec(bits[..11]);
      Extract15(c);
    }
  }
}

=== FILE: arcade_sim.dfy ===
/** The bit-error-rate experiment of the web simulator: the code selected by
    name encodes the transmitted bits, the channel flips some of the coded
    bits, the matching decoder reads them back, and the errors over the
    common prefix give the error rate. The sweep runs one coded and one
    uncoded experiment per whole dB value and floors each rate at `1e-6`
    for the logarithmic plot.

    The channel's random bits and Gaussian noise are not modelled: an
    experiment receives the transmitted bits and the pattern of channel
    flips as a `Trial`, so every statement below holds whatever the
    random draws were. */
module ArcadeSimulation {
  import opened Bits
  import opened ArcadeCodecs
  import Repetition

  // ------------------------------------------------------------ code choice

  /** The codes the simulator knows by name; every other name sends the bits uncoded. */
  datatype Code = Rep3 | Rep5 | Hamming74 | Hamming1511 | Uncoded

  /** The `if`/`else if` chain on `codeType`: the four names, anything else uncoded. */
  function CodeOf(codeType: string): (c: Code)
    ensures c == Uncoded || Name(c) == codeType
  {
    if codeType == "rep1/3" then Rep3
    else if codeType == "rep1/5" then Rep5
    else if codeType == "hamming74" then Hamming74
    else if codeType == "hamming1511" then Hamming1511
    else Uncoded
  }

  /** The name the selector uses for each code. */
  function Name(c: Code): string {
    match c
    case Rep3 => "rep1/3"
    case Rep5 => "rep1/5"
    case Hamming74 => "hamming74"
    case Hamming1511 => "hamming1511"
    case Uncoded => "none"
  }

  /** Every code is selected by its own name, `"none"` included. */
  lemma {:induction false} CodeOfName(c: Code)
    ensures CodeOf(Name(c)) == c
  {
    match c
    case Rep3 =>
    case Rep5 =>
      assert "rep1/5" != "rep1/3" by { assert "rep1/5"[5] != "rep1/3"[5]; }
    case Hamming74 =>
      assert "hamming74" != "rep1/3" && "hamming74" != "rep1/5" by { assert "hamming74"[0] != 'r'; }
    case Hamming1511 =>
      assert "hamming1511" != "rep1/3" && "hamming1511" != "rep1/5" && "hamming1511" != "hamming74" by {
        assert "hamming1511"[0] != 'r' && |"hamming1511"| != |"hamming74"|;
      }
    case Uncoded =>
      assert "none" != "rep1/3" && "none" != "rep1/5" && "none" != "hamming74" && "none" != "hamming1511" by {
        assert |"none"| != 6 && |"none"| != 9 && |"none"| != 11;
      }
  }

  /** The rate the simulator assigns to a code; uncoded keeps the initial `1.0`. */
  function CodeRate(c: Code): (rate: real)
    ensures 0.0 < rate <= 1.0
    ensures rate == 1.0 <==> c == Uncoded
  {
    match c
    case Rep3 => 1.0 / 3.0
    case Rep5 => 1.0 / 5.0
    case Hamming74 => 4.0 / 7.0
    case Hamming1511 => 11.0 / 15.0
    case Uncoded => 1.0
  }

  /** The data bits one codeword carries: 4 and 11 for the Hamming codes, 1 otherwise. */
  function DataBlock(c: Code): (k: nat)
    ensures k >= 1
  {
    match c
    case Hamming74 => 4
    case Hamming1511 => 11
    case _ => 1
  }

  /** The encoder of a code; uncoded sends the bits as they are. */
  function EncodeFor(c: Code, bits: seq<Bit>): seq<Bit> {
    match c
    case Rep3 => RepetitionEncode(bits, 3)
    case Rep5 => RepetitionEncode(bits, 5)
    case Hamming74 => Hamming74Encode(bits)
    case Hamming1511 => Hamming1511Encode(bits)
    case Uncoded => bits
  }

  /** The decoder of a code, mirroring `EncodeFor`. */
  function DecodeFor(c: Code, bits: seq<Bit>): seq<Bit> {
    match c
    case Rep3 => Repetition.Decode(bits, 3)
    case Rep5 => Repetition.Decode(bits, 5)
    case Hamming74 => Hamming74Decode(bits)
    case Hamming1511 => Hamming1511Decode(bits)
    case Uncoded => bits
  }

  /** On a noiseless channel every code returns its whole data blocks:
      all the bits for the repetition codes and no code, and all but a
      trailing partial block for the Hamming codes. */
  lemma {:induction false} RoundTripFor(c: Code, bits: seq<Bit>)
    ensures DecodeFor(c, EncodeFor(c, bits)) == WholePrefix(bits, DataBlock(c))
  {
    match c
    case Hamming74 => Hamming74RoundTrip(bits);
    case Hamming1511 => Hamming1511RoundTrip(bits);
    case Rep3 => WholePrefixOne(bits); RepetitionRoundTrip(bits, 3);
    case Rep5 => WholePrefixOne(bits); RepetitionRoundTrip(bits, 5);
    case Uncoded => WholePrefixOne(bits);
  }

  /** Blocks of one bit are the whole sequence. */
  lemma {:induction false} WholePrefixOne(bits: seq<Bit>)
    ensures WholePrefix(bits, 1) == bits
  {
    WholePrefixIsPrefix(bits, 1);
    assert bits[..|bits|] == bits;
  }

  /** On whole data blocks the rate is exactly data bits over channel bits,
      the energy scaling `simulateBer` applies to the noise. */
  lemma {:induction false} RateIsLengthRatio(c: Code, bits: seq<Bit>)
    requires |bits| % DataBlock(c) == 0
    ensures |EncodeFor(c, bits)| as real * CodeRate(c) == |bits| as real
  {
    if c == Hamming74 {
      Rate74(c, bits);
    } else if c == Hamming1511 {
      Rate1511(c, bits);
    } else {
      RepetitionRate(c, bits);
    }
  }

  lemma {:induction false} Rate74(c: Code, bits: seq<Bit>)
    requires c == Hamming74 && |bits| % 4 == 0
    ensures |EncodeFor(c, bits)| as real * CodeRate(c) == |bits| as real
  {
    Hamming74Lengths(bits);
    BlockRate(|Hamming74Encode(bits)|, |bits|, 7, 4);
  }

  lemma {:induction false} Rate1511(c: Code, bits: seq<Bit>)
    requires c == Hamming1511 && |bits| % 11 == 0
    ensures |EncodeFor(c, bits)| as real * CodeRate(c) == |bits| as real
  {
    Hamming1511Lengths(bits);
    BlockRate(|Hamming1511Encode(bits)|, |bits|, 15, 11);
  }

  /** The repetition codes and no code send `1 / rate` bits per data bit. */
  lemma {:induction false} RepetitionRate(c: Code, bits: seq<Bit>)
    requires c == Rep3 || c == Rep5 || c == Uncoded
    ensures |EncodeFor(c, bits)| as real * CodeRate(c) == |bits| as real
  {
    if c == Rep3 {
      BlockRate(|RepetitionEncode(bits, 3)|, |bits|, 3, 1);
    } else if c == Rep5 {
      BlockRate(|RepetitionEncode(bits, 5)|, |bits|, 5, 1);
    }
  }

  /** Whole blocks of `k` data bits sent as blocks of `n` go out at rate `k / n`. */
  lemma {:induction false} BlockRate(sent: nat, data: nat, n: nat, k: nat)
    requires n >= 1 && k >= 1 && data % k == 0 && sent == n * (data / k)
    ensures sent as real * (k as real / n as real) == data as real
  {
    var q := data / k;
    assert data == k * q;
    var qr, nr, kr := q as real, n as real, k as real;
    assert sent as real == nr * qr;
    assert data as real == kr * qr;
  }

  // ------------------------------------------------------------ the channel

  /** The random part of one call: the transmitted bits and, for every
      channel position, whether the noise pushed the symbol across zero. */
  datatype Trial = Trial(tx: seq<Bit>, flips: nat -> Bit)

  /** The first `n` flip decisions of a trial. */
  function FlipPattern(flips: nat -> Bit, n: nat): (f: seq<Bit>)
    ensures |f| == n && forall i :: 0 <= i < n ==> f[i] == flips(i)
  {
    seq(n, i requires 0 <= i < n => flips(i))
  }

  /** The hard decisions `x + noise > 0`: each coded bit, flipped where the noise won. */
  function Received(coded: seq<Bit>, flips: nat -> Bit): (r: seq<Bit>)
    ensures |r| == |coded|
    ensures forall i :: 0 <= i < |coded| ==> (r[i] != coded[i] <==> flips(i) == 1)
  {
    XorSeq(coded, FlipPattern(flips, |coded|))
  }

  /** Without flips the receiver sees what was sent. */
  lemma {:induction false} QuietChannel(coded: seq<Bit>, flips: nat -> Bit)
    requires forall i :: 0 <= i < |coded| ==> flips(i) == 0
    ensures Received(coded, flips) == coded
  {
    var r := Received(coded, flips);
    assert forall i :: 0 <= i < |coded| ==> r[i] == Xor(coded[i], 0) == coded[i];
  }

  // ------------------------------------------------------------ counting errors

  /** The number of positions where two sequences of equal length differ. */
  function Differences(a: seq<Bit>, b: seq<Bit>): (d: nat)
    requires |a| == |b|
    ensures d <= |a|
    ensures d == 0 <==> a == b
  {
    if |a| == 0 then 0
    else
      var n := |a| - 1;
      assert a == a[..n] + [a[n]] && b == b[..n] + [b[n]];
      Differences(a[..n], b[..n]) + (if a[n] != b[n] then 1 else 0)
  }

  /** Against a flipped copy, the differences are exactly the flips. */
  lemma {:induction false} DifferencesAreFlips(a: seq<Bit>, f: seq<Bit>)
    requires |a| == |f|
    ensures Differences(a, XorSeq(a, f)) == Ones(f)
    decreases |a|
  {
    if |a| > 0 {
      var n := |a| - 1;
      assert XorSeq(a, f)[..n] == XorSeq(a[..n], f[..n]);
      DifferencesAreFlips(a[..n], f[..n]);
    }
  }

  /** The counting loop of `simulateBer`: `i` runs over the shorter of the
      two lengths and every mismatch adds one. */
  method CountErrors(tx: seq<Bit>, decoded: seq<Bit>) returns (errors: nat, limit: nat)
    ensures limit == Min(|tx|, |decoded|)
    ensures errors == Differences(tx[..limit], decoded[..limit])
    ensures errors <= limit
    ensures errors == 0 <==> tx[..limit] == decoded[..limit]
  {
    limit := Min(|tx|, |decoded|);
    errors := 0;
    var i := 0;
    while i < limit
      invariant i <= limit
      invariant errors == Differences(tx[..i], decoded[..i])
    {
      assert tx[..i + 1][..i] == tx[..i] && decoded[..i + 1][..i] == decoded[..i];
      if tx[i] != decoded[i] {
        errors := errors + 1;
      }
      i := i + 1;
    }
  }

  // ------------------------------------------------------------ the error rate

  /** `errors / limit` as JavaScript computes it: `0 / 0` is `NaN`. */
  datatype Ber = Ratio(value: real) | NotANumber

  /** The error rate of a decoding against the transmitted bits. */
  function ErrorRate(tx: seq<Bit>, decoded: seq<Bit>): (b: Ber)
    ensures b.NotANumber? <==> Min(|tx|, |decoded|) == 0
    ensures b.Ratio? ==> 0.0 <= b.value <= 1.0
    ensures b == Ratio(0.0) <==> Min(|tx|, |decoded|) > 0 && tx[..Min(|tx|, |decoded|)] == decoded[..Min(|tx|, |decoded|)]
  {
    var limit := Min(|tx|, |decoded|);
    if limit == 0 then NotANumber
    else
      var e := Differences(tx[..limit], decoded[..limit]);
      FractionBounds(e, limit);
      Ratio(e as real / limit as real)
  }

  /** `0 <= e / n <= 1` for `e <= n`, and `e / n` is zero only for `e = 0`. */
  lemma {:induction false} FractionBounds(e: nat, n: nat)
    requires 0 < n && e <= n
    ensures 0.0 <= e as real / n as real <= 1.0
    ensures e as real / n as real == 0.0 <==> e == 0
  {
    var v := e as real / n as real;
    assert v * n as real == e as real;
  }

  /** The experiment `simulateBer` runs on one trial. */
  function Experiment(c: Code, t: Trial): Ber {
    ErrorRate(t.tx, DecodeFor(c, Received(EncodeFor(c, t.tx), t.flips)))
  }

  /** `simulateBer`: encode by name, pass through the channel, decode by name, count. */
  method SimulateBer(codeType: string, t: Trial) returns (ber: Ber)
    ensures ber == Experiment(CodeOf(codeType), t)
    ensures ber.Ratio? ==> 0.0 <= ber.value <= 1.0
  {
    var c := CodeOf(codeType);
    var coded := EncodeFor(c, t.tx);
    var rx := Received(coded, t.flips);
    var decoded;
    match c {
      case Rep3 => decoded := RepetitionDecode(rx, 3);
      case Rep5 => decoded := RepetitionDecode(rx, 5);
      case _ => decoded := DecodeFor(c, rx);
    }
    var errors, limit := CountErrors(t.tx, decoded);
    if limit == 0 {
      ber := NotANumber;
    } else {
      ber := Ratio(errors as real / limit as real);
    }
  }

  /** With no flip on the channel every code reports zero errors, unless
      nothing came back to compare (a Hamming code fed less than one block). */
  lemma {:induction false} NoiselessExperiment(c: Code, t: Trial)
    requires forall i :: 0 <= i < |EncodeFor(c, t.tx)| ==> t.flips(i) == 0
    ensures Experiment(c, t) == (if |t.tx| < DataBlock(c) then NotANumber else Ratio(0.0))
  {
    var k := DataBlock(c);
    QuietChannel(EncodeFor(c, t.tx), t.flips);
    RoundTripFor(c, t.tx);
    WholePrefixIsPrefix(t.tx, k);
    var w := k * (|t.tx| / k);
    assert |t.tx| < k <==> w == 0 by {
      if |t.tx| >= k {
        MulAtLeast(k, |t.tx| / k);
      } else {
        DivModUnique(|t.tx|, k, 0, |t.tx|);
      }
    }
    assert t.tx[..w][..w] == t.tx[..w];
  }

  /** Without coding the error rate is the share of flipped channel bits. */
  lemma {:induction false} UncodedErrorRate(t: Trial)
    requires |t.tx| > 0
    ensures Experiment(Uncoded, t) == Ratio(Ones(FlipPattern(t.flips, |t.tx|)) as real / |t.tx| as real)
  {
    var f := FlipPattern(t.flips, |t.tx|);
    DifferencesAreFlips(t.tx, f);
    assert t.tx[..|t.tx|] == t.tx;
    var r := Received(t.tx, t.flips);
    assert r[..|t.tx|] == r;
  }

  // ------------------------------------------------------------ the sweep

  /** `ber || 1e-6`: `NaN` and `0` are falsy and become the plot's floor. */
  const Floor: real := 0.000001

  function Clamp(b: Ber): (r: real)
    ensures r != 0.0
    ensures b.NotANumber? || b.value >= 0.0 ==> r > 0.0
    ensures b.Ratio? && b.value != 0.0 ==> r == b.value
    ensures b == NotANumber || b == Ratio(0.0) ==> r == Floor
  {
    if b.Ratio? && b.value != 0.0 then b.value else Floor
  }

  /** A clamped error rate lies between the floor and one. */
  lemma {:induction false} ClampedRateBounds(c: Code, t: Trial)
    ensures 0.0 < Clamp(Experiment(c, t)) <= 1.0
    ensures Floor <= 1.0
  {
  }

  /** One point of the chart. */
  datatype Point = Point(snr: int, berCoded: real, berUncoded: real)

  /** The `i`-th point of a sweep from `start`: the clamped coded and
      uncoded rates at `start + i` dB. The calls draw their randomness in
      order, so calls `2 i` and `2 i + 1` take the coded and uncoded trial
      of the `i`-th point. */
  function PointAt(start: int, i: nat, c: Code, trials: nat -> Trial): Point {
    Point(start + i, Clamp(Experiment(c, trials(2 * i))), Clamp(Experiment(Uncoded, trials(2 * i + 1))))
  }

  /** The body of the sweep at `snr = start + j`: the coded call, then the `"none"` one, both clamped. */
  method PlotPoint(start: int, j: nat, codeType: string, trials: nat -> Trial) returns (point: Point)
    ensures point == PointAt(start, j, CodeOf(codeType), trials)
  {
    var berCoded := SimulateBer(codeType, trials(2 * j));
    var berUncoded := SimulateBer("none", trials(2 * j + 1));
    CodeOfName(Uncoded);
    point := Point(start + j, Clamp(berCoded), Clamp(berUncoded));
  }

  /** `handleUpdatePlot`: for every whole `snr` from `start` up to `end`, one
      call with the chosen code and one with `"none"`, each clamped. */
  method Sweep(start: int, end: int, codeType: string, trials: nat -> Trial) returns (data: seq<Point>)
    ensures |data| == if start <= end then end - start + 1 else 0
    ensures forall i :: 0 <= i < |data| ==> data[i] == PointAt(start, i, CodeOf(codeType), trials)
  {
    ghost var point := (i: nat) => PointAt(start, i, CodeOf(codeType), trials);
    data := [];
    var snr := start;
    while snr <= end
      invariant start <= snr <= (if start <= end then end + 1 else start)
      invariant |data| == snr - start
      invariant data == Points(|data|, point)
    {
      var p := PlotPoint(start, snr - start, codeType, trials);
      PointsSnoc(|data|, point, p);
      data := data + [p];
      snr := snr + 1;
    }
    forall i | 0 <= i < |data|
      ensures data[i] == PointAt(start, i, CodeOf(codeType), trials)
    {
      PointsAt(|data|, point, i);
    }
  }

  /** The first `n` points of a sweep, point `i` given by `point(i)`. */
  function Points(n: nat, point: nat -> Point): (ps: seq<Point>)
    ensures |ps| == n
  {
    if n == 0 then [] else Points(n - 1, point) + [point(n - 1)]
  }

  lemma {:induction false} PointsSnoc(n: nat, point: nat -> Point, p: Point)
    requires p == point(n)
    ensures Points(n, point) + [p] == Points(n + 1, point)
  {
  }

  lemma {:induction false} PointsAt(n: nat, point: nat -> Point, i: nat)
    requires i < n
    ensures Points(n, point)[i] == point(i)
  {
    PointsIndex(n, point);
  }

  lemma {:induction false} PointsIndex(n: nat, point: nat -> Point)
    ensures forall i :: 0 <= i < n ==> Points(n, point)[i] == point(i)
  {
    if n > 0 {
      PointsIndex(n - 1, point);
    }
  }

  /** The chart's points are in strictly increasing `snr`, one dB apart, and
      every plotted rate is positive, so the logarithmic axis can show it. */
  lemma {:induction false} SweepShape(start: int, data: seq<Point>, c: Code, trials: nat -> Trial)
    requires forall i :: 0 <= i < |data| ==> data[i] == PointAt(start, i, c, trials)
    ensures forall i, j :: 0 <= i < j < |data| ==> data[i].snr < data[j].snr
    ensures forall i :: 0 <= i < |data| ==> 0.0 < data[i].berCoded <= 1.0 && 0.0 < data[i].berUncoded <= 1.0
  {
    forall i | 0 <= i < |data|
      ensures 0.0 < data[i].berCoded <= 1.0 && 0.0 < data[i].berUncoded <= 1.0
    {
      ClampedRateBounds(c, trials(2 * i));
      ClampedRateBounds(Uncoded, trials(2 * i + 1));
    }
  }
}

=== FILE: ber_script.dfy ===
/** The codecs of the offline bit-error-rate script, written with numpy:
    the input is reshaped into rows of one block each (which raises unless
    the block length divides the input length), every row is multiplied by
    a 0/1 matrix modulo 2 or summed, and the rows are flattened again.

    The (7,4) code is the Hamming code: its generator gives the same
    codewords as the simulator and the library, and its decoder reads the
    parity-check product as a position and flips that bit. The "(15,11)"
    code puts four parity bits in front of the eleven data bits and never
    corrects; its parity matrix repeats columns, so it is not a Hamming code. */
module BerScript {
  import opened Bits
  import opened Binary
  import opened Hamming
  import opened HammingTheory
  import opened HammingSmall
  import Repetition
  import ArcadeCodecs

  // ------------------------------------------------------------ reshape

  /** `reshape` either succeeds or raises `ValueError`. */
  datatype Reshaped<T> = Ok(value: T) | ReshapeError

  /** The rows of `k` symbols at the front of `bits`. */
  function Rows(bits: seq<Bit>, k: nat): seq<seq<Bit>>
    requires k >= 1
    decreases |bits|
  {
    if |bits| < k then [] else [bits[..k]] + Rows(bits[k..], k)
  }

  /** `flatten`: the rows one after another. */
  function Flatten(rows: seq<seq<Bit>>): seq<Bit>
    decreases |rows|
  {
    if |rows| == 0 then [] else rows[0] + Flatten(rows[1..])
  }

  /** `bits.reshape(-1, k)`: the rows of `k`, or an error when `k` does not divide the length. */
  function Reshape(bits: seq<Bit>, k: nat): (r: Reshaped<seq<seq<Bit>>>)
    ensures r.Ok? <==> k >= 1 && |bits| % k == 0
  {
    if k == 0 || |bits| % k != 0 then ReshapeError else Ok(Rows(bits, k))
  }

  /** Every row has `k` symbols, there are `|bits| / k` of them, and
      flattening them gives back the input (its whole blocks, which is all
      of it whenever the reshape succeeds). */
  lemma {:induction false} ReshapeRoundTrip(bits: seq<Bit>, k: nat)
    requires k >= 1
    ensures |Rows(bits, k)| == |bits| / k
    ensures forall j :: 0 <= j < |Rows(bits, k)| ==> |Rows(bits, k)[j]| == k
    ensures Flatten(Rows(bits, k)) == WholePrefix(bits, k)
    ensures |bits| % k == 0 ==> WholePrefix(bits, k) == bits
    decreases |bits|
  {
    if |bits| < k {
      DivModUnique(|bits|, k, 0, |bits|);
    } else {
      ReshapeRoundTrip(bits[k..], k);
      DivAddOne(|bits| - k, k);
      var rows := Rows(bits, k);
      assert rows[1..] == Rows(bits[k..], k);
      assert forall j :: 1 <= j < |rows| ==> rows[j] == rows[1..][j - 1];
      assert bits == bits[..k] + bits[k..];
    }
  }

  // ------------------------------------------------------------ matrix arithmetic

  /** `np.dot` of a matrix row with a vector of the same length. */
  function Dot(row: seq<int>, v: seq<Bit>): int
    decreases |row|
  {
    if |row| == 0 || |v| == 0 then 0 else row[0] * v[0] + Dot(row[1..], v[1..])
  }

  /** `np.dot(M, v) % 2`: one parity per row of `M`. */
  function MulMod2(m: seq<seq<int>>, v: seq<Bit>): (r: seq<Bit>)
    ensures |r| == |m| && forall i :: 0 <= i < |m| ==> r[i] == Dot(m[i], v) % 2
  {
    seq(|m|, i requires 0 <= i < |m| => Dot(m[i], v) % 2)
  }

  /** `(np.dot(blocks, M.T) % 2).flatten()`: every row multiplied by `M`, the products in order. */
  function EncodeRows(m: seq<seq<int>>, rows: seq<seq<Bit>>): seq<Bit>
    decreases |rows|
  {
    if |rows| == 0 then [] else MulMod2(m, rows[0]) + EncodeRows(m, rows[1..])
  }

  /** Row `i` of the `n` by `n` identity matrix. */
  function Unit(n: nat, i: int): (u: seq<int>)
    ensures |u| == n
  {
    if n == 0 then [] else [if i == 0 then 1 else 0] + Unit(n - 1, i - 1)
  }

  /** `np.eye(n, dtype=int)`. */
  function Eye(n: nat): seq<seq<int>> {
    seq(n, i requires 0 <= i < n => Unit(n, i))
  }

  /** An identity row picks one entry out of the vector. */
  lemma {:induction false} DotUnit(n: nat, i: int, v: seq<Bit>)
    requires |v| == n
    ensures Dot(Unit(n, i), v) == if 0 <= i < n then v[i] else 0
    decreases n
  {
    if n > 0 {
      DotUnit(n - 1, i - 1, v[1..]);
    }
  }

  /** One step of the dot product, taken at position `i`. */
  lemma {:induction false} DotStep(row: seq<int>, v: seq<Bit>, i: nat)
    requires i < |row| && i < |v|
    ensures Dot(row[i..], v[i..]) == row[i] * v[i] + Dot(row[i + 1..], v[i + 1..])
  {
    assert row[i..][1..] == row[i + 1..];
    assert v[i..][1..] == v[i + 1..];
  }

  /** Four steps of the dot product, from position `i`. */
  lemma {:induction false} DotSteps4(row: seq<int>, v: seq<Bit>, i: nat)
    requires i + 4 <= |row| && i + 4 <= |v|
    ensures Dot(row[i..], v[i..]) == row[i] * v[i] + row[i + 1] * v[i + 1] + row[i + 2] * v[i + 2]
      + row[i + 3] * v[i + 3] + Dot(row[i + 4..], v[i + 4..])
  {
    DotStep(row, v, i); DotStep(row, v, i + 1); DotStep(row, v, i + 2); DotStep(row, v, i + 3);
  }

  /** The dot product of a row of four with a 4-vector, written out. */
  lemma {:induction false} Dot4(a0: int, a1: int, a2: int, a3: int, v: seq<Bit>)
    requires |v| == 4
    ensures Dot([a0, a1, a2, a3], v) == a0 * v[0] + a1 * v[1] + a2 * v[2] + a3 * v[3]
  {
    var row := [a0, a1, a2, a3];
    assert row[0..] == row && v[0..] == v;
    DotSteps4(row, v, 0);
  }

  /** The dot product of a row of seven with a 7-vector, written out. */
  lemma {:induction false} Dot7(a0: int, a1: int, a2: int, a3: int, a4: int, a5: int, a6: int, v: seq<Bit>)
    requires |v| == 7
    ensures Dot([a0, a1, a2, a3, a4, a5, a6], v)
      == a0 * v[0] + a1 * v[1] + a2 * v[2] + a3 * v[3] + a4 * v[4] + a5 * v[5] + a6 * v[6]
  {
    var row := [a0, a1, a2, a3, a4, a5, a6];
    assert row[0..] == row && v[0..] == v;
    DotSteps4(row, v, 0);
    DotStep(row, v, 4); DotStep(row, v, 5); DotStep(row, v, 6);
  }

  /** The dot product of two 11-vectors, written out. */
  lemma {:induction false} Dot11(row: seq<int>, v: seq<Bit>)
    requires |row| == 11 && |v| == 11
    ensures Dot(row, v) == row[0] * v[0] + row[1] * v[1] + row[2] * v[2] + row[3] * v[3]
      + row[4] * v[4] + row[5] * v[5] + row[6] * v[6] + row[7] * v[7]
      + row[8] * v[8] + row[9] * v[9] + row[10] * v[10]
  {
    assert row[0..] == row && v[0..] == v;
    DotSteps4(row, v, 0);
    DotSteps4(row, v, 4);
    DotStep(row, v, 8); DotStep(row, v, 9); DotStep(row, v, 10);
  }

  /** The product of a matrix of seven rows, entry by entry. */
  lemma {:induction false} Products7(m: seq<seq<int>>, v: seq<Bit>)
    requires |m| == 7
    ensures MulMod2(m, v) == [Dot(m[0], v) % 2, Dot(m[1], v) % 2, Dot(m[2], v) % 2, Dot(m[3], v) % 2,
      Dot(m[4], v) % 2, Dot(m[5], v) % 2, Dot(m[6], v) % 2]
  {
  }

  /** The product of a matrix of three rows, entry by entry. */
  lemma {:induction false} Products3(m: seq<seq<int>>, v: seq<Bit>)
    requires |m| == 3
    ensures MulMod2(m, v) == [Dot(m[0], v) % 2, Dot(m[1], v) % 2, Dot(m[2], v) % 2]
  {
  }

  /** Multiplying by the identity modulo 2 gives the bits back. */
  lemma {:induction false} EyeKeeps(v: seq<Bit>)
    ensures MulMod2(Eye(|v|), v) == v
  {
    var n := |v|;
    forall i | 0 <= i < n
      ensures MulMod2(Eye(n), v)[i] == v[i]
    {
      DotUnit(n, i, v);
    }
  }

  // ------------------------------------------------------------ repetition

  /** `np.repeat(bits, rate_factor)`: element `i` of the result is `bits[i // rate_factor]`. */
  function RepetitionEncode(bits: seq<Bit>, rateFactor: nat): (r: seq<Bit>)
    ensures |r| == rateFactor * |bits|
    ensures rateFactor >= 1 ==> forall i :: 0 <= i < |r| ==> i / rateFactor < |bits| && r[i] == bits[i / rateFactor]
  {
    RepeatIndices(bits, rateFactor);
    Repetition.Encode(bits, rateFactor)
  }

  lemma {:induction false} RepeatIndices(bits: seq<Bit>, rateFactor: nat)
    ensures rateFactor >= 1 ==> forall i :: 0 <= i < |Repetition.Encode(bits, rateFactor)| ==>
      i / rateFactor < |bits| && Repetition.Encode(bits, rateFactor)[i] == bits[i / rateFactor]
  {
    if rateFactor >= 1 {
      forall i | 0 <= i < |Repetition.Encode(bits, rateFactor)|
        ensures i / rateFactor < |bits| && Repetition.Encode(bits, rateFactor)[i] == bits[i / rateFactor]
      {
        Repetition.EncodeIndex(bits, rateFactor, i);
      }
    }
  }

  /** `np.sum(blocks, axis=1) > rate_factor / 2` for every row, as 0/1. */
  function VoteRows(rows: seq<seq<Bit>>, rateFactor: nat): (r: seq<Bit>)
    ensures |r| == |rows|
    decreases |rows|
  {
    if |rows| == 0 then [] else [Repetition.Vote(rows[0], rateFactor)] + VoteRows(rows[1..], rateFactor)
  }

  /** The script's repetition decoder: it raises unless `rate_factor` divides the length. */
  function RepetitionDecode(bits: seq<Bit>, rateFactor: nat): (r: Reshaped<seq<Bit>>)
    ensures r.Ok? <==> rateFactor >= 1 && |bits| % rateFactor == 0
  {
    match Reshape(bits, rateFactor)
    case ReshapeError => ReshapeError
    case Ok(rows) => Ok(VoteRows(rows, rateFactor))
  }

  /** Row by row majority is the library's chunk by chunk majority on the whole blocks. */
  lemma {:induction false} VoteRowsAreChunks(bits: seq<Bit>, rateFactor: nat)
    requires rateFactor >= 1
    ensures VoteRows(Rows(bits, rateFactor), rateFactor) == Repetition.Decode(WholePrefix(bits, rateFactor), rateFactor)
    decreases |bits|
  {
    if |bits| >= rateFactor {
      var w := WholePrefix(bits, rateFactor);
      var rest := WholePrefix(bits[rateFactor..], rateFactor);
      VoteRowsAreChunks(bits[rateFactor..], rateFactor);
      assert w[..rateFactor] == bits[..rateFactor] && w[rateFactor..] == rest;
      assert Rows(bits, rateFactor)[1..] == Rows(bits[rateFactor..], rateFactor);
    }
  }

  /** Whenever the reshape succeeds the script decodes exactly as the library does. */
  lemma {:induction false} RepetitionDecodeIsGeneric(bits: seq<Bit>, rateFactor: nat)
    requires rateFactor >= 1 && |bits| % rateFactor == 0
    ensures RepetitionDecode(bits, rateFactor) == Ok(Repetition.Decode(bits, rateFactor))
  {
    ReshapeRoundTrip(bits, rateFactor);
    VoteRowsAreChunks(bits, rateFactor);
  }

  /** On a noiseless channel the script's repetition codec returns its input. */
  lemma {:induction false} RepetitionRoundTrip(bits: seq<Bit>, rateFactor: nat)
    requires rateFactor >= 1
    ensures RepetitionDecode(RepetitionEncode(bits, rateFactor), rateFactor) == Ok(bits)
  {
    var e := RepetitionEncode(bits, rateFactor);
    DivModUnique(|e|, rateFactor, |bits|, 0);
    RepetitionDecodeIsGeneric(e, rateFactor);
    Repetition.RoundTrip(bits, rateFactor);
  }

  // ------------------------------------------------------------ Hamming (7,4)

  /** The generator `G` of the (7,4) encoder, one row per codeword position. */
  const G74: seq<seq<int>> := [
    [1, 1, 0, 1], [1, 0, 1, 1], [1, 0, 0, 0],
    [0, 1, 1, 1], [0, 1, 0, 0], [0, 0, 1, 0], [0, 0, 0, 1]]

  /** The parity-check matrix `H` of the (7,4) decoder: column `j` is `j + 1` in binary. */
  const H74: seq<seq<int>> := [
    [1, 0, 1, 0, 1, 0, 1],
    [0, 1, 1, 0, 0, 1, 1],
    [0, 0, 0, 1, 1, 1, 1]]

  /** The (7,4) encoder: whole rows of 4 only, or the reshape error. */
  function Hamming74Encode(bits: seq<Bit>): (r: Reshaped<seq<Bit>>)
    ensures r.Ok? <==> |bits| % 4 == 0
  {
    match Reshape(bits, 4)
    case ReshapeError => ReshapeError
    case Ok(rows) => Ok(EncodeRows(G74, rows))
  }

  /** `G d mod 2` is the simulator's codeword `[d0+d1+d3, d0+d2+d3, d0, d1+d2+d3, d1, d2, d3]` mod 2. */
  lemma {:induction false} Generator74(d: seq<Bit>)
    requires |d| == 4
    ensures MulMod2(G74, d) == ArcadeCodecs.Codeword74(d)
  {
    Products7(G74, d);
    GRows74(d);
    Parities74(Dot(G74[0], d), Dot(G74[1], d), Dot(G74[2], d), Dot(G74[3], d),
      Dot(G74[4], d), Dot(G74[5], d), Dot(G74[6], d), d);
  }

  /** Seven sums that match the rows of `G`, reduced modulo 2, are the simulator's codeword. */
  lemma {:induction false} Parities74(x0: int, x1: int, x2: int, x3: int, x4: int, x5: int, x6: int, d: seq<Bit>)
    requires |d| == 4
    requires x0 == d[0] as int + d[1] + d[3] && x1 == d[0] as int + d[2] + d[3] && x2 == d[0]
    requires x3 == d[1] as int + d[2] + d[3] && x4 == d[1] && x5 == d[2] && x6 == d[3]
    ensures [x0 % 2, x1 % 2, x2 % 2, x3 % 2, x4 % 2, x5 % 2, x6 % 2] == ArcadeCodecs.Codeword74(d)
  {
  }

  /** The seven rows of `G` against a 4-bit block, as sums. */
  lemma {:induction false} GRows74(d: seq<Bit>)
    requires |d| == 4
    ensures Dot(G74[0], d) == d[0] as int + d[1] + d[3]
    ensures Dot(G74[1], d) == d[0] as int + d[2] + d[3]
    ensures Dot(G74[2], d) == d[0]
    ensures Dot(G74[3], d) == d[1] as int + d[2] + d[3]
    ensures Dot(G74[4], d) == d[1]
    ensures Dot(G74[5], d) == d[2]
    ensures Dot(G74[6], d) == d[3]
  {
    GParityRows74(d);
    GDataRows74(d);
  }

  /** Rows 0, 1 and 3 of `G` compute the three parity bits. */
  lemma {:induction false} GParityRows74(d: seq<Bit>)
    requires |d| == 4
    ensures Dot(G74[0], d) == d[0] as int + d[1] + d[3]
    ensures Dot(G74[1], d) == d[0] as int + d[2] + d[3]
    ensures Dot(G74[3], d) == d[1] as int + d[2] + d[3]
  {
    assert G74[0] == [1, 1, 0, 1] && G74[1] == [1, 0, 1, 1] && G74[3] == [0, 1, 1, 1];
    Dot4(1, 1, 0, 1, d); Dot4(1, 0, 1, 1, d); Dot4(0, 1, 1, 1, d);
  }

  /** Rows 2, 4, 5 and 6 of `G` copy the four data bits. */
  lemma {:induction false} GDataRows74(d: seq<Bit>)
    requires |d| == 4
    ensures Dot(G74[2], d) == d[0]
    ensures Dot(G74[4], d) == d[1]
    ensures Dot(G74[5], d) == d[2]
    ensures Dot(G74[6], d) == d[3]
  {
    assert G74[2] == [1, 0, 0, 0] && G74[4] == [0, 1, 0, 0] && G74[5] == [0, 0, 1, 0] && G74[6] == [0, 0, 0, 1];
    Dot4(1, 0, 0, 0, d); Dot4(0, 1, 0, 0, d); Dot4(0, 0, 1, 0, d); Dot4(0, 0, 0, 1, d);
  }

  /** The product with `G` over every row is the simulator's encoder over every whole block. */
  lemma {:induction false} EncodeRows74(bits: seq<Bit>)
    ensures EncodeRows(G74, Rows(bits, 4)) == ArcadeCodecs.Hamming74Encode(bits)
    decreases |bits|
  {
    if |bits| >= 4 {
      EncodeRows74(bits[4..]);
      Generator74(bits[..4]);
      assert Rows(bits, 4)[1..] == Rows(bits[4..], 4);
    }
  }

  /** Whenever the reshape succeeds the script's (7,4) encoder is the
      simulator's, hence the library's with `n = 7`, `k = 4`. */
  lemma {:induction false} Hamming74EncodeIsGeneric(bits: seq<Bit>)
    requires |bits| % 4 == 0
    ensures Hamming74Encode(bits) == Ok(ArcadeCodecs.Hamming74Encode(bits))
    ensures Hamming74Encode(bits) == Ok(Hamming.Encode(bits, 7, 4))
  {
    EncodeRows74(bits);
    ReshapeRoundTrip(bits, 4);
    ArcadeCodecs.Hamming74EncodeIsGeneric(bits);
  }

  /** `int("".join(map(str, syndrome[::-1])), 2)`: the checks read as the bits of a number, first check lowest. */
  function SyndromeValue(s: seq<Bit>): (v: nat)
    requires |s| == 3
    ensures v < 8
  {
    s[0] as int + 2 * (s[1] as int) + 4 * (s[2] as int)
  }

  /** One received row: flip the bit the syndrome points at, if any, and read positions 2, 4, 5, 6. */
  function DecodeRow74(block: seq<Bit>): (d: seq<Bit>)
    requires |block| == 7
    ensures |d| == 4
  {
    var sVal := SyndromeValue(MulMod2(H74, block));
    var fixed := if sVal != 0 then block[sVal - 1 := 1 - block[sVal - 1]] else block;
    [fixed[2], fixed[4], fixed[5], fixed[6]]
  }

  predicate RowsOfLength(rows: seq<seq<Bit>>, k: nat) {
    forall j :: 0 <= j < |rows| ==> |rows[j]| == k
  }

  function DecodeRows74(rows: seq<seq<Bit>>): seq<Bit>
    requires RowsOfLength(rows, 7)
    decreases |rows|
  {
    if |rows| == 0 then [] else DecodeRow74(rows[0]) + DecodeRows74(rows[1..])
  }

  /** The (7,4) decoder: syndrome correction on every row of 7, or the reshape error. */
  function Hamming74Decode(bits: seq<Bit>): (r: Reshaped<seq<Bit>>)
    ensures r.Ok? <==> |bits| % 7 == 0
  {
    match Reshape(bits, 7)
    case ReshapeError => ReshapeError
    case Ok(rows) =>
      ReshapeRoundTrip(bits, 7);
      Ok(DecodeRows74(rows))
  }

  /** Row `i` of `H` is check `2^i` of the library: `H c mod 2` lists the failed checks. */
  lemma {:induction false} ParityChecks74(c: seq<Bit>)
    requires |c| == 7
    ensures MulMod2(H74, c) == [Parity(c, 1, 7), Parity(c, 2, 7), Parity(c, 4, 7)]
  {
    HChecks74(c);
    Checks7(c);
  }

  /** `H c mod 2` as three sums of bits modulo 2. */
  lemma {:induction false} HChecks74(c: seq<Bit>)
    requires |c| == 7
    ensures |MulMod2(H74, c)| == 3
    ensures MulMod2(H74, c)[0] == (c[0] as int + c[2] + c[4] + c[6]) % 2
    ensures MulMod2(H74, c)[1] == (c[1] as int + c[2] + c[5] + c[6]) % 2
    ensures MulMod2(H74, c)[2] == (c[3] as int + c[4] + c[5] + c[6]) % 2
  {
    HRows74(c);
  }

  /** The three rows of `H` against a 7-bit block, as sums. */
  lemma {:induction false} HRows74(c: seq<Bit>)
    requires |c| == 7
    ensures Dot(H74[0], c) == c[0] as int + c[2] + c[4] + c[6]
    ensures Dot(H74[1], c) == c[1] as int + c[2] + c[5] + c[6]
    ensures Dot(H74[2], c) == c[3] as int + c[4] + c[5] + c[6]
  {
    assert H74[0] == [1, 0, 1, 0, 1, 0, 1] && H74[1] == [0, 1, 1, 0, 0, 1, 1] && H74[2] == [0, 0, 0, 1, 1, 1, 1];
    Dot7(1, 0, 1, 0, 1, 0, 1, c);
    Dot7(0, 1, 1, 0, 0, 1, 1, c);
    Dot7(0, 0, 0, 1, 1, 1, 1, c);
  }

  /** The library's syndrome of a 7-bit block, written as a sum. */
  lemma {:induction false} Syndrome7(c: seq<Bit>)
    requires |c| == 7
    ensures Syndrome(c, 3) == Parity(c, 1, 7) + 2 * Parity(c, 2, 7) + 4 * Parity(c, 4, 7)
  {
    assert Pow2(0) == 1 && Pow2(1) == 2 && Pow2(2) == 4;
    var s0: int, s1: int, s2: int := Parity(c, 1, 7), Parity(c, 2, 7), Parity(c, 4, 7);
    assert Syndrome(c, 1) == s0 by {
      if s0 != 0 {
        BitOrFresh(0, 0);
      }
    }
    assert Syndrome(c, 2) == s0 + 2 * s1 by {
      SyndromeBelow(c, 1);
      if s1 != 0 {
        BitOrFresh(Syndrome(c, 1), 1);
      }
    }
    SyndromeBelow(c, 2);
    if s2 != 0 {
      BitOrFresh(Syndrome(c, 2), 2);
    }
  }

  /** The script's syndrome value is the library's syndrome. */
  lemma {:induction false} SyndromeValueIsGeneric(c: seq<Bit>)
    requires |c| == 7
    ensures ParityBits(7) == 3
    ensures SyndromeValue(MulMod2(H74, c)) == Syndrome(c, ParityBits(7))
  {
    Params7();
    ParityChecks74(c);
    Syndrome7(c);
  }

  /** One row decodes exactly as the library decodes a block of 7. */
  lemma {:induction false} DecodeRow74IsGeneric(block: seq<Bit>)
    requires |block| == 7
    ensures DecodeRow74(block) == DecodeBlock(block)
  {
    SyndromeValueIsGeneric(block);
    Extract7(Correct(block));
  }

  /** Row by row decoding is the library's decoder on the whole blocks of 7. */
  lemma {:induction false} DecodeRows74IsGeneric(bits: seq<Bit>)
    ensures RowsOfLength(Rows(bits, 7), 7)
    ensures DecodeRows74(Rows(bits, 7)) == Hamming.Decode(bits, 7)
    decreases |bits|
  {
    ReshapeRoundTrip(bits, 7);
    if |bits| >= 7 {
      DecodeRows74IsGeneric(bits[7..]);
      DecodeRow74IsGeneric(bits[..7]);
      assert Rows(bits, 7)[1..] == Rows(bits[7..], 7);
    }
  }

  /** Whenever the reshape succeeds the script's (7,4) decoder is the library's. */
  lemma {:induction false} Hamming74DecodeIsGeneric(bits: seq<Bit>)
    requires |bits| % 7 == 0
    ensures Hamming74Decode(bits) == Ok(Hamming.Decode(bits, 7))
  {
    DecodeRows74IsGeneric(bits);
  }

  /** On a clean codeword the syndrome is 0; with the bit at 1-indexed
      position `q` flipped it is `q`, so the flip undoes the error. */
  lemma {:induction false} SyndromeLocatesError74(d: seq<Bit>, q: nat)
    requires |d| == 4 && 1 <= q <= 7
    ensures SyndromeValue(MulMod2(H74, MulMod2(G74, d))) == 0
    ensures SyndromeValue(MulMod2(H74, FlipAt(MulMod2(G74, d), q - 1))) == q
  {
    var c := MulMod2(G74, d);
    Generator74(d);
    ArcadeCodecs.Codeword74Spec(d);
    SyndromeValueIsGeneric(c);
    SyndromeValueIsGeneric(FlipAt(c, q - 1));
    CodewordSyndromeZero(c);
    SingleErrorSyndrome(c, q);
  }

  /** Encoded (7,4) blocks: `7 / 4` as many bits, all whole codewords, decoded back to the data. */
  lemma {:induction false} Hamming74Encoded(bits: seq<Bit>)
    requires |bits| % 4 == 0
    ensures |Hamming.Encode(bits, 7, 4)| == 7 * (|bits| / 4)
    ensures Codewords(Hamming.Encode(bits, 7, 4), 7)
    ensures Hamming.Decode(Hamming.Encode(bits, 7, 4), 7) == bits
  {
    Hamming74EncodeIsGeneric(bits);
    ArcadeCodecs.Hamming74Lengths(bits);
    Params7();
    EncodeCodewords(bits, 7, 4);
    ArcadeCodecs.Hamming74DecodeCodewords(Hamming.Encode(bits, 7, 4));
    ArcadeCodecs.Hamming74RoundTrip(bits);
    ReshapeRoundTrip(bits, 4);
  }

  /** The noiseless round trip of the script's (7,4) codec. */
  lemma {:induction false} Hamming74RoundTrip(bits: seq<Bit>)
    requires |bits| % 4 == 0
    ensures Hamming74Encode(bits).Ok?
    ensures Hamming74Decode(Hamming74Encode(bits).value) == Ok(bits)
  {
    var e := Hamming.Encode(bits, 7, 4);
    Hamming74EncodeIsGeneric(bits);
    Hamming74Encoded(bits);
    DivModUnique(|e|, 7, |bits| / 4, 0);
    Hamming74DecodeIsGeneric(e);
  }

  /** With at most one flipped bit in every block of 7 the script's (7,4)
      codec still returns the data. */
  lemma {:induction false} Hamming74CorrectsSingleErrors(bits: seq<Bit>, e: seq<Bit>)
    requires |bits| % 4 == 0
    requires |e| == 7 * (|bits| / 4) && AtMostOneErrorPerBlock(e, 7)
    ensures Hamming74Encode(bits).Ok? && |Hamming74Encode(bits).value| == |e|
    ensures Hamming74Decode(XorSeq(Hamming74Encode(bits).value, e)) == Ok(bits)
  {
    var c := Hamming.Encode(bits, 7, 4);
    Hamming74EncodeIsGeneric(bits);
    Hamming74Encoded(bits);
    CorrectsOneErrorPerBlock(c, e, 7);
    DivModUnique(|c|, 7, |bits| / 4, 0);
    Hamming74DecodeIsGeneric(XorSeq(c, e));
  }

  // ------------------------------------------------------------ "(15,11)"

  /** The parity matrix `P` of the (15,11) code, one row per parity bit. */
  const P1511: seq<seq<int>> := [
    [1, 1, 1, 0, 1, 1, 1, 0, 1, 0, 1],
    [1, 1, 0, 1, 1, 0, 1, 1, 0, 1, 1],
    [1, 0, 1, 1, 0, 1, 1, 1, 1, 1, 0],
    [0, 1, 1, 1, 1, 1, 0, 1, 1, 1, 1]]

  /** `G = np.vstack((P, np.eye(11)))`. */
  function G1511(): seq<seq<int>> {
    P1511 + Eye(11)
  }

  /** The (15,11) encoder: whole rows of 11 only, or the reshape error. */
  function Hamming1511Encode(bits: seq<Bit>): (r: Reshaped<seq<Bit>>)
    ensures r.Ok? <==> |bits| % 11 == 0
  {
    match Reshape(bits, 11)
    case ReshapeError => ReshapeError
    case Ok(rows) => Ok(EncodeRows(G1511(), rows))
  }

  /** Each codeword is systematic: the four parity bits `P d mod 2`, then the data unchanged. */
  lemma {:induction false} Codeword1511(d: seq<Bit>)
    requires |d| == 11
    ensures MulMod2(G1511(), d) == MulMod2(P1511, d) + d
  {
    var g := G1511();
    EyeKeeps(d);
    assert forall i :: 0 <= i < 4 ==> g[i] == P1511[i];
    assert forall i :: 4 <= i < 15 ==> g[i] == Eye(11)[i - 4];
  }

  /** `block[4:]` for every row of 15, without correction. */
  function DecodeRows1511(rows: seq<seq<Bit>>): seq<Bit>
    requires RowsOfLength(rows, 15)
    decreases |rows|
  {
    if |rows| == 0 then [] else rows[0][4..] + DecodeRows1511(rows[1..])
  }

  /** The (15,11) decoder: the last 11 bits of every row of 15, or the reshape error. */
  function Hamming1511Decode(bits: seq<Bit>): (r: Reshaped<seq<Bit>>)
    ensures r.Ok? <==> |bits| % 15 == 0
  {
    match Reshape(bits, 15)
    case ReshapeError => ReshapeError
    case Ok(rows) =>
      ReshapeRoundTrip(bits, 15);
      Ok(DecodeRows1511(rows))
  }

  /** Encoding every whole row of 11 and then dropping the first four bits of every 15 gives the rows back. */
  lemma {:induction false} Rows1511RoundTrip(bits: seq<Bit>)
    ensures Rows(EncodeRows(G1511(), Rows(bits, 11)), 15) == CodewordRows(bits)
    ensures RowsOfLength(CodewordRows(bits), 15)
    ensures DecodeRows1511(CodewordRows(bits)) == WholePrefix(bits, 11)
    decreases |bits|
  {
    if |bits| >= 11 {
      Rows1511RoundTrip(bits[11..]);
      Codeword1511(bits[..11]);
      var c := MulMod2(G1511(), bits[..11]);
      var rest := EncodeRows(G1511(), Rows(bits[11..], 11));
      assert Rows(bits, 11)[1..] == Rows(bits[11..], 11);
      assert (c + rest)[..15] == c && (c + rest)[15..] == rest;
      assert c[4..] == bits[..11];
    }
  }

  /** The codewords of the whole rows of 11, each as a row of 15. */
  function CodewordRows(bits: seq<Bit>): seq<seq<Bit>>
    decreases |bits|
  {
    if |bits| < 11 then [] else [MulMod2(G1511(), bits[..11])] + CodewordRows(bits[11..])
  }

  /** The noiseless round trip of the script's (15,11) codec. */
  lemma {:induction false} Hamming1511RoundTrip(bits: seq<Bit>)
    requires |bits| % 11 == 0
    ensures Hamming1511Encode(bits).Ok?
    ensures Hamming1511Decode(Hamming1511Encode(bits).value) == Ok(bits)
  {
    var e := EncodeRows(G1511(), Rows(bits, 11));
    ReshapeRoundTrip(bits, 11);
    Rows1511RoundTrip(bits);
    Encoded1511Length(bits);
    DivModUnique(|e|, 15, |bits| / 11, 0);
  }

  lemma {:induction false} Encoded1511Length(bits: seq<Bit>)
    ensures |EncodeRows(G1511(), Rows(bits, 11))| == 15 * (|bits| / 11)
    decreases |bits|
  {
    if |bits| < 11 {
      DivModUnique(|bits|, 11, 0, |bits|);
    } else {
      Encoded1511Length(bits[11..]);
      assert Rows(bits, 11)[1..] == Rows(bits[11..], 11);
      BlockCountStep(|bits|, 11, 15);
    }
  }

  /** Flipping a pair of bits that one row weighs equally keeps that row's parity. */
  lemma {:induction false} PairFlipParity(x: int, w: int, a: Bit, b: Bit)
    ensures (x + w * Not(a) + w * Not(b)) % 2 == (x + w * a + w * b) % 2
  {
    if a == b {
      assert w * Not(a) + w * Not(b) == w * a + w * b + 2 * (w - 2 * w * a);
    }
  }

  /** A row whose columns 1 and 4 agree has the same parity on `d` and on
      `d` with bits 1 and 4 flipped. */
  lemma {:induction false} RowPairFlip(row: seq<int>, d: seq<Bit>)
    requires |row| == 11 && |d| == 11 && row[1] == row[4]
    ensures Dot(row, FlipAt(FlipAt(d, 1), 4)) % 2 == Dot(row, d) % 2
  {
    var e := FlipAt(FlipAt(d, 1), 4);
    Dot11(row, d);
    Dot11(row, e);
    var rest := row[0] * d[0] + row[2] * d[2] + row[3] * d[3] + row[5] * d[5] + row[6] * d[6]
      + row[7] * d[7] + row[8] * d[8] + row[9] * d[9] + row[10] * d[10];
    assert e[0] == d[0] && e[2] == d[2] && e[3] == d[3] && e[5] == d[5] && e[6] == d[6];
    assert e[7] == d[7] && e[8] == d[8] && e[9] == d[9] && e[10] == d[10];
    assert e[1] == Not(d[1]) && e[4] == Not(d[4]);
    PairFlipParity(rest, row[1], d[1], d[4]);
  }

  /** Columns 1 and 4 of `P` are equal, so flipping data bits 1 and 4
      together leaves all four parity bits as they were. */
  lemma {:induction false} RepeatedColumns(d: seq<Bit>)
    requires |d| == 11
    ensures forall i :: 0 <= i < 4 ==> P1511[i][1] == P1511[i][4]
    ensures MulMod2(P1511, FlipAt(FlipAt(d, 1), 4)) == MulMod2(P1511, d)
  {
    var e := FlipAt(FlipAt(d, 1), 4);
    forall i | 0 <= i < 4
      ensures MulMod2(P1511, e)[i] == MulMod2(P1511, d)[i]
    {
      RowPairFlip(P1511[i], d);
    }
  }

  /** Two data blocks that differ in bits 1 and 4 have codewords that
      differ only in bits 5 and 8: one error in bit 5 of the first
      codeword and one error in bit 8 of the second give the same received
      block, so no decoder of this code corrects every single error. */
  lemma {:induction false} CodewordsTwoApart(d: seq<Bit>)
    requires |d| == 11
    ensures FlipAt(MulMod2(G1511(), d), 5) == FlipAt(MulMod2(G1511(), FlipAt(FlipAt(d, 1), 4)), 8)
  {
    var e := FlipAt(FlipAt(d, 1), 4);
    Codeword1511(d);
    Codeword1511(e);
    RepeatedColumns(d);
    var p := MulMod2(P1511, d);
    assert FlipAt(p + d, 5) == p + FlipAt(d, 1);
    assert FlipAt(p + e, 8) == p + FlipAt(d, 1);
  }
}

=== FILE: binary.dfy ===
/** The integer side of the Hamming code: powers of two, single bits of a
    position, the bitwise `&` and `|` the source applies to positions and
    syndromes, and the number of parity bits. JavaScript evaluates `&` and `|`
    on 32-bit integers; every value here is a codeword position or a syndrome,
    far below that width, so the operators are modelled on unbounded naturals. */
module Binary {

  function Pow2(i: nat): (p: nat)
    ensures p >= 1
  {
    if i == 0 then 1 else 2 * Pow2(i - 1)
  }

  lemma {:induction false} Pow2Monotone(i: nat, j: nat)
    requires i < j
    ensures Pow2(i) < Pow2(j)
  {
    if i < j - 1 {
      Pow2Monotone(i, j - 1);
    }
  }

  /** Bit `i` of `q`, that is `(q / 2^i) % 2 == 1`. */
  predicate TestBit(q: nat, i: nat) {
    if i == 0 then q % 2 == 1 else TestBit(q / 2, i - 1)
  }

  /** Bitwise and (`a & b`), digit by digit from the least significant. */
  function BitAnd(a: nat, b: nat): nat
    decreases a
  {
    if a == 0 || b == 0 then 0
    else 2 * BitAnd(a / 2, b / 2) + (if a % 2 == 1 && b % 2 == 1 then 1 else 0)
  }

  /** Bitwise or (`a | b`), digit by digit from the least significant. */
  function BitOr(a: nat, b: nat): nat
    decreases a + b
  {
    if a == 0 then b
    else if b == 0 then a
    else 2 * BitOr(a / 2, b / 2) + (if a % 2 == 1 || b % 2 == 1 then 1 else 0)
  }

  /** The source's test `n > 0 && (n & (n - 1)) === 0`. */
  predicate IsPowerOfTwo(n: int) {
    n > 0 && BitAnd(n, n - 1) == 0
  }

  /** Least `m` with `x <= 2^m`: `Math.ceil(Math.log2(x))` for `x >= 1`, in integers. */
  function CeilLog2(x: nat): (m: nat)
    ensures x <= Pow2(m)
    ensures m == 0 || Pow2(m - 1) < x
  {
    if x <= 1 then 0 else 1 + CeilLog2((x + 1) / 2)
  }

  /** The characterisation of `CeilLog2` determines it. */
  lemma {:induction false} CeilLog2Unique(x: nat, m: nat)
    requires x <= Pow2(m)
    requires m == 0 || Pow2(m - 1) < x
    ensures CeilLog2(x) == m
  {
    var c := CeilLog2(x);
    if c < m {
      if c < m - 1 {
        Pow2Monotone(c, m - 1);
      }
    } else if m < c {
      if m < c - 1 {
        Pow2Monotone(m, c - 1);
      }
    }
  }

  lemma {:induction false} BitAndSelf(a: nat)
    ensures BitAnd(a, a) == a
    decreases a
  {
    if a > 0 {
      BitAndSelf(a / 2);
    }
  }

  /** The bitwise test is the power-of-two predicate it is meant to be. */
  lemma {:induction false} IsPowerOfTwoIff(n: int)
    ensures IsPowerOfTwo(n) <==> exists i: nat :: n == Pow2(i)
    decreases if n < 0 then 0 else n
  {
    if n <= 0 {
    } else if n == 1 {
      assert n == Pow2(0);
    } else if n % 2 == 0 {
      var a := n / 2;
      assert BitAnd(n, n - 1) == 2 * BitAnd(a, a - 1);
      IsPowerOfTwoIff(a);
      if IsPowerOfTwo(a) {
        var j: nat :| a == Pow2(j);
        assert n == Pow2(j + 1);
      } else {
        NotDoubledPower(n, a);
      }
    } else {
      var a := n / 2;
      BitAndSelf(a);
      assert BitAnd(n, n - 1) == 2 * a;
      OddNotPower(n);
    }
  }

  lemma {:induction false} NotDoubledPower(n: int, a: nat)
    requires n == 2 * a && a >= 1 && !exists i: nat :: a == Pow2(i)
    ensures !exists i: nat :: n == Pow2(i)
  {
    forall i: nat
      ensures n != Pow2(i)
    {
      if i > 0 {
        assert a != Pow2(i - 1);
      }
    }
  }

  lemma {:induction false} OddNotPower(n: int)
    requires n > 1 && n % 2 == 1
    ensures !exists i: nat :: n == Pow2(i)
  {
    forall i: nat
      ensures n != Pow2(i)
    {
      if i > 0 {
        assert Pow2(i) % 2 == 0;
      }
    }
  }

  lemma {:induction false} PowerOfTwoIsPow2(i: nat)
    ensures IsPowerOfTwo(Pow2(i))
  {
    IsPowerOfTwoIff(Pow2(i));
  }

  /** `q & 2^i` is non-zero exactly when bit `i` of `q` is set. */
  lemma {:induction false} BitAndPow2(q: nat, i: nat)
    ensures (BitAnd(q, Pow2(i)) != 0) == TestBit(q, i)
  {
    if q == 0 {
      TestBitZero(i);
    } else if i > 0 {
      BitAndPow2(q / 2, i - 1);
    }
  }

  lemma {:induction false} TestBitZero(i: nat)
    ensures !TestBit(0, i)
  {
    if i > 0 {
      TestBitZero(i - 1);
    }
  }

  /** A power of two has exactly one bit set. */
  lemma {:induction false} TestBitPow2(j: nat, i: nat)
    ensures TestBit(Pow2(j), i) <==> i == j
  {
    if j == 0 {
      if i > 0 {
        TestBitZero(i - 1);
      }
    } else if i > 0 {
      TestBitPow2(j - 1, i - 1);
    }
  }

  /** A number below `2^i` has bit `i` clear. */
  lemma {:induction false} TestBitBelow(q: nat, i: nat)
    requires q < Pow2(i)
    ensures !TestBit(q, i)
  {
    if i > 0 {
      TestBitBelow(q / 2, i - 1);
    }
  }

  /** OR-ing a fresh power of two into a smaller number adds it. */
  lemma {:induction false} BitOrFresh(s: nat, i: nat)
    requires s < Pow2(i)
    ensures BitOr(s, Pow2(i)) == s + Pow2(i)
  {
    if s != 0 {
      assert i > 0;
      BitOrFresh(s / 2, i - 1);
    }
  }

  /** The only power of two with bit `i` set is `2^i`. */
  lemma {:induction false} PowerWithBit(q: nat, i: nat)
    requires IsPowerOfTwo(q) && TestBit(q, i)
    ensures q == Pow2(i)
  {
    IsPowerOfTwoIff(q);
    var j: nat :| q == Pow2(j);
    TestBitPow2(j, i);
  }

  /** The sum of the bits below `j` of `q`, each at its weight `2^i`. */
  function LowBits(q: nat, j: nat): nat {
    if j == 0 then 0 else LowBits(q, j - 1) + (if TestBit(q, j - 1) then Pow2(j - 1) else 0)
  }

  lemma {:induction false} LowBitsHalf(q: nat, j: nat)
    ensures LowBits(q, j + 1) == q % 2 + 2 * LowBits(q / 2, j)
  {
    if j > 0 {
      LowBitsHalf(q, j - 1);
    }
  }

  /** Reading back every bit of a number below `2^j` gives the number. */
  lemma {:induction false} LowBitsAll(q: nat, j: nat)
    requires q < Pow2(j)
    ensures LowBits(q, j) == q
  {
    if j > 0 {
      LowBitsHalf(q, j - 1);
      LowBitsAll(q / 2, j - 1);
    }
  }
}

=== FILE: bits.dfy ===
/** Bit sequences as the codecs see them: binary digits carried as numbers,
    summed for majority votes and added modulo 2 for parity. */
module Bits {

  /** A binary digit. Every codec is fed, and produces, only 0s and 1s. */
  type Bit = b: int | 0 <= b <= 1

  /** Addition modulo 2 (`a ^ b`, or `(a + b) % 2`). */
  function Xor(a: Bit, b: Bit): Bit {
    if a == b then 0 else 1
  }

  /** The flipped bit (`b ^ 1`, or `1 - b`). */
  function Not(b: Bit): Bit {
    1 - b
  }

  function Min(a: int, b: int): int {
    if a <= b then a else b
  }

  /** `n` copies of `b` (`Array(n).fill(b)`). */
  function Repeat(b: Bit, n: nat): (r: seq<Bit>)
    ensures |r| == n
    ensures forall i :: 0 <= i < n ==> r[i] == b
  {
    seq(n, _ => b)
  }

  function Zeros(n: nat): (r: seq<Bit>)
    ensures |r| == n
    ensures forall i :: 0 <= i < n ==> r[i] == 0
  {
    Repeat(0, n)
  }

  /** `s` followed by zeros up to length `k` (the `while (block.length < k) push(0)` loop). */
  function PadTo(s: seq<Bit>, k: nat): (r: seq<Bit>)
    requires |s| <= k
    ensures |r| == k
    ensures r[..|s|] == s
    ensures forall i :: |s| <= i < k ==> r[i] == 0
  {
    s + Zeros(k - |s|)
  }

  /** Sum of the bits, accumulated from the left (`reduce((a, b) => a + b, 0)`). */
  function Ones(s: seq<Bit>): (c: nat)
    ensures c <= |s|
  {
    if |s| == 0 then 0 else Ones(s[..|s| - 1]) + s[|s| - 1]
  }

  /** Bitwise sum of two sequences of equal length. */
  function XorSeq(a: seq<Bit>, b: seq<Bit>): (r: seq<Bit>)
    requires |a| == |b|
    ensures |r| == |a|
    ensures forall i :: 0 <= i < |a| ==> r[i] == Xor(a[i], b[i])
  {
    seq(|a|, i requires 0 <= i < |a| => Xor(a[i], b[i]))
  }

  /** `s` with the bit at index `i` flipped: a single transmission error. */
  function FlipAt(s: seq<Bit>, i: nat): (r: seq<Bit>)
    requires i < |s|
    ensures |r| == |s| && r[i] != s[i]
    ensures forall j :: 0 <= j < |s| && j != i ==> r[j] == s[j]
  {
    s[i := Not(s[i])]
  }

  /** Adding one more bit to a sum flips its parity exactly when the bit is 1. */
  lemma {:induction false} XorSumMod(x: int, t: Bit)
    requires x >= 0
    ensures Xor(x % 2, t) == (x + t) % 2
  {
  }

  lemma {:induction false} XorSeqZeros(s: seq<Bit>)
    ensures XorSeq(s, Zeros(|s|)) == s
  {
  }

  /** Adding a pattern with a single 1 flips exactly that bit. */
  lemma {:induction false} XorSeqUnit(s: seq<Bit>, i: nat)
    requires i < |s|
    ensures XorSeq(s, Zeros(|s|)[i := 1]) == FlipAt(s, i)
  {
    var x, f := XorSeq(s, Zeros(|s|)[i := 1]), FlipAt(s, i);
    forall j | 0 <= j < |s|
      ensures x[j] == f[j]
    {
    }
  }

  /** Padding block by block pads the whole: the first block padded to `k`
      followed by the rest padded to its own whole number of blocks. */
  lemma {:induction false} PadConcat(data: seq<Bit>, k: nat, rest: nat, total: nat)
    requires k >= 1 && |data| > 0
    requires |data| <= k ==> rest == 0
    requires |data| - Min(k, |data|) <= rest && total == k + rest
    ensures PadTo(data[..Min(k, |data|)], k) + PadTo(data[Min(k, |data|)..], rest) == PadTo(data, total)
  {
    var t := Min(k, |data|);
    var x, y := PadTo(data[..t], k) + PadTo(data[t..], rest), PadTo(data, total);
    forall j | 0 <= j < total
      ensures x[j] == y[j]
    {
      if j < t {
        assert x[j] == data[j];
      } else if j < k {
        assert x[j] == 0;
      } else {
        assert x[j] == PadTo(data[t..], rest)[j - k];
      }
    }
  }

  /** `ceil(a / b)` for a positive divisor, counted the way the block loops
      count: one for every chunk of at most `b` symbols. */
  function CeilDiv(a: nat, b: nat): nat
    requires b > 0
    decreases a
  {
    if a == 0 then 0 else 1 + CeilDiv(a - Min(b, a), b)
  }

  /** The length of `a` symbols padded out to whole blocks of `b`. */
  function PaddedLength(a: nat, b: nat): (p: nat)
    requires b > 0
    ensures a <= p < a + b
    decreases a
  {
    if a == 0 then 0 else b + PaddedLength(a - Min(b, a), b)
  }

  /** Padding a non-empty stream takes one block more than padding what follows its first block. */
  lemma {:induction false} PaddedLengthStep(a: nat, b: nat)
    requires a > 0 && b > 0
    ensures PaddedLength(a, b) == b + PaddedLength(a - Min(b, a), b)
    ensures a <= b ==> PaddedLength(a - Min(b, a), b) == 0
  {
  }

  /** `s` cut into blocks of `k`, the last one padded with zeros to `k`:
      the blocks a block encoder reads, laid end to end. */
  function PadBlocks(s: seq<Bit>, k: nat): seq<Bit>
    requires k > 0
    decreases |s|
  {
    if |s| == 0 then []
    else PadTo(s[..Min(k, |s|)], k) + PadBlocks(s[Min(k, |s|)..], k)
  }

  /** Padding block by block is padding the whole to its padded length. */
  lemma {:induction false} PadBlocksIsPadTo(s: seq<Bit>, k: nat)
    requires k > 0
    ensures PadBlocks(s, k) == PadTo(s, PaddedLength(|s|, k))
    decreases |s|
  {
    if |s| == 0 {
      assert PadTo(s, 0) == [];
    } else {
      var t := Min(k, |s|);
      PadBlocksIsPadTo(s[t..], k);
      PaddedLengthStep(|s|, k);
      PadConcat(s, k, PaddedLength(|s| - t, k), PaddedLength(|s|, k));
    }
  }

  /** The padded length is one block per chunk. */
  lemma {:induction false} PaddedLengthIsProduct(a: nat, b: nat)
    requires b > 0
    ensures PaddedLength(a, b) == CeilDiv(a, b) * b
    decreases a
  {
    if a > 0 {
      PaddedLengthIsProduct(a - Min(b, a), b);
      MulSucc(CeilDiv(a - Min(b, a), b), b);
    }
  }

  /** The chunk count is the ceiling `(a + b - 1) / b`. */
  lemma {:induction false} CeilDivIsCeiling(a: nat, b: nat)
    requires b > 0
    ensures CeilDiv(a, b) == (a + b - 1) / b
    decreases a
  {
    if a == 0 {
      DivModUnique(b - 1, b, 0, b - 1);
    } else if a <= b {
      DivModUnique(a + b - 1, b, 1, a - 1);
    } else {
      CeilDivIsCeiling(a - b, b);
      DivAddOne(a - 1, b);
    }
  }

  /** `blocks` whole blocks of `b` make `blocks` chunks. */
  lemma {:induction false} CeilDivWhole(blocks: nat, b: nat)
    requires b > 0
    ensures CeilDiv(blocks * b, b) == blocks
  {
    if blocks > 0 {
      MulSucc(blocks - 1, b);
      CeilDivWhole(blocks - 1, b);
    }
  }

  /** Dividing `a + b` by `b` adds one to the quotient and keeps the remainder. */
  lemma {:induction false} DivAddOne(a: int, b: int)
    requires b > 0
    ensures (a + b) / b == a / b + 1
    ensures (a + b) % b == a % b
  {
    var q, r := a / b, a % b;
    assert a == b * q + r;
    assert a + b == b * (q + 1) + r;
    DivModUnique(a + b, b, q + 1, r);
  }

  /** Quotient and remainder are determined by `x == b * q + r` with `0 <= r < b`. */
  lemma {:induction false} DivModUnique(x: int, b: int, q: int, r: int)
    requires b > 0 && 0 <= r < b && x == b * q + r
    ensures x / b == q && x % b == r
  {
    var q', r' := x / b, x % b;
    if q > q' {
      MulAtLeast(b, q - q');
    } else if q < q' {
      MulAtLeast(b, q' - q);
    }
  }

  lemma {:induction false} MulSucc(x: int, n: int)
    ensures (x + 1) * n == n + x * n
  {
  }

  /** One more block of `n`: a length `n` longer than `x` blocks is `1 + x` blocks. */
  lemma {:induction false} MulStep(c: int, x: int, n: int, len: int, rest: int)
    requires c == 1 + x && len == n + rest && rest == x * n
    ensures len == c * n
  {
    MulSucc(x, n);
  }

  lemma {:induction false} MulAtLeast(b: int, d: int)
    requires b > 0 && d >= 1
    ensures b * d >= b
  {
  }

  /** `ceil(a / b)` blocks of `b` hold all `a` symbols, with less than one block to spare. */
  lemma {:induction false} CeilDivCovers(a: nat, b: nat)
    requires b > 0
    ensures a <= CeilDiv(a, b) * b < a + b
    decreases a
  {
    if a > b {
      CeilDivCovers(a - b, b);
      MulSucc(CeilDiv(a - b, b), b);
    }
  }

  /** Taking one block of `b` off a stream of at least `b` symbols removes one whole block. */
  lemma {:induction false} FloorDivStep(a: nat, b: nat)
    requires b > 0 && a >= b
    ensures a / b == 1 + (a - b) / b
  {
    DivAddOne(a - b, b);
  }

  /** The whole blocks of `k` at the front of `s`: what a loop that reads
      `k` symbols at a time, and stops when fewer are left, gets to see. */
  function WholePrefix(s: seq<Bit>, k: nat): seq<Bit>
    requires k >= 1
    decreases |s|
  {
    if |s| < k then [] else s[..k] + WholePrefix(s[k..], k)
  }

  /** The whole blocks are the first `k * (|s| / k)` symbols. */
  lemma {:induction false} WholePrefixIsPrefix(s: seq<Bit>, k: nat)
    requires k >= 1
    ensures k * (|s| / k) <= |s|
    ensures WholePrefix(s, k) == s[..k * (|s| / k)]
    decreases |s|
  {
    if |s| < k {
      DivModUnique(|s|, k, 0, |s|);
    } else {
      var w := k * ((|s| - k) / k);
      WholePrefixIsPrefix(s[k..], k);
      BlockCountStep(|s|, k, k);
      SplitPrefix(s, k, w);
    }
  }

  lemma {:induction false} SplitPrefix(s: seq<Bit>, k: nat, w: nat)
    requires k + w <= |s|
    ensures s[..k + w] == s[..k] + s[k..][..w]
  {
  }

  /** Taking one block of `k` off `a` symbols takes `n` off `n` per whole block. */
  lemma {:induction false} BlockCountStep(a: nat, k: nat, n: nat)
    requires a >= k >= 1
    ensures n * (a / k) == n + n * ((a - k) / k)
  {
    var q := (a - k) / k;
    FloorDivStep(a, k);
    assert a / k == q + 1;
    MulSucc(q, n);
  }

  lemma {:induction false} ConcatAssoc(a: seq<Bit>, b: seq<Bit>, c: seq<Bit>)
    ensures a + (b + c) == (a + b) + c
  {
  }

  lemma {:induction false} OnesAppend(a: seq<Bit>, b: seq<Bit>)
    ensures Ones(a + b) == Ones(a) + Ones(b)
    decreases |b|
  {
    if |b| == 0 {
      assert a + b == a;
    } else {
      assert (a + b)[..|a + b| - 1] == a + b[..|b| - 1];
      OnesAppend(a, b[..|b| - 1]);
    }
  }

  lemma {:induction false} OnesRepeat(b: Bit, n: nat)
    ensures Ones(Repeat(b, n)) == b * n
  {
    if n > 0 {
      assert Repeat(b, n)[..n - 1] == Repeat(b, n - 1);
      OnesRepeat(b, n - 1);
    }
  }

  /** A sequence with no 1s is all zeros. */
  lemma {:induction false} OnesZero(s: seq<Bit>)
    requires Ones(s) == 0
    ensures s == Zeros(|s|)
  {
    if |s| > 0 {
      OnesZero(s[..|s| - 1]);
      assert s == s[..|s| - 1] + [s[|s| - 1]];
    }
  }

  /** A sequence with exactly one 1 is zeros with a single 1 at some index. */
  lemma {:induction false} OnesOne(s: seq<Bit>) returns (i: nat)
    requires Ones(s) == 1
    ensures i < |s| && s == Zeros(|s|)[i := 1]
  {
    var last := |s| - 1;
    if s[last] == 1 {
      OnesZero(s[..last]);
      i := last;
      assert s == s[..last] + [1];
    } else {
      i := OnesOne(s[..last]);
      assert s == s[..last] + [0];
    }
  }
}

=== FILE: hamming.dfy ===
/** The generic binary Hamming code of the codec library, for any codeword
    length `n`. Positions are 1-indexed; the positions that are powers of two
    carry parity, the others carry data in ascending order. */
module Hamming {
  import opened Bits
  import opened Binary

  /** `m = Math.ceil(Math.log2(n + 1))`, read in integers: the least `m` with `n + 1 <= 2^m`. */
  function ParityBits(n: nat): nat {
    CeilLog2(n + 1)
  }

  /** The encoder's validation `n === 2^m - 1`. */
  predicate ValidLength(n: nat) {
    n == Pow2(ParityBits(n)) - 1
  }

  /** Data positions (those that are not powers of two) among 1..h; after the
      placement loop over a codeword of length `h` this is `dataIdx`. */
  function DataSlots(h: nat): (d: nat)
    ensures d <= h
  {
    if h == 0 then 0 else DataSlots(h - 1) + (if IsPowerOfTwo(h) then 0 else 1)
  }

  /** Positions 1..h of a codeword before its parity pass: the block's bits
      in order at the data positions, 0 at the parity positions. */
  function Layout(block: seq<Bit>, h: nat): (c: seq<Bit>)
    requires DataSlots(h) <= |block|
    ensures |c| == h
  {
    if h == 0 then []
    else Layout(block, h - 1) + [if IsPowerOfTwo(h) then 0 else block[DataSlots(h - 1)]]
  }

  /** XOR of the bits at positions `pos` in 1..h with `(pos & p) !== 0`:
      the inner loop shared by the parity pass and the syndrome computation. */
  function Parity(c: seq<Bit>, p: nat, h: nat): Bit
    requires h <= |c|
  {
    if h == 0 then 0
    else Xor(Parity(c, p, h - 1), if BitAnd(h, p) != 0 then c[h - 1] else 0)
  }

  /** The parity pass for indices `i` up to `m - 1`, in order: each step
      computes the parity for position `2^i` over the codeword as it stands,
      earlier parity bits included, and stores it at that position. */
  function SetParity(c: seq<Bit>, i: nat, m: nat): (r: seq<Bit>)
    requires Pow2(m) <= |c| + 1
    ensures |r| == |c|
    decreases m - i
  {
    if i >= m then c
    else
      var p := Pow2(i);
      Pow2Monotone(i, m);
      SetParity(c[p - 1 := Parity(c, p, |c|)], i + 1, m)
  }

  /** One codeword of length `n` for a block holding at least `n - m` data bits. */
  function EncodeBlock(block: seq<Bit>, n: nat): (c: seq<Bit>)
    requires ValidLength(n) && DataSlots(n) <= |block|
    ensures |c| == n
  {
    SetParity(Layout(block, n), 0, ParityBits(n))
  }

  /** The block loop of the encoder: blocks of `k` bits, the last one padded with zeros to `k`. */
  function EncodeBlocks(data: seq<Bit>, n: nat, k: nat): seq<Bit>
    requires ValidLength(n) && k >= 1 && DataSlots(n) <= k
    decreases |data|
  {
    if |data| == 0 then []
    else
      var t := Min(k, |data|);
      EncodeBlock(PadTo(data[..t], k), n) + EncodeBlocks(data[t..], n, k)
  }

  /** One codeword of `n` bits per block of `k` data bits, the last block counted even when short. */
  lemma {:induction false} EncodeBlocksLength(data: seq<Bit>, n: nat, k: nat)
    requires ValidLength(n) && k >= 1 && DataSlots(n) <= k
    ensures |EncodeBlocks(data, n, k)| == CeilDiv(|data|, k) * n
    decreases |data|
  {
    if |data| > 0 {
      var t := Min(k, |data|);
      EncodeBlocksLength(data[t..], n, k);
      EncodeBlocksLengthStep(data, n, k);
      MulStep(CeilDiv(|data|, k), CeilDiv(|data| - t, k), n,
        |EncodeBlocks(data, n, k)|, |EncodeBlocks(data[t..], n, k)|);
    }
  }

  lemma {:induction false} EncodeBlocksLengthStep(data: seq<Bit>, n: nat, k: nat)
    requires ValidLength(n) && k >= 1 && DataSlots(n) <= k && |data| > 0
    ensures |EncodeBlocks(data, n, k)| == n + |EncodeBlocks(data[Min(k, |data|)..], n, k)|
    ensures CeilDiv(|data|, k) == 1 + CeilDiv(|data| - Min(k, |data|), k)
  {
  }

  /** The encoder. A length that is not `2^m - 1` returns the data unencoded
      (the source also logs an error). For a valid length the block size `k`
      must be positive and at least `n - m`; bits of a block past `n - m` are
      never placed in the codeword. */
  function Encode(data: seq<Bit>, n: nat, k: int): seq<Bit>
    requires n >= 1
    requires ValidLength(n) ==> k >= 1 && k >= n - ParityBits(n)
  {
    if !ValidLength(n) then data
    else
      DataSlotsCount(n);
      EncodeBlocks(data, n, k)
  }

  /** For a valid length, `n` bits are sent for every block of `k` data bits or part of one. */
  lemma {:induction false} EncodeLength(data: seq<Bit>, n: nat, k: nat)
    requires n >= 1 && ValidLength(n) && k >= 1 && k >= n - ParityBits(n)
    ensures |Encode(data, n, k)| == CeilDiv(|data|, k) * n
  {
    DataSlotsCount(n);
    EncodeBlocksLength(data, n, k);
  }

  /** The syndrome after the checks for parity indices 0..j-1: `2^i` is OR-ed
      in for every check `i` whose parity over the received block is odd. */
  function Syndrome(block: seq<Bit>, j: nat): nat {
    if j == 0 then 0
    else
      var s := Syndrome(block, j - 1);
      var p := Pow2(j - 1);
      if Parity(block, p, |block|) != 0 then BitOr(s, p) else s
  }

  /** The received block after single-error correction: the bit at the
      syndrome's position is flipped when the syndrome is in 1..n. */
  function Correct(block: seq<Bit>): (r: seq<Bit>)
    ensures |r| == |block|
    ensures forall i :: 0 <= i < |block| && r[i] != block[i] ==> i + 1 == Syndrome(block, ParityBits(|block|))
  {
    var s := Syndrome(block, ParityBits(|block|));
    if s != 0 && s <= |block| then FlipAt(block, s - 1) else block
  }

  /** The bits at the data positions of `c`, in ascending position order. */
  function Extract(c: seq<Bit>): (d: seq<Bit>)
    ensures |d| == DataSlots(|c|)
  {
    if |c| == 0 then []
    else Extract(c[..|c| - 1]) + (if IsPowerOfTwo(|c|) then [] else [c[|c| - 1]])
  }

  function DecodeBlock(block: seq<Bit>): (d: seq<Bit>)
    ensures |d| == DataSlots(|block|)
  {
    Extract(Correct(block))
  }

  /** The decoder: blocks of `n` received bits, a trailing block shorter than
      `n` dropped. It never checks that `n` is valid, and the source's `k`
      argument is never read, so it is not a parameter here. */
  function Decode(received: seq<Bit>, n: nat): (r: seq<Bit>)
    requires n >= 1
    decreases |received|
  {
    if |received| < n then []
    else DecodeBlock(received[..n]) + Decode(received[n..], n)
  }

  /** Every whole block of `n` received bits yields `n - m` data bits; a
      trailing partial block yields none. */
  lemma {:induction false} DecodeLength(received: seq<Bit>, n: nat)
    requires n >= 1
    ensures |Decode(received, n)| == (n - ParityBits(n)) * (|received| / n)
  {
    DataSlotsCount(n);
    DecodeBlocksLength(received, n);
  }

  lemma {:induction false} DecodeBlocksLength(received: seq<Bit>, n: nat)
    requires n >= 1
    ensures |Decode(received, n)| == DataSlots(n) * (|received| / n)
    decreases |received|
  {
    if |received| < n {
      DivModUnique(|received|, n, 0, |received|);
    } else {
      DecodeBlocksLength(received[n..], n);
      BlockCountStep(|received|, n, DataSlots(n));
    }
  }

  /** There are exactly `m` powers of two in 1..h, so `n - m` data positions. */
  lemma {:induction false} DataSlotsCount(h: nat)
    requires h >= 1
    ensures DataSlots(h) == h - ParityBits(h)
  {
    if h == 1 {
      assert IsPowerOfTwo(1);
      CeilLog2Unique(2, 1);
    } else {
      DataSlotsCount(h - 1);
      ParityBitsStep(h);
    }
  }

  /** `m` grows by one exactly at the lengths that are powers of two. */
  lemma {:induction false} ParityBitsStep(h: nat)
    requires h >= 2
    ensures ParityBits(h) == ParityBits(h - 1) + (if IsPowerOfTwo(h) then 1 else 0)
  {
    var c := CeilLog2(h);
    if IsPowerOfTwo(h) {
      PowerStep(h);
    } else {
      PowerOfTwoIsPow2(c);
      assert h != Pow2(c);
      CeilLog2Unique(h + 1, c);
    }
  }

  lemma {:induction false} PowerStep(h: nat)
    requires h >= 2 && IsPowerOfTwo(h)
    ensures CeilLog2(h + 1) == CeilLog2(h) + 1
  {
    IsPowerOfTwoIff(h);
    var j: nat :| h == Pow2(j);
    assert j >= 1;
    Pow2Monotone(j - 1, j);
    CeilLog2Unique(h, j);
    CeilLog2Unique(h + 1, j + 1);
  }
}

=== FILE: hamming_small.dfy ===
/** The two fixed lengths the arcade codecs use, n = 7 (m = 3, k = 4) and
    n = 15 (m = 4, k = 11), with the generic checks and data positions
    written out, so that the hand-written codecs can be compared with the
    generic code. */
module HammingSmall {
  import opened Bits
  import opened Binary
  import opened Hamming
  import opened HammingTheory

  lemma {:induction false} Params7()
    ensures ParityBits(7) == 3 && ValidLength(7) && DataSlots(7) == 4
  {
    assert ParityBits(7) == 3;
    assert DataSlots(3) == 1;
  }

  lemma {:induction false} Params15()
    ensures ParityBits(15) == 4 && ValidLength(15) && DataSlots(15) == 11
  {
    Params7();
    assert ParityBits(15) == 4;
    assert DataSlots(11) == 7;
  }

  /** The checks of a length-7 block, written out: check `p` sums the positions whose index has bit `p` set. */
  lemma {:induction false} Checks7(c: seq<Bit>)
    requires |c| == 7
    ensures Parity(c, 1, 7) == (c[0] as int + c[2] + c[4] + c[6]) % 2
    ensures Parity(c, 2, 7) == (c[1] as int + c[2] + c[5] + c[6]) % 2
    ensures Parity(c, 4, 7) == (c[3] as int + c[4] + c[5] + c[6]) % 2
  {
    Check7At1(c);
    Check7At2(c);
    Check7At4(c);
  }

  lemma {:induction false} Check7At1Upto3(c: seq<Bit>)
    requires |c| == 7
    ensures Parity(c, 1, 3) == (c[0] as int + c[2]) % 2
  {
    ParityIn(c, 1, 1, 0);
    ParityOut(c, 1, 2);
    ParityIn(c, 1, 3, c[0] as int);
  }

  lemma {:induction false} Check7At1Upto6(c: seq<Bit>)
    requires |c| == 7
    ensures Parity(c, 1, 6) == (c[0] as int + c[2] + c[4]) % 2
  {
    Check7At1Upto3(c);
    ParityOut(c, 1, 4);
    ParityIn(c, 1, 5, c[0] as int + c[2]);
    ParityOut(c, 1, 6);
  }

  /** Check 1 of a length-7 block. */
  lemma {:induction false} Check7At1(c: seq<Bit>)
    requires |c| == 7
    ensures Parity(c, 1, 7) == (c[0] as int + c[2] + c[4] + c[6]) % 2
  {
    Check7At1Upto6(c);
    ParityIn(c, 1, 7, c[0] as int + c[2] + c[4]);
  }

  lemma {:induction false} Check7At2Upto3(c: seq<Bit>)
    requires |c| == 7
    ensures Parity(c, 2, 3) == (c[1] as int + c[2]) % 2
  {
    ParityOut(c, 2, 1);
    ParityIn(c, 2, 2, 0);
    ParityIn(c, 2, 3, c[1] as int);
  }

  lemma {:induction false} Check7At2Upto6(c: seq<Bit>)
    requires |c| == 7
    ensures Parity(c, 2, 6) == (c[1] as int + c[2] + c[5]) % 2
  {
    Check7At2Upto3(c);
    ParityOut(c, 2, 4);
    ParityOut(c, 2, 5);
    ParityIn(c, 2, 6, c[1] as int + c[2]);
  }

  /** Check 2 of a length-7 block. */
  lemma {:induction false} Check7At2(c: seq<Bit>)
    requires |c| == 7
    ensures Parity(c, 2, 7) == (c[1] as int + c[2] + c[5] + c[6]) % 2
  {
    Check7At2Upto6(c);
    ParityIn(c, 2, 7, c[1] as int + c[2] + c[5]);
  }

  lemma {:induction false} Check7At4Upto3(c: seq<Bit>)
    requires |c| == 7
    ensures Parity(c, 4, 3) == 0
  {
    ParityOut(c, 4, 1);
    ParityOut(c, 4, 2);
    ParityOut(c, 4, 3);
  }

  lemma {:induction false} Check7At4Upto6(c: seq<Bit>)
    requires |c| == 7
    ensures Parity(c, 4, 6) == (c[3] as int + c[4] + c[5]) % 2
  {
    Check7At4Upto3(c);
    ParityIn(c, 4, 4, 0);
    ParityIn(c, 4, 5, c[3] as int);
    ParityIn(c, 4, 6, c[3] as int + c[4]);
  }

  /** Check 4 of a length-7 block. */
  lemma {:induction false} Check7At4(c: seq<Bit>)
    requires |c| == 7
    ensures Parity(c, 4, 7) == (c[3] as int + c[4] + c[5] + c[6]) % 2
  {
    Check7At4Upto6(c);
    ParityIn(c, 4, 7, c[3] as int + c[4] + c[5]);
  }

  /** The checks of a length-15 block, written out: check `p` sums the positions whose index has bit `p` set. */
  lemma {:induction false} Checks15(c: seq<Bit>)
    requires |c| == 15
    ensures Parity(c, 1, 15) == (c[0] as int + c[2] + c[4] + c[6] + c[8] + c[10] + c[12] + c[14]) % 2
    ensures Parity(c, 2, 15) == (c[1] as int + c[2] + c[5] + c[6] + c[9] + c[10] + c[13] + c[14]) % 2
    ensures Parity(c, 4, 15) == (c[3] as int + c[4] + c[5] + c[6] + c[11] + c[12] + c[13] + c[14]) % 2
    ensures Parity(c, 8, 15) == (c[7] as int + c[8] + c[9] + c[10] + c[11] + c[12] + c[13] + c[14]) % 2
  {
    Check15At1(c);
    Check15At2(c);
    Check15At4(c);
    Check15At8(c);
  }

  lemma {:induction false} Check15At1Upto3(c: seq<Bit>)
    requires |c| == 15
    ensures Parity(c, 1, 3) == (c[0] as int + c[2]) % 2
  {
    ParityIn(c, 1, 1, 0);
    ParityOut(c, 1, 2);
    ParityIn(c, 1, 3, c[0] as int);
  }

  lemma {:induction false} Check15At1Upto6(c: seq<Bit>)
    requires |c| == 15
    ensures Parity(c, 1, 6) == (c[0] as int + c[2] + c[4]) % 2
  {
    Check15At1Upto3(c);
    ParityOut(c, 1, 4);
    ParityIn(c, 1, 5, c[0] as int + c[2]);
    ParityOut(c, 1, 6);
  }

  lemma {:induction false} Check15At1Upto9(c: seq<Bit>)
    requires |c| == 15
    ensures Parity(c, 1, 9) == (c[0] as int + c[2] + c[4] + c[6] + c[8]) % 2
  {
    Check15At1Upto6(c);
    ParityIn(c, 1, 7, c[0] as int + c[2] + c[4]);
    ParityOut(c, 1, 8);
    ParityIn(c, 1, 9, c[0] as int + c[2] + c[4] + c[6]);
  }

  lemma {:induction false} Check15At1Upto12(c: seq<Bit>)
    requires |c| == 15
    ensures Parity(c, 1, 12) == (c[0] as int + c[2] + c[4] + c[6] + c[8] + c[10]) % 2
  {
    Check15At1Upto9(c);
    ParityOut(c, 1, 10);
    ParityIn(c, 1, 11, c[0] as int + c[2] + c[4] + c[6] + c[8]);
    ParityOut(c, 1, 12);
  }

  /** Check 1 of a length-15 block. */
  lemma {:induction false} Check15At1(c: seq<Bit>)
    requires |c| == 15
    ensures Parity(c, 1, 15) == (c[0] as int + c[2] + c[4] + c[6] + c[8] + c[10] + c[12] + c[14]) % 2
  {
    Check15At1Upto12(c);
    ParityIn(c, 1, 13, c[0] as int + c[2] + c[4] + c[6] + c[8] + c[10]);
    ParityOut(c, 1, 14);
    ParityIn(c, 1, 15, c[0] as int + c[2] + c[4] + c[6] + c[8] + c[10] + c[12]);
  }

  lemma {:induction false} Check15At2Upto3(c: seq<Bit>)
    requires |c| == 15
    ensures Parity(c, 2, 3) == (c[1] as int + c[2]) % 2
  {
    ParityOut(c, 2, 1);
    ParityIn(c, 2, 2, 0);
    ParityIn(c, 2, 3, c[1] as int);
  }

  lemma {:induction false} Check15At2Upto6(c: seq<Bit>)
    requires |c| == 15
    ensures Parity(c, 2, 6) == (c[1] as int + c[2] + c[5]) % 2
  {
    Check15At2Upto3(c);
    ParityOut(c, 2, 4);
    ParityOut(c, 2, 5);
    ParityIn(c, 2, 6, c[1] as int + c[2]);
  }

  lemma {:induction false} Check15At2Upto9(c: seq<Bit>)
    requires |c| == 15
    ensures Parity(c, 2, 9) == (c[1] as int + c[2] + c[5] + c[6]) % 2
  {
    Check15At2Upto6(c);
    ParityIn(c, 2, 7, c[1] as int + c[2] + c[5]);
    ParityOut(c, 2, 8);
    ParityOut(c, 2, 9);
  }

  lemma {:induction false} Check15At2Upto12(c: seq<Bit>)
    requires |c| == 15
    ensures Parity(c, 2, 12) == (c[1] as int + c[2] + c[5] + c[6] + c[9] + c[10]) % 2
  {
    Check15At2Upto9(c);
    ParityIn(c, 2, 10, c[1] as int + c[2] + c[5] + c[6]);
    ParityIn(c, 2, 11, c[1] as int + c[2] + c[5] + c[6] + c[9]);
    ParityOut(c, 2, 12);
  }

  /** Check 2 of a length-15 block. */
  lemma {:induction false} Check15At2(c: seq<Bit>)
    requires |c| == 15
    ensures Parity(c, 2, 15) == (c[1] as int + c[2] + c[5] + c[6] + c[9] + c[10] + c[13] + c[14]) % 2
  {
    Check15At2Upto12(c);
    ParityOut(c, 2, 13);
    ParityIn(c, 2, 14, c[1] as int + c[2] + c[5] + c[6] + c[9] + c[10]);
    ParityIn(c, 2, 15, c[1] as int + c[2] + c[5] + c[6] + c[9] + c[10] + c[13]);
  }

  lemma {:induction false} Check15At4Upto3(c: seq<Bit>)
    requires |c| == 15
    ensures Parity(c, 4, 3) == 0
  {
    ParityOut(c, 4, 1);
    ParityOut(c, 4, 2);
    ParityOut(c, 4, 3);
  }

  lemma {:induction false} Check15At4Upto6(c: seq<Bit>)
    requires |c| == 15
    ensures Parity(c, 4, 6) == (c[3] as int + c[4] + c[5]) % 2
  {
    Check15At4Upto3(c);
    ParityIn(c, 4, 4, 0);
    ParityIn(c, 4, 5, c[3] as int);
    ParityIn(c, 4, 6, c[3] as int + c[4]);
  }

  lemma {:induction false} Check15At4Upto9(c: seq<Bit>)
    requires |c| == 15
    ensures Parity(c, 4, 9) == (c[3] as int + c[4] + c[5] + c[6]) % 2
  {
    Check15At4Upto6(c);
    ParityIn(c, 4, 7, c[3] as int + c[4] + c[5]);
    ParityOut(c, 4, 8);
    ParityOut(c, 4, 9);
  }

  lemma {:induction false} Check15At4Upto12(c: seq<Bit>)
    requires |c| == 15
    ensures Parity(c, 4, 12) == (c[3] as int + c[4] + c[5] + c[6] + c[11]) % 2
  {
    Check15At4Upto9(c);
    ParityOut(c, 4, 10);
    ParityOut(c, 4, 11);
    ParityIn(c, 4, 12, c[3] as int + c[4] + c[5] + c[6]);
  }

  /** Check 4 of a length-15 block. */
  lemma {:induction false} Check15At4(c: seq<Bit>)
    requires |c| == 15
    ensures Parity(c, 4, 15) == (c[3] as int + c[4] + c[5] + c[6] + c[11] + c[12] + c[13] + c[14]) % 2
  {
    Check15At4Upto12(c);
    ParityIn(c, 4, 13, c[3] as int + c[4] + c[5] + c[6] + c[11]);
    ParityIn(c, 4, 14, c[3] as int + c[4] + c[5] + c[6] + c[11] + c[12]);
    ParityIn(c, 4, 15, c[3] as int + c[4] + c[5] + c[6] + c[11] + c[12] + c[13]);
  }

  lemma {:induction false} Check15At8Upto3(c: seq<Bit>)
    requires |c| == 15
    ensures Parity(c, 8, 3) == 0
  {
    ParityOut(c, 8, 1);
    ParityOut(c, 8, 2);
    ParityOut(c, 8, 3);
  }

  lemma {:induction false} Check15At8Upto6(c: seq<Bit>)
    requires |c| == 15
    ensures Parity(c, 8, 6) == 0
  {
    Check15At8Upto3(c);
    ParityOut(c, 8, 4);
    ParityOut(c, 8, 5);
    ParityOut(c, 8, 6);
  }

  lemma {:induction false} Check15At8Upto9(c: seq<Bit>)
    requires |c| == 15
    ensures Parity(c, 8, 9) == (c[7] as int + c[8]) % 2
  {
    Check15At8Upto6(c);
    ParityOut(c, 8, 7);
    ParityIn(c, 8, 8, 0);
    ParityIn(c, 8, 9, c[7] as int);
  }

  lemma {:induction false} Check15At8Upto12(c: seq<Bit>)
    requires |c| == 15
    ensures Parity(c, 8, 12) == (c[7] as int + c[8] + c[9] + c[10] + c[11]) % 2
  {
    Check15At8Upto9(c);
    ParityIn(c, 8, 10, c[7] as int + c[8]);
    ParityIn(c, 8, 11, c[7] as int + c[8] + c[9]);
    ParityIn(c, 8, 12, c[7] as int + c[8] + c[9] + c[10]);
  }

  /** Check 8 of a length-15 block. */
  lemma {:induction false} Check15At8(c: seq<Bit>)
    requires |c| == 15
    ensures Parity(c, 8, 15) == (c[7] as int + c[8] + c[9] + c[10] + c[11] + c[12] + c[13] + c[14]) % 2
  {
    Check15At8Upto12(c);
    ParityIn(c, 8, 13, c[7] as int + c[8] + c[9] + c[10] + c[11]);
    ParityIn(c, 8, 14, c[7] as int + c[8] + c[9] + c[10] + c[11] + c[12]);
    ParityIn(c, 8, 15, c[7] as int + c[8] + c[9] + c[10] + c[11] + c[12] + c[13]);
  }

  /** Position `h` is covered by check `p`: its bit joins the sum. */
  lemma {:induction false} ParityIn(c: seq<Bit>, p: nat, h: nat, s: nat)
    requires 1 <= h <= |c| && BitAnd(h, p) != 0 && Parity(c, p, h - 1) == s % 2
    ensures Parity(c, p, h) == (s + c[h - 1]) % 2
  {
    XorSumMod(s, c[h - 1]);
  }

  /** Position `h` is not covered by check `p`: the sum is unchanged. */
  lemma {:induction false} ParityOut(c: seq<Bit>, p: nat, h: nat)
    requires 1 <= h <= |c| && BitAnd(h, p) == 0
    ensures Parity(c, p, h) == Parity(c, p, h - 1)
  {
  }

  /** The data positions of a length-7 block are 3, 5, 6, 7. */
  lemma {:induction false} Extract7(c: seq<Bit>)
    requires |c| == 7
    ensures Extract(c) == [c[2], c[4], c[5], c[6]]
  {
    DataPositions7();
    ExtractIndex(c, 3);
    ExtractIndex(c, 5);
    ExtractIndex(c, 6);
    ExtractIndex(c, 7);
    var e := Extract(c);
    assert |e| == 4 && e[0] == c[2] && e[1] == c[4] && e[2] == c[5] && e[3] == c[6];
  }

  /** Positions 3, 5, 6 and 7 carry data, and are the first to fourth data positions. */
  lemma {:induction false} DataPositions7()
    ensures !IsPowerOfTwo(3) && !IsPowerOfTwo(5) && !IsPowerOfTwo(6) && !IsPowerOfTwo(7)
    ensures DataSlots(2) == 0 && DataSlots(4) == 1 && DataSlots(5) == 2 && DataSlots(6) == 3 && DataSlots(7) == 4
  {
    Params7();
  }

  /** The data positions of a length-15 block are 3, 5, 6, 7 and 9 to 15. */
  lemma {:induction false} Extract15(c: seq<Bit>)
    requires |c| == 15
    ensures Extract(c) == [c[2], c[4], c[5], c[6], c[8], c[9], c[10], c[11], c[12], c[13], c[14]]
  {
    Extract7(c[..7]);
    assert c[..8][..7] == c[..7];
    ExtractPrefix(c, 8);
    NoPowerAfter8();
    ExtractBetweenPowers(c, 8);
  }

  /** Positions 9 to 15 all carry data. */
  lemma {:induction false} NoPowerAfter8()
    ensures forall q :: 8 < q <= 15 ==> !IsPowerOfTwo(q)
  {
    forall q | 8 < q <= 15
      ensures !IsPowerOfTwo(q)
    {
      NoPowerBetween(3, q);
    }
  }

  /** No number strictly between `2^i` and `2^(i+1)` is a power of two. */
  lemma {:induction false} NoPowerBetween(i: nat, q: int)
    requires Pow2(i) < q < Pow2(i + 1)
    ensures !IsPowerOfTwo(q)
  {
    IsPowerOfTwoIff(q);
    if IsPowerOfTwo(q) {
      var j: nat :| q == Pow2(j);
      if j <= i {
        if j < i {
          Pow2Monotone(j, i);
        }
      } else if j > i + 1 {
        Pow2Monotone(i + 1, j);
      }
    }
  }

  /** Past the last parity position every position carries data. */
  lemma {:induction false} ExtractBetweenPowers(c: seq<Bit>, h: nat)
    requires h <= |c|
    requires forall q :: h < q <= |c| ==> !IsPowerOfTwo(q)
    ensures Extract(c) == Extract(c[..h]) + c[h..]
  {
    var n := |c|;
    if h < n {
      ExtractBetweenPowers(c[..n - 1], h);
      ExtractLastData(c, h);
    } else {
      assert c[..h] == c;
    }
  }

  /** The step of the induction above: the last position is a data position. */
  lemma {:induction false} ExtractLastData(c: seq<Bit>, h: nat)
    requires h < |c| && !IsPowerOfTwo(|c|)
    requires Extract(c[..|c| - 1]) == Extract(c[..|c| - 1][..h]) + c[..|c| - 1][h..]
    ensures Extract(c) == Extract(c[..h]) + c[h..]
  {
    var n := |c|;
    var a := c[..n - 1];
    ExtractDataStep(c);
    assert a[..h] == c[..h];
    assert c[h..] == a[h..] + [c[n - 1]];
    ConcatAssoc(Extract(c[..h]), a[h..], [c[n - 1]]);
  }

  /** Extraction keeps the last position when it is not a power of two. */
  lemma {:induction false} ExtractDataStep(c: seq<Bit>)
    requires |c| > 0 && !IsPowerOfTwo(|c|)
    ensures Extract(c) == Extract(c[..|c| - 1]) + [c[|c| - 1]]
  {
  }

  /** A length-7 block is a codeword exactly when its three checks are even. */
  lemma {:induction false} IsCodeword7(c: seq<Bit>)
    requires |c| == 7
    ensures IsCodeword(c) <==>
      (c[0] as int + c[2] + c[4] + c[6]) % 2 == 0 &&
      (c[1] as int + c[2] + c[5] + c[6]) % 2 == 0 &&
      (c[3] as int + c[4] + c[5] + c[6]) % 2 == 0
  {
    Params7();
    Checks7(c);
    assert Pow2(0) == 1 && Pow2(1) == 2 && Pow2(2) == 4;
  }

  /** A length-15 block is a codeword exactly when its four checks are even. */
  lemma {:induction false} IsCodeword15(c: seq<Bit>)
    requires |c| == 15
    ensures IsCodeword(c) <==>
      (c[0] as int + c[2] + c[4] + c[6] + c[8] + c[10] + c[12] + c[14]) % 2 == 0 &&
      (c[1] as int + c[2] + c[5] + c[6] + c[9] + c[10] + c[13] + c[14]) % 2 == 0 &&
      (c[3] as int + c[4] + c[5] + c[6] + c[11] + c[12] + c[13] + c[14]) % 2 == 0 &&
      (c[7] as int + c[8] + c[9] + c[10] + c[11] + c[12] + c[13] + c[14]) % 2 == 0
  {
    Params15();
    Checks15(c);
    assert Pow2(0) == 1 && Pow2(1) == 2 && Pow2(2) == 4 && Pow2(3) == 8;
  }
}

=== FILE: hamming_theory.dfy ===
/** What the generic Hamming code guarantees when `n = 2^m - 1`: every parity
    check over an encoded codeword is even, so the syndrome of a clean codeword
    is 0; one flipped bit makes the syndrome its position, which the decoder
    flips back; and decoding undoes encoding up to the zero padding of the last
    block. A codeword is also determined by its data bits, which is what lets
    the fixed-size codecs elsewhere be compared with this one. */
module HammingTheory {
  import opened Bits
  import opened Binary
  import opened Hamming

  /** Every one of the `m` parity checks over `c` is even. */
  predicate ChecksPass(c: seq<Bit>) {
    forall i :: 0 <= i < ParityBits(|c|) ==> Parity(c, Pow2(i), |c|) == 0
  }

  predicate IsCodeword(c: seq<Bit>) {
    ValidLength(|c|) && ChecksPass(c)
  }

  /** `s` is a whole number of codewords of length `n`. */
  predicate Codewords(s: seq<Bit>, n: nat)
    decreases |s|
  {
    n >= 1 && (|s| == 0 || (|s| >= n && |s[..n]| == n && IsCodeword(s[..n]) && Codewords(s[n..], n)))
  }

  /** An error pattern flipping at most one bit in each block of `n`. */
  predicate AtMostOneErrorPerBlock(e: seq<Bit>, n: nat)
    requires n >= 1
    decreases |e|
  {
    |e| < n || (Ones(e[..n]) <= 1 && AtMostOneErrorPerBlock(e[n..], n))
  }

  // ---------------------------------------------------------------- parity

  /** Changing one bit changes exactly the checks whose mask covers its position. */
  lemma {:induction false} ParityUpdate(c: seq<Bit>, p: nat, h: nat, q: nat, v: Bit)
    requires h <= |c| && 1 <= q <= |c|
    ensures Parity(c[q - 1 := v], p, h) ==
      if q <= h && BitAnd(q, p) != 0 then Xor(Parity(c, p, h), Xor(c[q - 1], v)) else Parity(c, p, h)
  {
    if h > 0 {
      ParityUpdate(c, p, h - 1, q, v);
    }
  }

  /** Each check is linear: the check of a bitwise sum is the sum of the checks. */
  lemma {:induction false} ParityXor(a: seq<Bit>, b: seq<Bit>, p: nat, h: nat)
    requires |a| == |b| && h <= |a|
    ensures Parity(XorSeq(a, b), p, h) == Xor(Parity(a, p, h), Parity(b, p, h))
  {
    if h > 0 {
      ParityXor(a, b, p, h - 1);
    }
  }

  /** A check `2^i` over a sequence that is zero at every other position of its mask reads the bit at `2^i`. */
  lemma {:induction false} ParityOnlyAt(d: seq<Bit>, i: nat, h: nat)
    requires h <= |d|
    requires forall q :: 1 <= q <= h && q != Pow2(i) && TestBit(q, i) ==> d[q - 1] == 0
    ensures Parity(d, Pow2(i), h) == if Pow2(i) <= h then d[Pow2(i) - 1] else 0
  {
    if h > 0 {
      ParityOnlyAt(d, i, h - 1);
      BitAndPow2(h, i);
      TestBitPow2(i, i);
    }
  }

  // ------------------------------------------------------- data positions

  lemma {:induction false} DataSlotsMonotone(a: nat, b: nat)
    requires a <= b
    ensures DataSlots(a) <= DataSlots(b)
    decreases b
  {
    if a < b {
      DataSlotsMonotone(a, b - 1);
    }
  }

  /** The layout puts 0 at every parity position. */
  lemma {:induction false} LayoutPowersZero(block: seq<Bit>, h: nat, q: nat)
    requires DataSlots(h) <= |block| && 1 <= q <= h && IsPowerOfTwo(q)
    ensures Layout(block, h)[q - 1] == 0
  {
    if q < h {
      LayoutPowersZero(block, h - 1, q);
    }
  }

  /** Reading the data positions of the layout gives the block's bits back, in order. */
  lemma {:induction false} ExtractLayout(block: seq<Bit>, h: nat)
    requires DataSlots(h) <= |block|
    ensures Extract(Layout(block, h)) == block[..DataSlots(h)]
  {
    if h > 0 {
      var c := Layout(block, h);
      assert c[..h - 1] == Layout(block, h - 1);
      ExtractLayout(block, h - 1);
    }
  }

  /** The data bit of a position that is not a power of two sits in the extracted data at the count of data positions before it. */
  lemma {:induction false} ExtractIndex(c: seq<Bit>, q: nat)
    requires 1 <= q <= |c| && !IsPowerOfTwo(q)
    ensures DataSlots(q - 1) < |Extract(c)| && Extract(c)[DataSlots(q - 1)] == c[q - 1]
  {
    var n := |c|;
    if q < n {
      ExtractIndex(c[..n - 1], q);
      DataSlotsMonotone(q, n - 1);
    }
  }

  /** Writing a parity position leaves the extracted data alone. */
  lemma {:induction false} ExtractUpdatePower(c: seq<Bit>, q: nat, v: Bit)
    requires 1 <= q <= |c| && IsPowerOfTwo(q)
    ensures Extract(c[q - 1 := v]) == Extract(c)
  {
    var n := |c|;
    if q < n {
      assert c[q - 1 := v][..n - 1] == c[..n - 1][q - 1 := v];
      ExtractUpdatePower(c[..n - 1], q, v);
    } else {
      assert c[q - 1 := v][..n - 1] == c[..n - 1];
    }
  }

  /** Extraction is linear too. */
  lemma {:induction false} ExtractXor(a: seq<Bit>, b: seq<Bit>)
    requires |a| == |b|
    ensures Extract(XorSeq(a, b)) == XorSeq(Extract(a), Extract(b))
  {
    var n := |a|;
    if n > 0 {
      assert XorSeq(a, b)[..n - 1] == XorSeq(a[..n - 1], b[..n - 1]);
      ExtractXor(a[..n - 1], b[..n - 1]);
    }
  }

  lemma {:induction false} ExtractPrefix(c: seq<Bit>, h: nat)
    requires 1 <= h <= |c|
    ensures Extract(c[..h]) == Extract(c[..h - 1]) + (if IsPowerOfTwo(h) then [] else [c[h - 1]])
  {
    assert c[..h][..h - 1] == c[..h - 1];
  }

  // --------------------------------------------------------- parity pass

  /** The parity pass writes only parity positions. */
  lemma {:induction false} SetParityKeepsData(c: seq<Bit>, i: nat, m: nat)
    requires Pow2(m) <= |c| + 1
    ensures Extract(SetParity(c, i, m)) == Extract(c)
    decreases m - i
  {
    if i < m {
      var p := Pow2(i);
      Pow2Monotone(i, m);
      PowerOfTwoIsPow2(i);
      ExtractUpdatePower(c, p, Parity(c, p, |c|));
      SetParityKeepsData(c[p - 1 := Parity(c, p, |c|)], i + 1, m);
    }
  }

  /** Each step of the parity pass makes its own check even and leaves the
      earlier checks even, because position `2^i` lies in no other check's mask. */
  lemma {:induction false} SetParityChecks(c: seq<Bit>, i: nat, m: nat)
    requires Pow2(m) <= |c| + 1
    requires forall j :: 0 <= j < i && j < m ==> Parity(c, Pow2(j), |c|) == 0
    requires forall j :: i <= j < m ==> Pow2(j) <= |c| && c[Pow2(j) - 1] == 0
    ensures forall j :: 0 <= j < m ==> Parity(SetParity(c, i, m), Pow2(j), |c|) == 0
    decreases m - i
  {
    if i < m {
      var p := Pow2(i);
      Pow2Monotone(i, m);
      var v := Parity(c, p, |c|);
      var c' := c[p - 1 := v];
      ParityUpdate(c, p, |c|, p, v);
      BitAndPow2(p, i);
      TestBitPow2(i, i);
      assert Parity(c', p, |c|) == 0;
      forall j | 0 <= j < i
        ensures Parity(c', Pow2(j), |c|) == 0
      {
        ParityUpdate(c, Pow2(j), |c|, p, v);
        BitAndPow2(p, j);
        TestBitPow2(i, j);
      }
      forall j | i + 1 <= j < m
        ensures Pow2(j) <= |c| && c'[Pow2(j) - 1] == 0
      {
        Pow2Monotone(i, j);
      }
      SetParityChecks(c', i + 1, m);
    }
  }

  /** An encoded block is a codeword whose data positions hold the block's
      first `n - m` bits in ascending order. */
  lemma {:induction false} EncodeBlockSpec(block: seq<Bit>, n: nat)
    requires ValidLength(n) && DataSlots(n) <= |block|
    ensures IsCodeword(EncodeBlock(block, n))
    ensures Extract(EncodeBlock(block, n)) == block[..DataSlots(n)]
  {
    var m := ParityBits(n);
    var c := Layout(block, n);
    ExtractLayout(block, n);
    SetParityKeepsData(c, 0, m);
    LayoutParityZero(block, n, m);
    SetParityChecks(c, 0, m);
  }

  /** Every parity position below `2^m` of the layout holds 0. */
  lemma {:induction false} LayoutParityZero(block: seq<Bit>, h: nat, m: nat)
    requires DataSlots(h) <= |block| && Pow2(m) <= h + 1
    ensures forall j :: 0 <= j < m ==> Pow2(j) <= h && Layout(block, h)[Pow2(j) - 1] == 0
    decreases m
  {
    if m > 0 {
      Pow2Monotone(m - 1, m);
      LayoutParityZero(block, h, m - 1);
      LayoutPow2Zero(block, h, m - 1);
    }
  }

  lemma {:induction false} LayoutPow2Zero(block: seq<Bit>, h: nat, j: nat)
    requires DataSlots(h) <= |block| && Pow2(j) <= h
    ensures Layout(block, h)[Pow2(j) - 1] == 0
  {
    var q := Pow2(j);
    PowerOfTwoIsPow2(j);
    LayoutPowersZero(block, h, q);
  }

  /** A codeword is determined by its data bits: two codewords of one length
      with the same data are equal. */
  lemma {:induction false} CodewordUnique(a: seq<Bit>, b: seq<Bit>)
    requires IsCodeword(a) && IsCodeword(b) && |a| == |b| && Extract(a) == Extract(b)
    ensures a == b
  {
    DataPositionsAgree(a, b);
    forall j | 0 <= j < |a|
      ensures a[j] == b[j]
    {
      CodewordsAgreeAt(a, b, j);
    }
  }

  lemma {:induction false} CodewordsAgreeAt(a: seq<Bit>, b: seq<Bit>, j: nat)
    requires IsCodeword(a) && IsCodeword(b) && |a| == |b| && j < |a|
    requires forall r :: 1 <= r <= |a| && !IsPowerOfTwo(r) ==> a[r - 1] == b[r - 1]
    ensures a[j] == b[j]
  {
    if IsPowerOfTwo(j + 1) {
      ZeroAtParityPosition(a, b, j + 1);
      assert XorSeq(a, b)[j] == Xor(a[j], b[j]);
    } else {
      assert a[(j + 1) - 1] == b[(j + 1) - 1];
    }
  }

  /** Sequences with the same extracted data agree at every data position. */
  lemma {:induction false} DataPositionsAgree(a: seq<Bit>, b: seq<Bit>)
    requires |a| == |b| && Extract(a) == Extract(b)
    ensures forall r :: 1 <= r <= |a| && !IsPowerOfTwo(r) ==> a[r - 1] == b[r - 1]
  {
    forall r | 1 <= r <= |a| && !IsPowerOfTwo(r)
      ensures a[r - 1] == b[r - 1]
    {
      ExtractIndex(a, r);
      ExtractIndex(b, r);
    }
  }

  /** Two codewords that agree at every data position agree at parity position `q` too. */
  lemma {:induction false} ZeroAtParityPosition(a: seq<Bit>, b: seq<Bit>, q: nat)
    requires IsCodeword(a) && IsCodeword(b) && |a| == |b|
    requires forall r :: 1 <= r <= |a| && !IsPowerOfTwo(r) ==> a[r - 1] == b[r - 1]
    requires 1 <= q <= |a| && IsPowerOfTwo(q)
    ensures XorSeq(a, b)[q - 1] == 0
  {
    var n := |a|;
    var m := ParityBits(n);
    assert ValidLength(n);
    var d := XorSeq(a, b);
    IsPowerOfTwoIff(q);
    var i: nat :| q == Pow2(i);
    if m < i {
      Pow2Monotone(m, i);
    }
    assert i < m;
    forall r | 1 <= r <= n && r != Pow2(i) && TestBit(r, i)
      ensures d[r - 1] == 0
    {
      if IsPowerOfTwo(r) {
        PowerWithBit(r, i);
      }
    }
    ParityOnlyAt(d, i, n);
    ParityXor(a, b, Pow2(i), n);
  }

  // ------------------------------------------------------------- syndrome

  lemma {:induction false} SyndromeBelow(c: seq<Bit>, j: nat)
    ensures Syndrome(c, j) < Pow2(j)
  {
    if j > 0 {
      SyndromeBelow(c, j - 1);
      if Parity(c, Pow2(j - 1), |c|) != 0 {
        BitOrFresh(Syndrome(c, j - 1), j - 1);
      }
    }
  }

  /** The syndrome reads the failed checks as the bits of a number. */
  lemma {:induction false} SyndromeReadsChecks(c: seq<Bit>, q: nat, j: nat)
    requires forall i :: 0 <= i < j ==> (Parity(c, Pow2(i), |c|) == 1 <==> TestBit(q, i))
    ensures Syndrome(c, j) == LowBits(q, j)
  {
    if j > 0 {
      SyndromeReadsChecks(c, q, j - 1);
      SyndromeBelow(c, j - 1);
      if Parity(c, Pow2(j - 1), |c|) != 0 {
        BitOrFresh(Syndrome(c, j - 1), j - 1);
      }
    }
  }

  /** With `n = 2^m - 1` the syndrome never exceeds `n`, so the source's guard `syndrome <= n` always holds. */
  lemma {:induction false} SyndromeAtMostLength(c: seq<Bit>)
    requires ValidLength(|c|)
    ensures Syndrome(c, ParityBits(|c|)) <= |c|
  {
    SyndromeBelow(c, ParityBits(|c|));
  }

  /** A clean codeword has syndrome 0, so decoding flips nothing. */
  lemma {:induction false} CodewordSyndromeZero(c: seq<Bit>)
    requires IsCodeword(c)
    ensures Syndrome(c, ParityBits(|c|)) == 0
    ensures Correct(c) == c
  {
    var m := ParityBits(|c|);
    forall i | 0 <= i < m
      ensures Parity(c, Pow2(i), |c|) == 1 <==> TestBit(0, i)
    {
      TestBitZero(i);
    }
    SyndromeReadsChecks(c, 0, m);
    LowBitsAll(0, m);
  }

  /** Single-error location and correction: flipping position `q` of a
      codeword makes the syndrome `q`, and correction restores the codeword. */
  lemma {:induction false} SingleErrorSyndrome(c: seq<Bit>, q: nat)
    requires IsCodeword(c) && 1 <= q <= |c|
    ensures Syndrome(FlipAt(c, q - 1), ParityBits(|c|)) == q
    ensures Correct(FlipAt(c, q - 1)) == c
  {
    var n := |c|;
    var m := ParityBits(n);
    var f := FlipAt(c, q - 1);
    forall i | 0 <= i < m
      ensures Parity(f, Pow2(i), n) == 1 <==> TestBit(q, i)
    {
      ParityUpdate(c, Pow2(i), n, q, Not(c[q - 1]));
      BitAndPow2(q, i);
    }
    SyndromeReadsChecks(f, q, m);
    LowBitsAll(q, m);
    assert FlipAt(f, q - 1) == c;
  }

  /** Decoding a codeword, clean or with one flipped bit, yields its data bits. */
  lemma {:induction false} DecodeBlockCorrects(c: seq<Bit>, q: nat)
    requires IsCodeword(c) && 1 <= q <= |c|
    ensures DecodeBlock(c) == Extract(c)
    ensures DecodeBlock(FlipAt(c, q - 1)) == Extract(c)
  {
    CodewordSyndromeZero(c);
    SingleErrorSyndrome(c, q);
  }

  /** A block with at most one error decodes like the clean codeword. */
  lemma {:induction false} DecodeBlockOneError(c: seq<Bit>, e: seq<Bit>)
    requires IsCodeword(c) && |e| == |c| && Ones(e) <= 1
    ensures DecodeBlock(XorSeq(c, e)) == Extract(c)
  {
    if Ones(e) == 0 {
      DecodeBlockNoError(c, e);
    } else {
      DecodeBlockSingleError(c, e);
    }
  }

  lemma {:induction false} DecodeBlockNoError(c: seq<Bit>, e: seq<Bit>)
    requires IsCodeword(c) && |e| == |c| && Ones(e) == 0
    ensures DecodeBlock(XorSeq(c, e)) == Extract(c)
  {
    OnesZero(e);
    XorSeqZeros(c);
    CodewordSyndromeZero(c);
  }

  lemma {:induction false} DecodeBlockSingleError(c: seq<Bit>, e: seq<Bit>)
    requires IsCodeword(c) && |e| == |c| && Ones(e) == 1
    ensures DecodeBlock(XorSeq(c, e)) == Extract(c)
  {
    var i := SingleErrorIsFlip(c, e);
    DecodeBlockFlip(c, i);
  }

  lemma {:induction false} DecodeBlockFlip(c: seq<Bit>, i: nat)
    requires IsCodeword(c) && i < |c|
    ensures DecodeBlock(FlipAt(c, i)) == Extract(c)
  {
    SingleErrorSyndrome(c, i + 1);
  }

  /** Adding a pattern with a single 1 flips one bit. */
  lemma {:induction false} SingleErrorIsFlip(c: seq<Bit>, e: seq<Bit>) returns (i: nat)
    requires |e| == |c| && Ones(e) == 1
    ensures i < |c| && XorSeq(c, e) == FlipAt(c, i)
  {
    i := OnesOne(e);
    XorSeqUnit(c, i);
  }

  // --------------------------------------------------------------- streams

  /** The encoder's output is a sequence of whole codewords. */
  lemma {:induction false} EncodeBlocksCodewords(data: seq<Bit>, n: nat, k: nat)
    requires ValidLength(n) && n >= 1 && k >= 1 && DataSlots(n) <= k
    ensures Codewords(EncodeBlocks(data, n, k), n)
    decreases |data|
  {
    if |data| > 0 {
      var t := Min(k, |data|);
      var cw := EncodeBlock(PadTo(data[..t], k), n);
      var rest := EncodeBlocks(data[t..], n, k);
      EncodeBlockSpec(PadTo(data[..t], k), n);
      EncodeBlocksCodewords(data[t..], n, k);
      assert (cw + rest)[..n] == cw && (cw + rest)[n..] == rest;
    }
  }

  /** `len` is a whole number of blocks of `n`, counted off one block at a time. */
  predicate WholeBlocks(len: int, n: nat)
    requires n >= 1
    decreases len
  {
    len == 0 || (len >= n && WholeBlocks(len - n, n))
  }

  /** Counting off blocks agrees with the remainder test `len % n == 0`. */
  lemma {:induction false} WholeBlocksMod(len: nat, n: nat)
    requires n >= 1
    ensures WholeBlocks(len, n) <==> len % n == 0
    decreases len
  {
    if len < n {
      DivModUnique(len, n, 0, len);
    } else {
      WholeBlocksMod(len - n, n);
      DivAddOne(len - n, n);
    }
  }

  /** The decoder works block by block: a prefix made of whole blocks
      decodes on its own, whatever follows it. */
  lemma {:induction false} DecodeAppend(s: seq<Bit>, t: seq<Bit>, n: nat)
    requires n >= 1 && |s| % n == 0
    ensures Decode(s + t, n) == Decode(s, n) + Decode(t, n)
  {
    WholeBlocksMod(|s|, n);
    DecodeAppendBlocks(s, t, n);
  }

  lemma {:induction false} DecodeAppendBlocks(s: seq<Bit>, t: seq<Bit>, n: nat)
    requires n >= 1 && WholeBlocks(|s|, n)
    ensures Decode(s + t, n) == Decode(s, n) + Decode(t, n)
    decreases |s|
  {
    if |s| == 0 {
      assert s + t == t;
    } else {
      DecodeAppendBlocks(s[n..], t, n);
      DecodeAppendFirst(s, t, n);
    }
  }

  /** The step of the induction: what holds after the first block holds for the whole. */
  lemma {:induction false} DecodeAppendFirst(s: seq<Bit>, t: seq<Bit>, n: nat)
    requires n >= 1 && |s| >= n
    requires Decode(s[n..] + t, n) == Decode(s[n..], n) + Decode(t, n)
    ensures Decode(s + t, n) == Decode(s, n) + Decode(t, n)
  {
    DecodeAppendStep(s, t, n);
    DecodeStep(s, n);
    ConcatAssoc(DecodeBlock(s[..n]), Decode(s[n..], n), Decode(t, n));
  }


  lemma {:induction false} DecodeAppendStep(s: seq<Bit>, t: seq<Bit>, n: nat)
    requires n >= 1 && |s| >= n
    ensures Decode(s + t, n) == DecodeBlock(s[..n]) + Decode(s[n..] + t, n)
  {
    var u := s + t;
    DecodeStep(u, n);
    assert u[..n] == s[..n];
    assert u[n..] == s[n..] + t;
  }

  /** The decoder's first step: the first `n` bits decode as one block. */
  lemma {:induction false} DecodeStep(s: seq<Bit>, n: nat)
    requires n >= 1 && |s| >= n
    ensures Decode(s, n) == DecodeBlock(s[..n]) + Decode(s[n..], n)
  {
  }

  /** One flipped bit in each codeword of the stream, at most, is undone by the decoder. */
  lemma {:induction false} CorrectsOneErrorPerBlock(s: seq<Bit>, e: seq<Bit>, n: nat)
    requires Codewords(s, n) && |e| == |s| && AtMostOneErrorPerBlock(e, n)
    ensures Decode(XorSeq(s, e), n) == Decode(s, n)
    decreases |s|
  {
    if |s| > 0 {
      var r := XorSeq(s, e);
      assert r[..n] == XorSeq(s[..n], e[..n]);
      assert r[n..] == XorSeq(s[n..], e[n..]);
      DecodeBlockOneError(s[..n], e[..n]);
      CodewordSyndromeZero(s[..n]);
      CorrectsOneErrorPerBlock(s[n..], e[n..], n);
    }
  }

  /** Noiseless round trip over the block loop: every block comes back padded. */
  lemma {:induction false} RoundTripBlocks(data: seq<Bit>, n: nat, k: nat)
    requires ValidLength(n) && n >= 1 && k >= 1 && k == DataSlots(n)
    ensures Decode(EncodeBlocks(data, n, k), n) == PadBlocks(data, k)
    decreases |data|
  {
    if |data| > 0 {
      var t := Min(k, |data|);
      RoundTripBlocks(data[t..], n, k);
      DecodeFirstBlock(PadTo(data[..t], k), EncodeBlocks(data[t..], n, k), n);
    }
  }

  /** The first block of a stream decodes to its data bits. */
  lemma {:induction false} DecodeFirstBlock(b: seq<Bit>, rest: seq<Bit>, n: nat)
    requires ValidLength(n) && n >= 1 && |b| == DataSlots(n)
    ensures Decode(EncodeBlock(b, n) + rest, n) == b + Decode(rest, n)
  {
    var cw := EncodeBlock(b, n);
    EncodeBlockSpec(b, n);
    CodewordSyndromeZero(cw);
    assert DecodeBlock(cw) == b;
    var s := cw + rest;
    assert s[..n] == cw && s[n..] == rest;
    assert Decode(s, n) == DecodeBlock(s[..n]) + Decode(s[n..], n);
  }

  /** The generic code's noiseless round trip: for `n = 2^m - 1 >= 3` and
      `k = n - m`, decoding the encoding returns the data followed by the
      zeros that pad the last block to `k` bits. */
  lemma {:induction false} RoundTrip(data: seq<Bit>, n: nat, k: nat)
    requires ValidLength(n) && k == n - ParityBits(n) && k >= 1
    ensures Decode(Encode(data, n, k), n) == PadTo(data, PaddedLength(|data|, k))
  {
    DataSlotsCount(n);
    RoundTripWithDataSlots(data, n, k);
    PadBlocksIsPadTo(data, k);
  }

  lemma {:induction false} RoundTripWithDataSlots(data: seq<Bit>, n: nat, k: nat)
    requires ValidLength(n) && k >= 1 && k == DataSlots(n) && k == n - ParityBits(n)
    ensures Decode(Encode(data, n, k), n) == PadBlocks(data, k)
  {
    assert Encode(data, n, k) == EncodeBlocks(data, n, k);
    RoundTripBlocks(data, n, k);
  }

  /** The encoder's output, with at most one bit flipped in each codeword, decodes as if clean. */
  lemma {:induction false} EncodeCorrectsOneErrorPerBlock(data: seq<Bit>, n: nat, k: nat, e: seq<Bit>)
    requires n >= 1 && ValidLength(n) && k >= 1 && k >= n - ParityBits(n)
    requires |e| == |Encode(data, n, k)| && AtMostOneErrorPerBlock(e, n)
    ensures Decode(XorSeq(Encode(data, n, k), e), n) == Decode(Encode(data, n, k), n)
  {
    EncodeCodewords(data, n, k);
    CorrectsOneErrorPerBlock(Encode(data, n, k), e, n);
  }

  /** For a valid length the encoder's output is a run of codewords. */
  lemma {:induction false} EncodeCodewords(data: seq<Bit>, n: nat, k: nat)
    requires n >= 1 && ValidLength(n) && k >= 1 && k >= n - ParityBits(n)
    ensures Codewords(Encode(data, n, k), n)
  {
    DataSlotsCount(n);
    assert Encode(data, n, k) == EncodeBlocks(data, n, k);
    EncodeBlocksCodewords(data, n, k);
  }


}

=== FILE: protocols.dfy ===
/** The protocol records of the codec library: an identifier, a label, a
    code rate and an encode/decode pair, built by small factories and
    collected in the fixed table the application offers. Rates are exact
    rationals here, where the source holds the nearest double. */
module Protocols {
  import opened Bits
  import opened Hamming
  import HammingTheory
  import HammingSmall
  import Repetition

  datatype Option<T> = None | Some(value: T)

  datatype Protocol = Protocol(
    id: string,
    caption: string,  // the source's `label`
    rate: real,
    encode: seq<Bit> -> seq<Bit>,
    decode: seq<Bit> -> seq<Bit>)

  /** The two families the generic factory can build. */
  datatype CodeFamily = RepetitionFamily | HammingFamily

  /** The decimal digits of `n`, as a template string prints a whole number. */
  function Decimal(n: nat): (s: string)
    ensures |s| >= 1 && forall i :: 0 <= i < |s| ==> '0' <= s[i] <= '9'
  {
    if n < 10 then [Digit(n)] else Decimal(n / 10) + [Digit(n % 10)]
  }

  function Digit(d: nat): (c: char)
    requires d < 10
    ensures '0' <= c <= '9'
  {
    ('0' as int + d) as char
  }

  /** Reading decimal digits back as a number. */
  function DecimalValue(s: string): nat
    requires forall i :: 0 <= i < |s| ==> '0' <= s[i] <= '9'
  {
    if |s| == 0 then 0 else 10 * DecimalValue(s[..|s| - 1]) + (s[|s| - 1] as int - '0' as int)
  }

  /** Printing a number and reading it back gives the number: distinct `n`
      give distinct identifiers. */
  lemma {:induction false} DecimalRoundTrip(n: nat)
    ensures DecimalValue(Decimal(n)) == n
  {
    if n >= 10 {
      DecimalRoundTrip(n / 10);
      var s := Decimal(n);
      assert s[..|s| - 1] == Decimal(n / 10) && s[|s| - 1] == Digit(n % 10);
      DecimalStep(s, n / 10, n % 10);
    }
  }

  /** The last digit adds its value to ten times the value of the digits before it. */
  lemma {:induction false} DecimalStep(s: string, q: nat, d: nat)
    requires d < 10 && |s| >= 1 && forall i :: 0 <= i < |s| ==> '0' <= s[i] <= '9'
    requires DecimalValue(s[..|s| - 1]) == q && s[|s| - 1] == Digit(d)
    ensures DecimalValue(s) == 10 * q + d
  {
  }

  /** The Hamming factory's block size: the given `k` when it is truthy (a
      present, non-zero number), otherwise `n - m`. */
  function BlockSize(n: nat, k: Option<int>): int {
    if k.Some? && k.value != 0 then k.value else n - ParityBits(n)
  }

  /** What the Hamming encoder needs of `n` and `k` to terminate and to fill
      every data position from the block. */
  predicate HammingParams(n: nat, k: int) {
    n >= 1 && (ValidLength(n) ==> k >= 1 && k >= n - ParityBits(n))
  }

  /** `createGenericProtocol`: repetition with rate `1/n`, or Hamming with
      block size `BlockSize(n, k)` and rate `kVal/n`. */
  function CreateGenericProtocol(family: CodeFamily, n: nat, k: Option<int>): (p: Protocol)
    requires n >= 1
    requires family == HammingFamily ==> HammingParams(n, BlockSize(n, k))
    ensures family == RepetitionFamily ==>
      p.id == "generic-rep-" + Decimal(n) && p.rate == 1.0 / n as real
    ensures family == HammingFamily ==>
      p.id == "generic-ham-" + Decimal(n) + "-" + DecimalInt(BlockSize(n, k))
      && p.rate == BlockSize(n, k) as real / n as real
  {
    match family
    case RepetitionFamily =>
      Protocol(
        "generic-rep-" + Decimal(n),
        "Generic Rep (1/" + Decimal(n) + ")",
        1.0 / n as real,
        bits => Repetition.Encode(bits, n),
        bits => Repetition.Decode(bits, n))
    case HammingFamily =>
      var kVal := BlockSize(n, k);
      Protocol(
        "generic-ham-" + Decimal(n) + "-" + DecimalInt(kVal),
        "Generic Ham (" + Decimal(n) + "," + DecimalInt(kVal) + ")",
        kVal as real / n as real,
        bits => Hamming.Encode(bits, n, kVal),
        bits => Hamming.Decode(bits, n))
  }

  /** A signed number as a template string prints it. */
  function DecimalInt(x: int): string {
    if x < 0 then "-" + Decimal(-x) else Decimal(x)
  }

  /** `genericHammingProtocol(n, k)`, with the caller's `k` used as given. */
  function HammingProtocol(n: nat, k: int): (p: Protocol)
    requires HammingParams(n, k)
    ensures p.rate == k as real / n as real
    ensures ValidLength(n) ==> 0.0 < p.rate
  {
    Protocol(
      "hamming-" + Decimal(n) + "-" + DecimalInt(k),
      "Hamming (" + Decimal(n) + "," + DecimalInt(k) + ")",
      k as real / n as real,
      bits => Hamming.Encode(bits, n, k),
      bits => Hamming.Decode(bits, n))
  }

  /** `repetitionProtocol(n)`. */
  function RepetitionProtocol(n: nat): (p: Protocol)
    requires n >= 1
    ensures p.rate == 1.0 / n as real
    ensures 0.0 < p.rate <= 1.0
  {
    Protocol(
      "rep-1/" + Decimal(n),
      "Repetition 1/" + Decimal(n),
      1.0 / n as real,
      bits => Repetition.Encode(bits, n),
      bits => Repetition.Decode(bits, n))
  }

  /** `uncodedProtocol`: rate 1, both directions the identity. */
  function UncodedProtocol(): (p: Protocol)
    ensures p.rate == 1.0
  {
    Protocol("none", "Uncoded (Raw)", 1.0, bits => bits, bits => bits)
  }

  /** `PROTOCOLS`: uncoded, repetition 1/3 and 1/5, Hamming (7,4) and (15,11), in that order. */
  function ProtocolTable(): (t: seq<Protocol>)
    ensures |t| == 5
  {
    HammingSmall.Params7();
    HammingSmall.Params15();
    [UncodedProtocol(), RepetitionProtocol(3), RepetitionProtocol(5), HammingProtocol(7, 4), HammingProtocol(15, 11)]
  }

  /** The table's five entries, in order. */
  lemma {:induction false} TableEntries()
    ensures HammingParams(7, 4) && HammingParams(15, 11)
    ensures ProtocolTable()
         == [UncodedProtocol(), RepetitionProtocol(3), RepetitionProtocol(5), HammingProtocol(7, 4), HammingProtocol(15, 11)]
  {
    HammingSmall.Params7();
    HammingSmall.Params15();
  }

  /** The rates of the table: data bits per transmitted bit. */
  lemma {:induction false} TableRates()
    ensures ProtocolTable()[0].rate == 1.0
    ensures ProtocolTable()[1].rate == 1.0 / 3.0 && ProtocolTable()[2].rate == 1.0 / 5.0
    ensures ProtocolTable()[3].rate == 4.0 / 7.0 && ProtocolTable()[4].rate == 11.0 / 15.0
  {
    TableEntries();
  }

  /** The identifiers of the table, in order, all distinct. */
  lemma {:induction false} TableIds()
    ensures ProtocolTable()[0].id == "none"
    ensures ProtocolTable()[1].id == "rep-1/3" && ProtocolTable()[2].id == "rep-1/5"
    ensures ProtocolTable()[3].id == "hamming-7-4" && ProtocolTable()[4].id == "hamming-15-11"
  {
    TableEntries();
    RepetitionIds();
    HammingIds();
  }

  lemma {:induction false} RepetitionIds()
    ensures RepetitionProtocol(3).id == "rep-1/3" && RepetitionProtocol(5).id == "rep-1/5"
  {
    assert Decimal(3) == "3" && Decimal(5) == "5";
  }

  lemma {:induction false} HammingIds()
    ensures HammingParams(7, 4) && HammingParams(15, 11)
    ensures HammingProtocol(7, 4).id == "hamming-7-4" && HammingProtocol(15, 11).id == "hamming-15-11"
  {
    HammingSmall.Params7();
    HammingSmall.Params15();
    assert Decimal(7) == "7" && DecimalInt(4) == "4";
    assert Decimal(15) == Decimal(1) + [Digit(5)] == "15";
    assert DecimalInt(11) == Decimal(1) + [Digit(1)] == "11";
  }


  // ------------------------------------------------------------ properties

  /** `out` is `data` followed by nothing but zeros. */
  predicate PaddedCopy(data: seq<Bit>, out: seq<Bit>) {
    |data| <= |out| && out[..|data|] == data && forall j :: |data| <= j < |out| ==> out[j] == 0
  }

  /** On a noiseless channel the protocol gives back its input, possibly with zero padding. */
  ghost predicate RecoversData(p: Protocol) {
    forall bits :: PaddedCopy(bits, p.decode(p.encode(bits)))
  }

  /** On a noiseless channel the protocol gives back exactly its input. */
  ghost predicate RecoversExactly(p: Protocol) {
    forall bits :: p.decode(p.encode(bits)) == bits
  }

  lemma {:induction false} RepetitionProtocolRecovers(n: nat)
    requires n >= 1
    ensures RecoversExactly(RepetitionProtocol(n))
    ensures RecoversExactly(CreateGenericProtocol(RepetitionFamily, n, None))
  {
    forall bits: seq<Bit>
      ensures Repetition.Decode(Repetition.Encode(bits, n), n) == bits
    {
      Repetition.RoundTrip(bits, n);
    }
  }

  /** A Hamming protocol with a valid length and `k = n - m` gives back its
      input followed by the zeros that pad the last block. */
  lemma {:induction false} HammingProtocolRecovers(n: nat, k: int)
    requires ValidLength(n) && k == n - ParityBits(n) && k >= 1
    ensures RecoversData(HammingProtocol(n, k))
  {
    var p := HammingProtocol(n, k);
    forall bits: seq<Bit>
      ensures PaddedCopy(bits, p.decode(p.encode(bits)))
    {
      HammingRoundTrip(bits, n, k);
    }
  }

  /** The factory falls back to `k = n - m` when `k` is missing or zero, and
      that protocol gives back its input up to padding. */
  lemma {:induction false} GenericHammingRecovers(n: nat, k: Option<int>)
    requires ValidLength(n) && n - ParityBits(n) >= 1
    requires k.None? || k.value == 0 || k.value == n - ParityBits(n)
    ensures BlockSize(n, k) == n - ParityBits(n)
    ensures RecoversData(CreateGenericProtocol(HammingFamily, n, k))
  {
    var kVal := n - ParityBits(n);
    assert BlockSize(n, k) == kVal;
    var p := CreateGenericProtocol(HammingFamily, n, k);
    forall bits: seq<Bit>
      ensures PaddedCopy(bits, p.decode(p.encode(bits)))
    {
      assert p.encode(bits) == Hamming.Encode(bits, n, kVal);
      HammingRoundTrip(bits, n, kVal);
    }
  }

  /** The round trip of the Hamming codec, as a padded copy. */
  lemma {:induction false} HammingRoundTrip(bits: seq<Bit>, n: nat, k: nat)
    requires ValidLength(n) && k == n - ParityBits(n) && k >= 1
    ensures PaddedCopy(bits, Hamming.Decode(Hamming.Encode(bits, n, k), n))
  {
    HammingTheory.RoundTrip(bits, n, k);
  }

  /** A Hamming protocol whose length is not `2^m - 1` sends its input unencoded. */
  lemma {:induction false} InvalidLengthSendsRaw(n: nat, k: int, bits: seq<Bit>)
    requires n >= 1 && !ValidLength(n)
    ensures HammingProtocol(n, k).encode(bits) == bits
  {
  }

  /** Every protocol of the table gives back its input on a noiseless
      channel, the repetition and uncoded ones exactly. */
  lemma {:induction false} TableRecovers()
    ensures forall i :: 0 <= i < 5 ==> RecoversData(ProtocolTable()[i])
    ensures RecoversExactly(ProtocolTable()[0])
    ensures RecoversExactly(ProtocolTable()[1]) && RecoversExactly(ProtocolTable()[2])
  {
    TableEntries();
    HammingSmall.Params7();
    HammingSmall.Params15();
    RepetitionProtocolRecovers(3);
    RepetitionProtocolRecovers(5);
    HammingProtocolRecovers(7, 4);
    HammingProtocolRecovers(15, 11);
    UncodedRecovers();
    ExactIsPadded(RepetitionProtocol(3));
    ExactIsPadded(RepetitionProtocol(5));
  }

  lemma {:induction false} UncodedRecovers()
    ensures RecoversExactly(UncodedProtocol()) && RecoversData(UncodedProtocol())
  {
    ExactIsPadded(UncodedProtocol());
  }

  /** Getting the input back exactly is getting it back with no padding. */
  lemma {:induction false} ExactIsPadded(p: Protocol)
    requires RecoversExactly(p)
    ensures RecoversData(p)
  {
    forall bits: seq<Bit>
      ensures PaddedCopy(bits, p.decode(p.encode(bits)))
    {
      assert p.decode(p.encode(bits)) == bits;
      assert bits[..|bits|] == bits;
    }
  }


  /** The advertised rate is the ratio of data bits to transmitted bits. */
  ghost predicate RateMatches(p: Protocol, bits: seq<Bit>) {
    |p.encode(bits)| as real * p.rate == |bits| as real
  }

  /** For any input made of whole data blocks — 1 bit for the uncoded and
      repetition codes, `k` bits for the Hamming codes — every protocol of
      the table sends `1 / rate` bits per data bit. */
  lemma {:induction false} TableRateIsLengthRatio(i: nat, bits: seq<Bit>, blocks: nat)
    requires i < 5
    requires |bits| == blocks * [1, 1, 1, 4, 11][i]
    ensures RateMatches(ProtocolTable()[i], bits)
  {
    TableEntries();
    if i == 0 {
      RateFromLengths(UncodedProtocol(), bits, |bits|, 1, 1);
    } else if i == 1 {
      RepetitionRate(3, bits);
    } else if i == 2 {
      RepetitionRate(5, bits);
    } else if i == 3 {
      HammingRate(7, 4, bits, blocks);
    } else {
      HammingRate(15, 11, bits, blocks);
    }
  }

  /** A repetition protocol sends exactly `n` bits per data bit. */
  lemma {:induction false} RepetitionRate(n: nat, bits: seq<Bit>)
    requires n >= 1
    ensures |RepetitionProtocol(n).encode(bits)| == n * |bits|
    ensures RateMatches(RepetitionProtocol(n), bits)
  {
    RateFromLengths(RepetitionProtocol(n), bits, |bits|, n, 1);
  }

  /** With a valid length, `blocks` whole blocks of `k` bits encode to
      `blocks` codewords of `n` bits, so the rate `k / n` is exact. */
  lemma {:induction false} HammingRate(n: nat, k: int, bits: seq<Bit>, blocks: nat)
    requires ValidLength(n) && HammingParams(n, k) && |bits| == blocks * k
    ensures |HammingProtocol(n, k).encode(bits)| == blocks * n
    ensures RateMatches(HammingProtocol(n, k), bits)
  {
    HammingLength(n, k, bits, blocks);
    RateFromLengths(HammingProtocol(n, k), bits, blocks, n, k);
  }

  lemma {:induction false} HammingLength(n: nat, k: int, bits: seq<Bit>, blocks: nat)
    requires ValidLength(n) && HammingParams(n, k) && |bits| == blocks * k
    ensures |Hamming.Encode(bits, n, k)| == blocks * n
  {
    Hamming.EncodeLength(bits, n, k);
    CeilDivWhole(blocks, k);
  }

  /** `blocks` blocks of `k` data bits sent as `blocks` blocks of `n` bits at rate `k / n`. */
  lemma {:induction false} RateFromLengths(p: Protocol, bits: seq<Bit>, blocks: int, n: int, k: int)
    requires n >= 1 && |p.encode(bits)| == blocks * n && |bits| == blocks * k
    requires p.rate == k as real / n as real
    ensures RateMatches(p, bits)
  {
    var b, nr, kr := blocks as real, n as real, k as real;
    assert |p.encode(bits)| as real == b * nr;
    assert |bits| as real == b * kr;
  }
}

=== FILE: repetition.dfy ===
/** The generic repetition code of the codec library: every bit is sent `n`
    times and recovered by a majority vote over each chunk of `n`. */
module Repetition {
  import opened Bits

  /** Each bit written `n` times in a row, bits in order (the nested push loops). */
  function Encode(data: seq<Bit>, n: nat): (r: seq<Bit>)
    ensures |r| == n * |data|
  {
    if |data| == 0 then []
    else
      assert n * |data| == n + n * (|data| - 1);
      Repeat(data[0], n) + Encode(data[1..], n)
  }

  /** The vote `sum > n / 2`, where `/` is real division: a strict majority of
      the `n` copies, so an even split goes to 0. */
  predicate Majority(sum: int, n: int) {
    2 * sum > n
  }

  /** The decision for one chunk, always measured against the full `n`: the
      source's test `sum > n / 2` with real division. */
  function Vote(chunk: seq<Bit>, n: nat): (b: Bit)
    ensures b == 1 <==> Ones(chunk) as real > n as real / 2.0
    ensures b == 0 <==> Ones(chunk) as real <= n as real / 2.0
  {
    if Majority(Ones(chunk), n) then 1 else 0
  }

  /** One vote per chunk of `n` received bits. The loop steps `i` by `n` while
      `i < received.length`, so a final chunk shorter than `n` still yields a bit. */
  function Decode(received: seq<Bit>, n: nat): (r: seq<Bit>)
    requires n >= 1
    ensures |r| == CeilDiv(|received|, n)
    decreases |received|
  {
    if |received| == 0 then []
    else
      var t := Min(n, |received|);
      [Vote(received[..t], n)] + Decode(received[t..], n)
  }

  /** The `j`-th chunk of `n` bits, cut short by the end of the sequence. */
  function Chunk(s: seq<Bit>, j: nat, n: nat): seq<Bit>
    requires j * n <= |s|
  {
    s[j * n .. Min(j * n + n, |s|)]
  }

  /** Bit `i` of the encoding is data bit `i / n`: each bit repeated `n` times, contiguously, in order. */
  lemma {:induction false} EncodeIndex(data: seq<Bit>, n: nat, i: nat)
    requires n >= 1 && i < |Encode(data, n)|
    ensures i / n < |data| && Encode(data, n)[i] == data[i / n]
    decreases |data|
  {
    if i < n {
      DivModUnique(i, n, 0, i);
    } else {
      FloorDivStep(i, n);
      EncodeIndex(data[1..], n, i - n);
    }
  }

  /** Encoding distributes over concatenation: each bit is encoded on its own. */
  lemma {:induction false} EncodeAppend(a: seq<Bit>, b: seq<Bit>, n: nat)
    ensures Encode(a + b, n) == Encode(a, n) + Encode(b, n)
    decreases |a|
  {
    if |a| == 0 {
      assert a + b == b;
    } else {
      assert (a + b)[1..] == a[1..] + b;
      EncodeAppend(a[1..], b, n);
    }
  }

  /** Output bit `j` is the majority vote of input chunk `j`, the last chunk possibly short. */
  lemma {:induction false} DecodeChunks(received: seq<Bit>, n: nat, j: nat)
    requires n >= 1 && j < |Decode(received, n)|
    ensures j * n < |received|
    ensures Decode(received, n)[j] == Vote(Chunk(received, j, n), n)
    decreases |received|
  {
    var t := Min(n, |received|);
    var rest := received[t..];
    assert Decode(received, n) == [Vote(received[..t], n)] + Decode(rest, n);
    if j > 0 {
      DecodeChunks(rest, n, j - 1);
      ChunkShift(received, n, j);
    }
  }

  /** Chunk `j` of a sequence is chunk `j - 1` of what follows its first chunk. */
  lemma {:induction false} ChunkShift(s: seq<Bit>, n: nat, j: nat)
    requires n >= 1 && j >= 1 && (j - 1) * n < |s[Min(n, |s|)..]|
    ensures j * n < |s|
    ensures Chunk(s[Min(n, |s|)..], j - 1, n) == Chunk(s, j, n)
  {
    MulSucc(j - 1, n);
    var t := Min(n, |s|);
    SliceShift(s, t, (j - 1) * n, Min((j - 1) * n + n, |s| - t));
  }

  /** A slice of a suffix is a slice of the whole, shifted by where the suffix starts. */
  lemma {:induction false} SliceShift(s: seq<Bit>, t: nat, lo: nat, hi: nat)
    requires t + hi <= |s| && lo <= hi
    ensures s[t..][lo..hi] == s[t + lo..t + hi]
  {
  }

  /** On a noiseless channel decoding undoes encoding, for every `n >= 1`. */
  lemma {:induction false} RoundTrip(data: seq<Bit>, n: nat)
    requires n >= 1
    ensures Decode(Encode(data, n), n) == data
    decreases |data|
  {
    if |data| > 0 {
      var e := Encode(data, n);
      assert e[..n] == Repeat(data[0], n);
      assert e[n..] == Encode(data[1..], n);
      OnesRepeat(data[0], n);
      RoundTrip(data[1..], n);
    }
  }

  /** The tie rule and the short final chunk, for every `n`: bit `j` of the
      output comes from a chunk that starts inside the received bits, and a
      chunk without a strict majority of the full `n` (an even split, or a
      short last chunk with too few ones) decodes to 0. */
  lemma {:induction false} TieAndShortChunk(received: seq<Bit>, n: nat, j: nat)
    requires n >= 1 && j < |Decode(received, n)|
    ensures j * n < |received|
    ensures 2 * Ones(Chunk(received, j, n)) <= n ==> Decode(received, n)[j] == 0
    ensures 2 * Ones(Chunk(received, j, n)) > n ==> Decode(received, n)[j] == 1
  {
    DecodeChunks(received, n, j);
  }

  /** Two instances of that rule: with `n = 2`, one 1 out of two decodes to 0,
      and a lone final 1 decodes to 0 as well. */
  lemma {:induction false} TieAndShortChunkExamples()
    ensures Decode([1, 0, 1], 2) == [0, 0]
    ensures Decode([1, 1, 1, 1], 3) == [1, 0]
  {
    var a: seq<Bit> := [1, 0, 1];
    assert a[..2] == [1, 0] && a[2..] == [1];
    assert Ones([1, 0]) == 1 && Ones([1]) == 1;
    assert Decode(a[2..], 2) == [0] + Decode([], 2);
    var b: seq<Bit> := [1, 1, 1, 1];
    assert b[..3] == [1, 1, 1] && b[3..] == [1];
    assert Ones([1, 1, 1]) == 3;
    assert Decode(b[3..], 3) == [0] + Decode([], 3);
  }
}
